=== FILE: README.md ===
# cci cull model

A Dafny model of the culling core of `cci`, a set of tools for Wikipedia
Contributor Copyright Investigations (CCI). A CCI case page lists, section by
section, the pages a contributor edited, each with links to the diffs that
still need review. The tools do four things:

- They load the records of a case: edits, their before/after revisions, the
  added lines of each edit, and the rules that culled them (`cci/case.py`).
- They cull diffs (`cci/cull_diffs.py`). For each edit they:
  - extract the lines the edit added;
  - strip whitelisted substrings from each line;
  - try the configured rules in order: `regex` rules with optional wikitext
    preprocessing, and `refs` bibliography rules;
  - respect each rule's `max` cap;
  - group the fully culled edits by case page.
- They rewrite a case page once its culled diffs are known
  (`cci/apply_cull.py`):
  - remove the positive-size diff links of the culled edits;
  - drop page lines left without diffs;
  - drop `=== Pages ` sections left empty;
  - build the edit summary `-removed/total diffs`.
- They parse a fetched case page (`cci/fetch_cci.py`): recognise collapsed
  sections, section headings, listed-page lines and diff links.

## Files

| file | module | what it holds |
|---|---|---|
| `wrappers.dfy` | `Wrappers` | `Option`, `Result` |
| `text.dfy` | `Text` | the Python string primitives the tools rely on, listed below |
| `case.dfy` | `Case` | the records; `Line` and `Edit` as classes, the others as datatypes; the `load` methods |
| `rules.dfy` | `Rules` | rule definitions, wikitext preprocessing, `_match_regex`, `_match_refs`, `_match_rule` |
| `cull.dfy` | `Cull` | added-line extraction, `_cull_edit`, the caps, the driver loop and grouping |
| `apply_cull.dfy` | `ApplyCull` | the case-page title, the batch key, `_build_edit`'s two passes and summary |
| `fetch_cci.dfy` | `FetchCci` | `_is_collapsed`, the section-heading index, `_parse_line`, `_parse_diff` |

The string primitives in `text.dfy` are:

- `str.strip` / `lstrip` / `splitlines` / `join` / `replace` / `count` / `lower` / `in`;
- `int` and `str` on decimals;
- `re.sub(r'\s+', ' ', …)`.

Modelling choices:

- **The `Line` and `Edit` classes.** `_cull_edit` updates these objects in
  place, so they are classes. `_cull_edit`, its whitelist loop and its line
  loop are methods with `modifies` clauses. Each such method is proved against
  a pure specification: `Cull.Run` and `Cull.EditPass`. The caps, the counts
  and the provenance lemmas are proved about that specification.
- **The source's loops.** Each loop is a method proved equal to a
  specification function. This covers:
  - the two passes of `_build_edit` (`ApplyCull.RewriteLines`, `ApplyCull.DropEmptySections`);
  - the substitution and pattern loops of `_match_regex`;
  - the journal/title loop of `_match_refs`;
  - the driver loop of `cull_diffs` (`Cull.CullDiffs`).
- **Python's regular-expression engine and the mwparserfromhell tree
  operations are not modelled.** They enter as function-valued fields of
  `Rules.Env`: `fullmatch`, `sub`, parsing, the tree passes, and the count of
  `ref` tags. `fullmatch` and `sub` may fail, which stands for any exception
  they raise: the `re.error` of a malformed pattern or replacement, or the
  `ValueError` of incompatible flags; the model reports both as `ReError`. The code that surrounds
  them is modelled concretely:
  - the mode dispatch;
  - the `deref` loop;
  - the whitespace collapse;
  - the size thresholds as predicates;
  - the flag parsing;
  - the pattern order and the provenance strings.
- **The cull specification and the `Matcher` parameter.** The specification
  functions of the cull engine take the rule matcher as a parameter
  (`Rules.Matcher`). The methods take the environment and require
  `Rules.Implements(mr, env)`, so both describe the same `_match_rule`.
- **Fixed regular expressions are spelled out.** These are the expressions
  written into the code:
  - the diff link `\[\[Special:Diff/<diff>\|\(\+\d+\)\]\]`;
  - the bare page line;
  - `^Pages (\d+) through (\d+)$`;
  - `^\d+$`;
  - `^\([+-]\d+\)$`.

  They are modelled as exact string predicates. This includes the fact that
  `$` also matches before one final newline.
- **Exceptions are `Result` values.** Examples: `NotImplementedError`,
  `KeyError`, the `TypeError` of `reduce` on an empty flag list, the
  `TypeError` of a dataclass constructor given an unknown or missing keyword,
  `re.error` (or the `ValueError` of incompatible regex flags), a failed `assert`, and `int()` on a non-number.

### Behaviours of the source worth noting

- **Rule caps.** `rule_counts` is created inside `_cull_edit`
  (`cci/cull_diffs.py` line 120). So a rule's `max` caps the lines it culls
  within one edit, not within the whole run.
- **A rule culls at least once.** The cap is only tested once the rule has a
  count (line 129). So a rule with `max: m` culls at most `max(m, 1)` lines
  per edit.
- **`Edit.culled` on an empty delta.** It is `self.delta and all(…)`, and a
  `Delta` object is always truthy. So an edit whose delta is present and empty
  is culled (`Cull.EmptyDeltaCulled`).
- **The `refs` rule removes every copy.** Its residual uses `str.replace`,
  which removes every occurrence of the journal and of the title, not one of
  each.
- **Whitelist items are an ordered list.** They come from `splitlines()` of
  one text block and are tried in order. An empty item is contained in every
  text, so it always leaves a `whitelist` record (`Cull.BlankWhitelistItem`).
  Each item is tested against the text as the earlier items left it, so
  deleting one item can join the pieces of a later one, which is then recorded
  (`Cull.WhitelistJoins`).
- **`Line.load` keeps the raw rule mappings.** It converts `raw['rules']`
  into `kwargs` and then builds the line from `raw`. So a bad rule raises, but
  the loaded line keeps the raw mappings (`Case.LoadLine`).
- **Counting an edit that removed no link.** `_build_edit` counts an edit as
  removed on every line that carries its `[[Special:Diff/<diff>|` marker. This
  happens even when the link has a negative size and is not removed
  (`ApplyCull.FoldCountsUnremoved`).

## Model

| member | source | states |
|---|---|---|
| Text.RemoveAll | cci/cull_diffs.py:124 | `s.replace(p, '')` is never longer than `s` |
| Text.RemoveAllLength | cci/cull_diffs.py:245 | removing a non-empty `p` deletes exactly `s.count(p)` copies of it |
| Text.CountPositiveIff | cci/apply_cull.py:76 | `s.count(p) > 0` exactly when `p in s`, for non-empty `p` |
| Text.Count | cci/apply_cull.py:76 | `content.count(p)` counts at most `len(s) + 1` occurrences, and a non-empty `p` is found only in a string at least as long as it |
| Text.CountBound | cci/apply_cull.py:76 | at most `len(s) / len(p)` copies of a non-empty `p` are counted; an empty `p` is counted once per gap, `len(s) + 1` times |
| Text.RemoveAllAbsent | cci/cull_diffs.py:123-124 | replacing a substring that does not occur leaves the text unchanged |
| Text.RemoveAllShrinks | cci/cull_diffs.py:123-124 | replacing a non-empty substring that occurs shortens the text by at least its length |
| Text.Lower | cci/fetch_cci.py:99 | `str.lower()` keeps the length and lower-cases each character (ASCII) |
| Text.TrimLeft | cci/cull_diffs.py:114 | the result is a suffix with only whitespace removed and no leading whitespace |
| Text.TrimRight | cci/cull_diffs.py:114 | the result is a prefix with only whitespace removed and no trailing whitespace |
| Text.Strip | cci/apply_cull.py:78 | `str.strip()` has no whitespace at either end and is no longer than its input |
| Text.StripSlice | cci/cull_diffs.py:114-116 | `str.strip()` is a slice of the input with only whitespace cut around it |
| Text.StripEmptyIff | cci/cull_diffs.py:116 | `line.strip()` is empty exactly when every character is whitespace |
| Text.LStripChar | cci/fetch_cci.py:120 | `lstrip(':')` removes only leading colons and leaves none in front |
| Text.SplitLines | cci/apply_cull.py:78 | no line of `splitlines()` contains a line separator |
| Text.JoinSplit | cci/apply_cull.py:78-109 | joining the `splitlines()` of a `\n`-separated text without a final newline with `\n` gives it back |
| Text.CollapseWhitespace | cci/cull_diffs.py:196 | `re.sub(r'\s+', ' ', s)` leaves only single spaces, each not followed by whitespace, never lengthens the text, and starts with the first character, or a space if that was whitespace |
| Text.CollapseFixes | cci/cull_diffs.py:196 | a text with single spaces only is left alone |
| Text.CollapseIdempotent | cci/cull_diffs.py:196 | collapsing twice is collapsing once |
| Text.CollapseKeepsNonSpace | cci/cull_diffs.py:196 | the substitution keeps every non-whitespace character, in order |
| Text.CollapseRun | cci/cull_diffs.py:196 | a whole run of whitespace becomes one space |
| Text.CollapseAppend | cci/cull_diffs.py:196 | no whitespace run spans a boundary next to a non-whitespace character, so the two sides are collapsed separately |
| Text.NatToString | cci/apply_cull.py:111 | `str(n)` of a non-negative integer is a digit string |
| Text.DigitsValueOfNatToString | cci/apply_cull.py:111 | `int(str(n)) == n` |
| Text.ParseInt | cci/apply_cull.py:48 | `int(s)` succeeds exactly when the stripped text is digits, or a `+` or `-` followed by digits, and gives their signed value |
| Text.ParseIntOfNat | cci/apply_cull.py:48 | `int` of a decimal numeral gives the number back |
| Text.ParseIntOfInt | cci/apply_cull.py:48 | `int(str(i)) == i` for every integer, with any whitespace around it |
| Text.DigitRun | cci/apply_cull.py:84 | the greedy `\d+` run: all digits, followed by a non-digit or the end |
| Text.DigitRunOf | cci/fetch_cci.py:82 | a digit string followed by a non-digit is matched whole by `\d+` |
| Case.LoadCullRule | cci/case.py:25-27 | `CullRule(**raw)` fails exactly when `name` is missing or an unknown key is present; `detail` defaults to `None` |
| Case.LoadDumpCullRule | cci/case.py:20-27 | loading the dumped fields of a rule gives the rule back |
| Case.LoadRevision | cci/case.py:11-17 | `Revision(**raw)` fails exactly when `raw` is missing or an unknown key is present; otherwise it keeps the stored text |
| Case.LoadDumpRevision | cci/case.py:11-17 | loading the dumped field of a revision gives the revision back |
| Case.Line.constructor | cci/case.py:30-36 | a new line has the given index, raw text and text, is not culled and has no rules |
| Case.Line.Restore | cci/case.py:62 | `Line(**raw)` with every field given |
| Case.LoadedState | cci/case.py:59-62 | the stored text, culled exactly when the stored flag is `true`, and one record per raw rule mapping, in order |
| Case.LoadLine | cci/case.py:58-62 | fails exactly when `rules` is missing, a rule fails to load, an unknown key is present or one of `index`, `raw` and `text` is missing, with `KeyError` when `rules` is missing; otherwise a fresh line with the raw index and raw text, in the state `LoadedState` gives |
| Case.LoadDelta | cci/case.py:69-71 | loads every line in order, each fresh and loaded as `LoadLine` says; fails exactly when some line fails to load |
| Case.Edit.constructor | cci/case.py:74-82 | the edit has the given fields |
| Case.LoadEdit | cci/case.py:84-91 | fails exactly when `before` or `after` is missing (`KeyError`) or fails to load, a truthy delta has a line that fails to load, an unknown key is present, or one of `casepage`, `section`, `page` and `diff` is missing; the delta is loaded only when it is a truthy object; the other fields are carried over, each line is loaded as `LoadLine` says, and the edit is culled exactly when it has a delta whose raw lines are all stored culled |
| Case.Edit.Culled | cci/case.py:93-95 | a culled edit has a delta; a present delta with no lines is culled |
| Case.NewCase | cci/case.py:149-155 | `index` lists the page keys in insertion order, without repeats |
| Rules.LoadRuleSet | cci/cull_diffs.py:43-44 | the rules keep their order; a missing whitelist is empty; no whitelist item holds a line break |
| Rules.ModePasses | cci/cull_diffs.py:183-194 | `strip` runs the three link passes then the tag pass; `deref` runs the three link passes in order once per `ref` tag, then the tag pass; `deextlink` runs only the external-link pass |
| Rules.Repeat | cci/cull_diffs.py:187-189 | `n` rounds of the passes are `n` times as long, start with the passes, and repeat each position one round later |
| Rules.RepeatLinkPasses | cci/cull_diffs.py:187-189 | position `i` of the repeated link passes is link pass `i mod 3` |
| Rules.Preprocess | cci/cull_diffs.py:180-196 | a parse failure or an unknown mode raises; the result has its whitespace collapsed |
| Rules.PreprocessCollapsed | cci/cull_diffs.py:196 | collapsing the preprocessed text again changes nothing |
| Rules.DerefWithoutRefs | cci/cull_diffs.py:186-190 | in `deref` mode, text without `ref` tags only has its tags unwrapped |
| Rules.DerefWithRefs | cci/cull_diffs.py:186-190 | in `deref` mode, text with `ref` tags has its links stripped once per tag before the tag pass |
| Rules.RunPassesAppend | cci/cull_diffs.py:183-190 | running two pass lists in sequence is running their concatenation |
| Rules.KeptParams | cci/cull_diffs.py:205-207 | `_strip_templates` keeps exactly the parameters whose name or value reaches 30 characters |
| Rules.TemplateRemovedIff | cci/cull_diffs.py:203-209 | a template is removed exactly when its name is under 30 characters and all its parameters are short |
| Rules.FirstUnknownFlag | cci/cull_diffs.py:169 | finds the first flag name `re.RegexFlag` does not know, or shows all are known |
| Rules.CombineFlags | cci/cull_diffs.py:167-169 | combining flags fails exactly when the list is empty or a name is unknown |
| Rules.RuleFlags | cci/cull_diffs.py:167-171 | a rule without `flags` uses `re.IGNORECASE` |
| Rules.FirstFullMatch | cci/cull_diffs.py:172-177 | the first pattern that fully matches, with every earlier one tried without a match; none if every pattern was tried without a match; the `re.error` of a pattern reached before any matched |
| Rules.RegexCullsWithFirstMatch | cci/cull_diffs.py:158-177 | once the text is prepared, a `regex` rule culls exactly when some pattern fully matches before any raises, and records the first such pattern; it passes over the line exactly when every pattern is tried without a match; it raises exactly when a pattern raises `re.error` before any matched |
| Rules.Substitute | cci/cull_diffs.py:163-165 | the substitution loop applies each `(pattern, repl)` in order and stops at the first `re.sub` that raises `re.error` |
| Rules.ApplySubs | cci/cull_diffs.py:163-165 | an error of the substitutions is the `re.error` of one of their patterns |
| Rules.ApplySubsStops | cci/cull_diffs.py:163-165 | once a substitution has raised, the later ones do not run and the error is the outcome |
| Rules.RegexOutcome | cci/cull_diffs.py:158-177 | preprocessing errors and `re.error` from a substitution propagate; a missing `match` raises `KeyError`; a cull names the rule and records `regex match: ` followed by one of its patterns |
| Rules.MatchRegex | cci/cull_diffs.py:158-177 | `_match_regex` returns or raises what `RegexOutcome` says |
| Rules.FirstFullMatchAt | cci/cull_diffs.py:172-176 | the first pattern whose `re.fullmatch` raises or matches decides the outcome: its `re.error`, or a match at its position |
| Rules.RefsOutcome | cci/cull_diffs.py:237-247 | text that is not a `*` item never culls; a cull is recorded as `bibliography match` |
| Rules.MatchRefs | cci/cull_diffs.py:237-247 | the journal/title loop returns or raises what `RefsOutcome` says |
| Rules.RuleOutcome | cci/cull_diffs.py:151-156 | an unknown rule type raises; a cull names the rule it was asked about |
| Rules.ImplementsNamesItsRule | cci/cull_diffs.py:151-156 | any implementation of `_match_rule` records the rule it was asked about |
| Rules.MatchRule | cci/cull_diffs.py:151-156 | `_match_rule` dispatches on the rule type as `RuleOutcome` says |
| Cull.AddedFrom | cci/cull_diffs.py:113-117 | added lines are numbered from 1 within the new text, in strictly increasing order |
| Cull.AddedFromSound | cci/cull_diffs.py:113-117 | every extracted line is non-blank, not a line of the old text, and carries its stripped text |
| Cull.AddedFromComplete | cci/cull_diffs.py:113-117 | every non-blank line of the new text that is not in the old one is extracted |
| Cull.LineSet | cci/cull_diffs.py:112 | the set of lines of a text holds exactly its `splitlines()` |
| Cull.InitialStates | cci/cull_diffs.py:114 | each fresh line starts unculled, with its stripped text and no rules |
| Cull.UnchangedAddsNothing | cci/cull_diffs.py:112-117 | an edit that changes nothing adds no lines |
| Cull.WhitelistPass | cci/cull_diffs.py:122-125 | the text never grows; at most one record per item, each a `whitelist` record naming one of the items; `WhitelistOne` and `WhitelistAppend` give the pass item by item |
| Cull.BlankWhitelistItem | cci/cull_diffs.py:122-125 | an empty whitelist item leaves the text unchanged and still leaves a record |
| Cull.WhitelistOne | cci/cull_diffs.py:122-125 | one item is deleted everywhere and recorded exactly when the text contains it; otherwise nothing changes |
| Cull.WhitelistAppend | cci/cull_diffs.py:122-125 | the pass over `a + b` is the pass over `a`, then the pass over `b` on the text `a` left, with the records of both in order |
| Cull.WhitelistJoins | cci/cull_diffs.py:122-125 | an item the original text lacks is still recorded when deleting an earlier item joins its pieces: `X` then `ab` on `aXb` |
| Cull.Capped | cci/cull_diffs.py:129 | a rule that has not culled yet in this edit, or has no `max`, is never capped |
| Cull.ScanSkips | cci/cull_diffs.py:127-135 | rules the pass goes over do not change where it ends |
| Cull.CullLineSpec | cci/cull_diffs.py:121-135 | a line is culled exactly when some rule is the first culler: it matches, is not capped, and every earlier rule is passed over; its record then follows the whitelist records and its count is raised; otherwise the records and counts stay, and the line stays live without an error exactly when every rule passes over it |
| Cull.Scan | cci/cull_diffs.py:127-135 | a line the rule pass culls names a rule that matches it, is not capped, and whose match is the recorded `CullRule`; a pass that raises carries the exception of a rule whose matcher raised it |
| Cull.ScanFirst | cci/cull_diffs.py:127-135 | the rule pass culls with the first rule that matches and is not capped, and every earlier rule passes over the line |
| Cull.Bump | cci/cull_diffs.py:133-134 | `setdefault` then `+= 1` changes only the named count |
| Cull.CullLine | cci/cull_diffs.py:121-135 | one line's pass only appends rule records and never un-culls; `CullLineSpec` says which records and when |
| Cull.StripWhitelist | cci/cull_diffs.py:122-125 | the in-place whitelist loop leaves the line as `WhitelistPass` says, with `culled` untouched |
| Cull.CullLineInPlace | cci/cull_diffs.py:121-135 | the in-place body of the line loop leaves the line, the counts and the exception as `CullLine` says |
| Cull.Run | cci/cull_diffs.py:120-135 | after `n` lines, the lines not yet reached are unchanged |
| Cull.RunLineState | cci/cull_diffs.py:120-135 | line `k` ends in the state `CullLine` gives its initial state with the counts the earlier lines left, unless an earlier line raised |
| Cull.EditPass | cci/cull_diffs.py:111-135 | `_cull_edit` yields one line state per added line |
| Cull.RunCounts | cci/cull_diffs.py:127-135 | `rule_counts[name]` is exactly the number of lines rule `name` culled |
| Cull.CullLineCounts | cci/cull_diffs.py:131-134 | culling a line raises its rule's count by one and no other count |
| Cull.RunCap | cci/cull_diffs.py:129-130 | the count of a rule with `max: m` never exceeds `max(m, 1)` |
| Cull.EditCap | cci/cull_diffs.py:129-130 | an edit never has more than `max(m, 1)` lines culled by a rule with `max: m` |
| Cull.CulledLinesNameARule | cci/cull_diffs.py:127-135 | a culled line's last record names a configured rule; the line was culled by its own iteration, after no error, by the first culler of its whitelist-reduced text, whose record follows the whitelist records |
| Cull.NewLines | cci/cull_diffs.py:113-117 | one fresh, distinct `Line` per extracted line, in its initial state |
| Cull.CullAt | cci/cull_diffs.py:121-135 | one turn of the line loop advances the state to `Run` after `i + 1` lines |
| Cull.CullLines | cci/cull_diffs.py:120-135 | the line loop leaves the lines and the exception as `Run` says |
| Cull.CullEdit | cci/cull_diffs.py:111-135 | the edit's delta holds fresh lines in the states `EditPass` gives; `edit.culled` holds exactly when they are all culled |
| Cull.RunStops | cci/cull_diffs.py:121-135 | after a line raises, no later line is touched |
| Cull.EmptyDeltaCulled | cci/case.py:93-95 | an edit with no added lines is culled, and culling it cannot raise |
| Cull.Admits | cci/cull_diffs.py:50-62 | without filters every edit is admitted |
| Cull.Selects | cci/cull_diffs.py:50-71 | a selected edit passes the filters |
| Cull.Selected | cci/cull_diffs.py:49-71 | exactly the edits that pass the filters, do not raise and are fully culled |
| Cull.SelectedAppend | cci/cull_diffs.py:49-71 | selecting from `a + b` is selecting from `a` then from `b`, so the selected edits keep their input order |
| Cull.SelectedOne | cci/cull_diffs.py:70-71 | a single edit is kept exactly when it is selected |
| Cull.Keys | cci/cull_diffs.py:71 | the case pages of the edits, each once, in order of first appearance |
| Cull.KeysOrder | cci/cull_diffs.py:71 | the keys come in the order in which their case pages first appear among the edits |
| Cull.Group | cci/cull_diffs.py:71 | exactly the edits of one case page |
| Cull.GroupAppendSeq | cci/cull_diffs.py:71 | a case page's group of `a + b` is its group of `a` then its group of `b` |
| Cull.GroupOne | cci/cull_diffs.py:71 | a single edit is in the group of its own case page and no other |
| Cull.GroupMap | cci/cull_diffs.py:71 | every entry of `culled` is non-empty and ends with an edit of its case page |
| Cull.GroupMapKeys | cci/cull_diffs.py:71-74 | the `culled` dictionary's keys are the case pages of the selected edits |
| Cull.GroupMapGroups | cci/cull_diffs.py:71 | each entry of `culled` is the non-empty group of its case page |
| Cull.GroupsEmpty | cci/cull_diffs.py:71 | a case page with no selected edit has no group |
| Cull.AppendStep | cci/cull_diffs.py:71 | `setdefault(...).append(edit)` extends the key order and one group |
| Cull.CullEditAt | cci/cull_diffs.py:63-69 | culling one admitted edit leaves it with the delta `EditPass` gives and keeps every earlier admitted edit's delta; the edit is selected exactly when culling did not raise and every added line is culled |
| Cull.CullNth | cci/cull_diffs.py:50-71 | one turn of the driver loop extends the selected edits, the group keys and the groups by exactly this edit's contribution; an edit the filters reject is left untouched |
| Cull.CullDiffs | cci/cull_diffs.py:48-71 | the keys and groups of `culled` are those of the selected edits; every admitted edit gets its delta; filtered edits keep theirs |
| ApplyCull.Title | cci/apply_cull.py:47-49 | fails exactly when `int(case_page)` fails; the title is the prefix and case name, with ` <page>` added exactly when the page number is not 1 |
| ApplyCull.TitleOfPageNumber | cci/apply_cull.py:47-49 | page 1 gets the bare title; any other page number is appended |
| ApplyCull.ZFill | cci/apply_cull.py:19 | `zfill(width)` pads to at least `width` characters |
| ApplyCull.ZFillDigits | cci/apply_cull.py:19 | zero-filling a number keeps its value |
| ApplyCull.Key | cci/apply_cull.py:19-40 | the key lies under `cull/batch-` |
| ApplyCull.LinkTail | cci/apply_cull.py:84 | `\d+\)\]\]` matches at least four characters within the text |
| ApplyCull.LinkAt | cci/apply_cull.py:84 | a link match is non-empty and within the text |
| ApplyCull.RemoveLinks | cci/apply_cull.py:84 | `re.sub` of the link never lengthens the line |
| ApplyCull.RemoveLinksAbsent | cci/apply_cull.py:83-84 | a line without a positive-size link head is left unchanged |
| ApplyCull.RemoveLinksLink | cci/apply_cull.py:84 | a positive-size link at the front of a line is deleted whole |
| ApplyCull.RemoveLinksAfter | cci/apply_cull.py:84 | text in which no link head starts is left in front of what the substitution makes of the rest |
| ApplyCull.Fold | cci/apply_cull.py:80-87 | each edit counts at most once per line; a line is changed exactly when something was counted; an unchanged line keeps its text and has no page |
| ApplyCull.Visit | cci/apply_cull.py:83-87 | one edit counts at most once, and a line it does not match is left exactly as it was |
| ApplyCull.FoldUntouched | cci/apply_cull.py:82-87 | a line without any culled diff's marker is unchanged and counts nothing |
| ApplyCull.FoldCountsUnremoved | cci/apply_cull.py:83-87 | a marker whose link has a negative size is counted although the line keeps it |
| ApplyCull.FoldLastPage | cci/apply_cull.py:82-86 | a changed line's `page` is the page of the last edit whose marker the line held when that edit's turn came |
| ApplyCull.FoldDropsLink | cci/apply_cull.py:82-87 | the culled link that ends a bare page line is removed whole, counted once, and its edit's page recorded |
| ApplyCull.RewriteLine | cci/apply_cull.py:80-87 | the inner loop computes `Fold` |
| ApplyCull.LineOutcome | cci/apply_cull.py:88-93 | a line is dropped only if it was changed and no `Special:Diff` is left on it |
| ApplyCull.LineDropped | cci/apply_cull.py:88-91 | a bare page line whose one diff link is culled is dropped |
| ApplyCull.IsBarePageLine | cci/apply_cull.py:89-90 | the line is `*`, an optional `'''N''' `, `[[:page]] (`, digits, and ` edit): ` or ` edits): ` to the end of the line; such a line starts with `*`, ends with a space and is at least 17 characters longer than the page title |
| ApplyCull.BarePageLineOf | cci/apply_cull.py:89-90 | the lines `*[[:<page>]] (<n> edit): ` and `(<n> edits): ` match the bare-page-line pattern |
| ApplyCull.Rewritten | cci/apply_cull.py:79-93 | the first pass never adds lines |
| ApplyCull.RemovedCount | cci/apply_cull.py:77-87 | `removed_diffs` is at most the number of lines times the number of culled edits |
| ApplyCull.RewrittenUntouched | cci/apply_cull.py:79-93 | lines without culled diffs pass the first pass unchanged and count nothing |
| ApplyCull.PerLineRewritten | cci/apply_cull.py:79-93 | line-by-line outcomes and counts add up to the first pass and `removed_diffs` |
| ApplyCull.PerLineOf | cci/apply_cull.py:80-93 | the per-line outcome and count functions agree with the first pass |
| ApplyCull.RewriteOne | cci/apply_cull.py:88-93 | one line is popped or overwritten as its outcome says, and its count is returned |
| ApplyCull.RewriteAt | cci/apply_cull.py:79-93 | one turn of the reverse loop keeps the lines before `i` and rewrites from `i` on |
| ApplyCull.RewriteAll | cci/apply_cull.py:79-93 | the reverse loop with pops in place produces all outcomes in order and sums the counts |
| ApplyCull.RewriteLines | cci/apply_cull.py:79-93 | the first loop of `_build_edit` yields `Rewritten` and `removed_diffs` |
| ApplyCull.NextHeader | cci/apply_cull.py:98 | the first heading in the lines, with no heading before it; none if there is none |
| ApplyCull.Drop | cci/apply_cull.py:95-107 | the second pass never adds lines |
| ApplyCull.DropLead | cci/apply_cull.py:95-107 | lines before the first heading pass through untouched |
| ApplyCull.Kept | cci/apply_cull.py:106-107 | the content lines are exactly the non-empty non-heading lines |
| ApplyCull.DropKeepsContent | cci/apply_cull.py:95-107 | the second pass removes only headings and empty lines: every content line survives, in order |
| ApplyCull.DropHead | cci/apply_cull.py:95-107 | the second pass keeps whether a section has content, and whether a heading follows |
| ApplyCull.DropStartsWithHeader | cci/apply_cull.py:98-105 | lines that start with a heading still start with one afterwards |
| ApplyCull.DropTidy | cci/apply_cull.py:95-107 | afterwards no heading is followed by another heading with only empty lines between |
| ApplyCull.TidyDropFixes | cci/apply_cull.py:95-107 | a page without an empty section before another heading is left as it is |
| ApplyCull.DropIdempotent | cci/apply_cull.py:95-107 | running the second pass twice is running it once |
| ApplyCull.DropEmptySection | cci/apply_cull.py:98-105 | a heading with only empty lines before the next heading is removed with those lines |
| ApplyCull.BlanksThenHeader | cci/apply_cull.py:98-107 | empty lines then a heading: the heading comes next and there is no content |
| ApplyCull.DropKeepsLastSection | cci/apply_cull.py:98-105 | the last heading and everything after it survive, even when empty |
| ApplyCull.LastSectionWhole | cci/apply_cull.py:98-105 | a final section is kept whole |
| ApplyCull.PopRange | cci/apply_cull.py:103-104 | popping at `i` `n` times removes `lines[i..i+n]` |
| ApplyCull.DropKeep | cci/apply_cull.py:98-107 | a line survives unless it heads an empty section followed by another heading |
| ApplyCull.DropSkip | cci/apply_cull.py:101-104 | an empty section is dropped up to the next heading |
| ApplyCull.PopSection | cci/apply_cull.py:101-105 | popping `last_header - i` lines at `i` cuts the empty section out of the list as it stands |
| ApplyCull.Anchor | cci/apply_cull.py:101-105 | `last_header` points at or after the current line |
| ApplyCull.DropAt | cci/apply_cull.py:97-107 | one turn of the reverse loop keeps `lines`, `has_content` and `last_header` in step with `Drop` |
| ApplyCull.DropEmptySections | cci/apply_cull.py:95-107 | the second loop of `_build_edit` yields `Drop` |
| ApplyCull.NewContent | cci/apply_cull.py:109 | the new page text ends with a newline |
| ApplyCull.Summary | cci/apply_cull.py:110-113 | the edit summary starts with `tool-assisted cull: -` and ends with the link to the key's page, labelled `more info` and closed by `]])` |
| ApplyCull.SummaryNumbers | cci/apply_cull.py:110-113 | after `tool-assisted cull: -` come the digits of `removed_diffs`, a slash, the digits of `total_diffs` and ` diffs`, and both numbers read back |
| ApplyCull.NumbersRead | cci/apply_cull.py:111 | two numbers written with a slash between them and followed by a non-digit read back in turn |
| ApplyCull.BuildEdit | cci/apply_cull.py:73-119 | the printed object has the given title and revision, the text of both passes, and the summary `-<removed_diffs>/<count of [[Special:Diff/>` |
| ApplyCull.NewContentUntouched | cci/apply_cull.py:76-109 | a tidy page without culled diffs counts nothing and is saved back as its stripped text plus a newline |
| FetchCci.IsCollapsedAsWrittenMissesCapital | cci/fetch_cci.py:96-105 | with a report footer, a box closed by `{{Cbot}}` is missed as written, and recognised when the line before the footer is lower-cased |
| FetchCci.IsCollapsedAsWritten | cci/fetch_cci.py:96-105 | as written: a collapsed box has lines and its lower-cased first line opens one; a single line is collapsed exactly when it both opens and closes |
| FetchCci.IsCollapsed | cci/fetch_cci.py:96-105 | corrected: the same two facts, with the line before a footer lower-cased |
| FetchCci.IsCollapsedAgrees | cci/fetch_cci.py:99-101 | the written and corrected tests agree when the line before the footer is already lower case |
| FetchCci.IsCollapsedEmpty | cci/fetch_cci.py:97-98 | no lines, no collapsed box |
| FetchCci.IsCollapsedIgnoresCase | cci/fetch_cci.py:99-104 | the corrected test ignores letter case |
| FetchCci.IsCollapsedFooter | cci/fetch_cci.py:100-101 | appending a report footer does not change the corrected test |
| FetchCci.HeadingGroups | cci/fetch_cci.py:81-83 | a match yields two digit groups that rebuild the stripped title |
| FetchCci.HeadingGroupsOf | cci/fetch_cci.py:81-83 | every `Pages N through M` title matches, with `N` and `M` as its groups |
| FetchCci.SectionIndex | cci/fetch_cci.py:80-84 | fails exactly when the heading does not match |
| FetchCci.SectionIndexOf | cci/fetch_cci.py:84 | `Pages N through M` gets the index `N-M` |
| FetchCci.MatchesDigits | cci/fetch_cci.py:129 | `^\d+$` matches exactly a non-empty run of digits, optionally followed by one final newline, which `$` lets through |
| FetchCci.MatchesSize | cci/fetch_cci.py:130 | a match of `^\([+-]\d+\)$` starts with `(`, a sign and a digit, and ends with `)` or with `)` and one final newline |
| FetchCci.ParseDiff | cci/fetch_cci.py:124-134 | succeeds exactly when the title starts with `Special:Diff/`, the rest matches `^\d+$` and the text matches `^\([+-]\d+\)$`; the size loses its two brackets |
| FetchCci.ParseDiffLink | cci/fetch_cci.py:124-134 | parsing the link of a diff gives the diff back |
| FetchCci.ParseDiffSound | cci/fetch_cci.py:129-133 | a size accepted without a trailing newline is a signed number |
| FetchCci.ParseDiffTrailingNewline | cci/fetch_cci.py:129-133 | `$` before a final newline lets `(+12)\n` through, and the size keeps its `)` |
| FetchCci.ParseDiffs | cci/fetch_cci.py:117 | succeeds exactly when every link parses, giving each diff in order |
| FetchCci.IsStatusTemplate | cci/fetch_cci.py:111 | a status template's name is one character once whitespace is stripped |
| FetchCci.ParseLine | cci/fetch_cci.py:107-122 | non-items and status-template lines list no page; any other line yields a page unless it errs, and it errs exactly on a missing link, a page link with text, a `Special:` page or a bad diff; the page is the first link without leading colons and the diffs are the rest |

## Left out

- **The wikitext parser (mwparserfromhell) and Python's `re` engine.** They
  are function-valued parameters: parsing, the four tree passes, the count of
  `ref` tags, `fullmatch` and `sub`. The passes' size thresholds are stated as
  predicates. The traversal order of the tree passes, innermost first, is not
  modelled.
- **`_preprocess_wikitext` caching.** `functools.cache` changes no result, so
  it is left out.
- **Character classes and number parsing.** `\d`, `str.lower()` and `int()`
  are ASCII only. `int()`'s underscores and non-ASCII digits are not modelled.
- **I/O and the network are not modelled.** This covers:
  - gzip/JSON/YAML reading and writing;
  - the wiki fetch in `utils.get_title_revision` (`_build_edit`'s `revid` and
    `content` are parameters);
  - printing the edit as JSON (`BuildEdit` returns it);
  - logging, progress bars, `verbose`/`dump_rules` output;
  - the batch files;
  - `main` and argument parsing.
- **Exceptions outside the ones modelled.** The driver's exception catch is
  modelled as the `Option<Error>` a culled edit returns. `BrokenPipeError`
  propagation is not modelled.
- **`_apply_cull`'s HTML rendering through jinja2 is not modelled.** The same
  goes for `_static_url` and listing a batch directory when no case page is
  given.
- **The rest of `fetch_cci.py`.**
  - Fetching pages and finding the diff section is not modelled.
  - So is the collection of sections, except the heading index at lines 80-84.
  - `_parse_line` receives the parser's view of the line, its template names
    and links, as a parameter.
- **Other parts of `case.py`.** The `load` methods of `Diff`, `Page`, `Section` and `CasePage`, `Case.load`/`save`, `Edit.dump` and
  `Line.__str__` are not modelled. The records are datatypes built directly.
- **Raw records that make Python raise `KeyError`.** A truthy `delta`
  without a `lines` key (`cci/case.py` line 71) and a rule without a `type`
  key (`cci/cull_diffs.py` line 152) cannot be written in the raw datatypes
  `Case.RawDelta` and `Rules.RuleDef`, so those two errors are not modelled.
- **JSON values of the wrong type.** The raw datatypes give each key the
  type the code expects, so a `rules` value that is not a list, a `before`
  that is not an object and similar inputs, and the `TypeError`s they cause,
  are not modelled.
- **A falsy `delta` such as `{}`.** Python keeps the falsy value on the loaded
  edit; the model stores no delta. Both make `culled` false, and
  `_cull_edit` replaces the delta before it is read again.
- **Flag names.** `Rules.FlagValue` knows the members of `re.RegexFlag` in
  Python 3.11 and 3.12; other Python versions differ.
- **Other files.** `build_edits.py`, `fetch_diffs.py`, `apply_edits.js` and
  `static/viewer.js` are not part of this model.
- ApplyCull.Key: the contract only places the key under `cull/batch-`. The
  zero-filled batch is covered by `ZFill` and `ZFillDigits`, and the rest of
  the layout is the function's body.
- ApplyCull.NewContent: the contract states only the final newline. What the
  text holds is stated through `Drop` and `Rewritten` and their lemmas.
- Cull.Run: the contract states the frame, that lines not yet reached are
  unchanged. The counts and caps are separate lemmas: `RunCounts`, `RunCap`
  and `CulledLinesNameARule`.

## Findings

| source | as written | input that shows it | evidently intended | confidence | as-written member | corrected member |
|---|---|---|---|---|---|---|
| cci/fetch_cci.py:100-101 | when the last line is a `this report generated by` footer, `last = lines[-2]` takes the line before it without `.lower()`, so the closer test is case-sensitive on that line | lines `{{ctop}}`, `{{Cbot}}`, `This report generated by …`: not recognised as collapsed, while the same box without the footer is | `last = lines[-2].lower()`, so a footer does not change the result | medium, not executed | FetchCci.IsCollapsedAsWrittenMissesCapital | FetchCci.IsCollapsedFooter |

=== FILE: apply_cull.dfy ===
/** `cci/apply_cull.py`: the case-page title, and `_build_edit`, which rewrites
    the wikitext of a case page once its culled diffs are known. It removes the
    positive-size diff links of the culled edits, drops page lines left with no
    diffs, drops empty `=== Pages ` sections, and counts the diffs for the edit
    summary. */
module ApplyCull {
  import opened Wrappers
  import opened Text
  import opened Case

  /** `utils.CCI_PREFIX`. */
  const CciPrefix := "Wikipedia:Contributor copyright investigations/"

  /** `_LINK_ROOT`. */
  const LinkRoot := "toolforge:earwig-dev/cci"

  // ---------------------------------------------------------------------------
  // The case-page title and the batch key

  datatype TitleError = NotAnInteger(page: string)

  /** The title built at lines 47-49 of `_apply_cull`: the prefix and the case
      name, then a space and the page when `int(case_page) != 1`. */
  function Title(caseName: string, casePage: string): (r: Result<string, TitleError>)
    ensures r.Err? <==> ParseInt(casePage).None?
    ensures r.Ok? ==> StartsWith(r.value, CciPrefix + caseName)
    ensures r.Ok? ==> (r.value == CciPrefix + caseName <==> ParseInt(casePage) == Some(1))
  {
    var n :- match ParseInt(casePage) case Some(n) => Ok(n) case None => Err(NotAnInteger(casePage));
    var base := CciPrefix + caseName;
    if n != 1 then
      assert (base + " " + casePage)[..|base|] == base;
      Ok(base + " " + casePage)
    else Ok(base)
  }

  /** For a page number written out in decimal, only page 1 leaves the number out. */
  lemma TitleOfPageNumber(caseName: string, n: nat)
    ensures Title(caseName, NatToString(n))
            == Ok(if n == 1 then CciPrefix + caseName else CciPrefix + caseName + " " + NatToString(n))
  {
    ParseIntOfNat(n);
  }

  /** `s.zfill(width)`: zeros are inserted after any sign until `s` is `width` long. */
  function ZFill(s: string, width: nat): (r: string)
    ensures |r| == if |s| < width then width else |s|
  {
    if |s| >= width then s
    else
      var zeros := seq(width - |s|, _ => '0');
      if s != [] && (s[0] == '+' || s[0] == '-') then [s[0]] + zeros + s[1..]
      else zeros + s
  }

  /** Zero-filling a number keeps its value. */
  lemma ZFillDigits(s: string, width: nat)
    requires IsDigits(s)
    ensures IsDigits(ZFill(s, width)) && DigitsValue(ZFill(s, width)) == DigitsValue(s)
  {
    if |s| < width {
      ZerosValue(seq(width - |s|, _ => '0'), s);
    }
  }

  /** Leading zeros do not change a number's value. */
  lemma {:induction false} ZerosValue(zeros: string, s: string)
    requires forall i :: 0 <= i < |zeros| ==> zeros[i] == '0'
    requires IsDigits(s)
    ensures IsDigits(zeros + s) && DigitsValue(zeros + s) == DigitsValue(s)
    decreases |s|
  {
    var t := zeros + s;
    if |s| == 1 {
      assert t[..|t| - 1] == zeros;
      LeadingZeros(zeros);
    } else {
      assert t[..|t| - 1] == zeros + s[..|s| - 1];
      ZerosValue(zeros, s[..|s| - 1]);
    }
  }

  lemma {:induction false} LeadingZeros(zeros: string)
    requires forall i :: 0 <= i < |zeros| ==> zeros[i] == '0'
    ensures DigitsValue(zeros) == 0
    decreases |zeros|
  {
    if zeros != [] {
      LeadingZeros(zeros[..|zeros| - 1]);
    }
  }

  /** The key of a case page's cull files: `cull/batch-<batch, zero-filled to
      two>/page-<case_page>` (lines 19 and 40). */
  function Key(batch: string, casePage: string): (r: string)
    ensures StartsWith(r, "cull/batch-")
  {
    "cull/batch-" + ZFill(batch, 2) + "/page-" + casePage
  }

  // ---------------------------------------------------------------------------
  // Diff links

  /** `[[Special:Diff/<diff>|`, the marker of a diff on a case-page line. */
  function Tag(diff: int): string {
    "[[Special:Diff/" + IntToString(diff) + "|"
  }

  /** `[[Special:Diff/<diff>|(+`: the start of a positive-size link. */
  function LinkHead(diff: int): string {
    Tag(diff) + "(+"
  }

  /** The length of a match of `\[\[Special:Diff/<diff>\|\(\+\d+\)\]\]` at the
      start of `s`, if there is one, with `h` the link head `LinkHead(diff)`. */
  function LinkAt(s: string, h: string): (r: Option<nat>)
    ensures r.Some? ==> 0 < r.value <= |s|
  {
    if !StartsWith(s, h) then None
    else match LinkTail(s[|h|..])
      case None => None
      case Some(n) => Some(|h| + n)
  }

  /** The length of a match of `\d+\)\]\]` at the start of `t`. `\d+` is greedy
      and a digit cannot match `\)`, so the only candidate is the longest run
      of digits. */
  function LinkTail(t: string): (r: Option<nat>)
    ensures r.Some? ==> 3 < r.value <= |t|
  {
    var k := DigitRun(t);
    if k > 0 && StartsWith(t[k..], ")]]") then Some(k + 3) else None
  }

  /** `re.sub(<the link pattern>, '', s)`: matches are found left to right,
      without overlapping, and deleted. */
  function RemoveLinks(s: string, h: string): (r: string)
    ensures |r| <= |s|
    decreases |s|
  {
    if s == [] then []
    else match LinkAt(s, h)
      case Some(n) => RemoveLinks(s[n..], h)
      case None => [s[0]] + RemoveLinks(s[1..], h)
  }

  /** A line without the head of a positive-size link is left as it is; in
      particular a negative-size link `(-k)` stays. */
  lemma {:induction false} RemoveLinksAbsent(s: string, h: string)
    requires !Contains(s, h)
    ensures RemoveLinks(s, h) == s
    decreases |s|
  {
    if s != [] {
      assert LinkAt(s, h).None?;
      RemoveLinksAbsent(s[1..], h);
    }
  }

  /** A positive-size link at the front of a line is deleted. */
  lemma RemoveLinksLink(digits: string, rest: string, h: string)
    requires IsDigits(digits)
    ensures RemoveLinks(h + digits + ")]]" + rest, h) == RemoveLinks(rest, h)
  {
    var s := h + digits + ")]]" + rest;
    LinkAtLink(digits, rest, h);
    assert s[|h| + |digits| + 3..] == rest;
  }

  /** The link at the front of such a line is matched whole. */
  lemma LinkAtLink(digits: string, rest: string, h: string)
    requires IsDigits(digits)
    ensures LinkAt(h + digits + ")]]" + rest, h) == Some(|h| + |digits| + 3)
  {
    var t := digits + (")]]" + rest);
    assert h + digits + ")]]" + rest == h + t;
    Behind(h, t);
    LinkTailOf(digits, rest);
  }

  lemma LinkTailOf(digits: string, rest: string)
    requires IsDigits(digits)
    ensures LinkTail(digits + (")]]" + rest)) == Some(|digits| + 3)
  {
    DigitRunOf(digits, ")]]" + rest);
    Behind(digits, ")]]" + rest);
    Behind(")]]", rest);
  }

  /** `h + t` starts with `h`, and `t` follows it. */
  lemma Behind(h: string, t: string)
    ensures StartsWith(h + t, h) && (h + t)[|h|..] == t
  {
    assert (h + t)[..|h|] == h;
  }

  // ---------------------------------------------------------------------------
  // One case-page line against the culled edits (lines 80-93)

  /** The loop over `edits` for one line: the line as rewritten so far, whether
      some edit's diff was found, the page of the last such edit, and how many
      were found. */
  datatype LineEdit = LineEdit(line: string, changed: bool, page: string, removed: nat)

  /** The inner loop of the first pass: each edit whose `[[Special:Diff/<diff>|`
      is in the line (as rewritten by the earlier edits) has its positive-size
      links removed, sets `changed` and `page`, and is counted, whether or not a
      link was removed. */
  function Fold(line: string, edits: seq<Edit>): (r: LineEdit)
    ensures r.removed <= |edits|
    ensures r.changed <==> r.removed > 0
    ensures !r.changed ==> r.line == line && r.page == ""
    decreases |edits|
  {
    if edits == [] then LineEdit(line, false, "", 0)
    else Visit(Fold(line, edits[..|edits| - 1]), edits[|edits| - 1])
  }

  /** One turn of the inner loop. */
  function Visit(p: LineEdit, e: Edit): (r: LineEdit)
    ensures r.removed <= p.removed + 1
    ensures r.changed <==> p.changed || r.removed == p.removed + 1
    ensures r.removed == p.removed ==> r == p
  {
    if Contains(p.line, Tag(e.diff)) then LineEdit(RemoveLinks(p.line, LinkHead(e.diff)), true, e.page, p.removed + 1)
    else p
  }

  /** Folding one more edit is one more turn of the loop. */
  lemma FoldStep(line: string, edits: seq<Edit>, k: nat)
    requires k < |edits|
    ensures Fold(line, edits[..k + 1]) == Visit(Fold(line, edits[..k]), edits[k])
  {
    assert edits[..k + 1][..k] == edits[..k];
  }

  /** A line that carries none of the culled diffs is left unchanged and counts nothing. */
  lemma {:induction false} FoldUntouched(line: string, edits: seq<Edit>)
    requires forall k :: 0 <= k < |edits| ==> !Contains(line, Tag(edits[k].diff))
    ensures Fold(line, edits) == LineEdit(line, false, "", 0)
    decreases |edits|
  {
    if edits != [] {
      FoldUntouched(line, edits[..|edits| - 1]);
    }
  }

  /** A culled diff whose link has a negative size is counted as removed,
      although the line keeps the link. */
  lemma FoldCountsUnremoved(line: string, e: Edit)
    requires Contains(line, Tag(e.diff)) && !Contains(line, LinkHead(e.diff))
    ensures Fold(line, [e]) == LineEdit(line, true, e.page, 1)
  {
    assert [e][..0] == [];
    RemoveLinksAbsent(line, LinkHead(e.diff));
  }

  /** The inner loop of the first pass, as written. */
  method RewriteLine(line: string, edits: seq<Edit>) returns (r: LineEdit)
    ensures r == Fold(line, edits)
  {
    r := LineEdit(line, false, "", 0);
    var k := 0;
    while k < |edits|
      invariant 0 <= k <= |edits|
      invariant r == Fold(line, edits[..k])
    {
      var edit := edits[k];
      ghost var next := Visit(r, edit);
      assert Fold(line, edits[..k + 1]) == next by {
        FoldStep(line, edits, k);
      }
      if Contains(r.line, Tag(edit.diff)) {
        r := LineEdit(RemoveLinks(r.line, LinkHead(edit.diff)), true, edit.page, r.removed + 1);
      }
      assert r == next;
      k := k + 1;
    }
    assert edits[..|edits|] == edits;
  }

  /** `re.fullmatch(rf"\*('''N''' )?\[\[:{re.escape(page)}\]\] \(\d+ edits?\): ", line)`. */
  predicate IsBarePageLine(line: string, page: string)
    ensures IsBarePageLine(line, page) ==> |line| >= |page| + 17 && line[0] == '*' && line[|line| - 1] == ' '
  {
    && line != [] && line[0] == '*'
    && var head := "[[:" + page + "]] (";
       || (StartsWith(line[1..], head) && BareTail(line[1 + |head|..]))
       || (StartsWith(line[1..], "'''N''' " + head) && BareTail(line[1 + |"'''N''' " + head|..]))
  }

  /** `\d+ edits?\): ` to the end of the line. */
  predicate BareTail(s: string) {
    var k := DigitRun(s);
    k > 0 && (s[k..] == " edit): " || s[k..] == " edits): ")
  }

  /** What the first pass leaves of one line: nothing when the line was changed,
      has no `Special:Diff` left, and is a bare page line for the page of the
      last matching edit; otherwise the rewritten line. */
  function LineOutcome(line: string, edits: seq<Edit>): (r: seq<string>)
    ensures |r| <= 1
    ensures r == [] ==> Fold(line, edits).changed && !Contains(Fold(line, edits).line, "Special:Diff")
  {
    var f := Fold(line, edits);
    if f.changed && !Contains(f.line, "Special:Diff") && IsBarePageLine(f.line, f.page) then []
    else [f.line]
  }

  /** The diff marker of edit `j` is in the line as the edits before it left it. */
  predicate Hits(line: string, edits: seq<Edit>, j: int)
    requires 0 <= j < |edits|
  {
    Contains(Fold(line, edits[..j]).line, Tag(edits[j].diff))
  }

  /** Edit `k` is the last one whose marker is found. */
  predicate LastHit(line: string, edits: seq<Edit>, k: int) {
    0 <= k < |edits| && Hits(line, edits, k) && forall j :: k < j < |edits| ==> !Hits(line, edits, j)
  }

  /** `page` is the page of the last edit whose diff marker was in the line as
      the earlier edits had rewritten it. */
  lemma {:induction false} FoldLastPage(line: string, edits: seq<Edit>)
    ensures Fold(line, edits).changed ==>
              exists k :: LastHit(line, edits, k) && Fold(line, edits).page == edits[k].page
    decreases |edits|
  {
    if edits != [] {
      var n := |edits|;
      var init := edits[..n - 1];
      var p := Fold(line, init);
      var e := edits[n - 1];
      assert Fold(line, edits) == Visit(p, e);
      assert Hits(line, edits, n - 1) == Contains(p.line, Tag(e.diff));
      if Contains(p.line, Tag(e.diff)) {
        assert LastHit(line, edits, n - 1);
      } else if p.changed {
        FoldLastPage(line, init);
        var k :| LastHit(line, init, k) && p.page == init[k].page;
        LastHitExtend(line, edits, k);
      }
    }
  }

  /** A last hit among all but the last edit stays the last hit when the last
      edit does not hit. */
  lemma LastHitExtend(line: string, edits: seq<Edit>, k: nat)
    requires |edits| > 0 && LastHit(line, edits[..|edits| - 1], k) && !Hits(line, edits, |edits| - 1)
    ensures LastHit(line, edits, k)
  {
    HitsPrefix(line, edits, k);
    NoLaterHits(line, edits, edits[..|edits| - 1], k);
  }

  /** No edit after `k` hits when none of the earlier ones after `k` hit
      without the last edit, and the last edit does not hit either. */
  lemma NoLaterHits(line: string, edits: seq<Edit>, init: seq<Edit>, k: nat)
    requires k < |edits| - 1 && init == edits[..|edits| - 1]
    requires forall j :: k < j < |init| ==> !Hits(line, init, j)
    requires !Hits(line, edits, |edits| - 1)
    ensures forall j :: k < j < |edits| ==> !Hits(line, edits, j)
  {
    forall j | k < j < |edits| - 1
      ensures !Hits(line, edits, j)
    {
      HitsPrefix(line, edits, j);
    }
  }

  /** Dropping the last edit does not change whether an earlier one hits. */
  lemma HitsPrefix(line: string, edits: seq<Edit>, j: nat)
    requires j < |edits| - 1
    ensures Hits(line, edits[..|edits| - 1], j) == Hits(line, edits, j)
  {
    assert edits[..|edits| - 1][..j] == edits[..j];
  }

  /** Deleting links leaves alone a first part in which no link head starts. */
  lemma {:induction false} RemoveLinksAfter(a: string, b: string, h: string)
    requires forall i :: 0 <= i < |a| ==> !StartsWith((a + b)[i..], h)
    ensures RemoveLinks(a + b, h) == a + RemoveLinks(b, h)
    decreases |a|
  {
    var s := a + b;
    if a == [] {
      assert s == b;
    } else {
      assert !StartsWith(s[0..], h);
      assert s[1..] == a[1..] + b;
      forall i | 0 <= i < |a| - 1
        ensures !StartsWith((a[1..] + b)[i..], h)
      {
        assert (a[1..] + b)[i..] == s[i + 1..];
      }
      RemoveLinksAfter(a[1..], b, h);
    }
  }

  /** A string that does not contain `p` has no copy of `p` at any position. */
  lemma {:induction false} NotContainsAt(s: string, p: string, i: nat)
    requires !Contains(s, p) && i + |p| <= |s|
    ensures s[i..i + |p|] != p
    decreases i
  {
    if i == 0 {
      assert s[..|p|] == s[i..i + |p|];
    } else {
      assert s[1..][i - 1..i - 1 + |p|] == s[i..i + |p|];
      NotContainsAt(s[1..], p, i - 1);
    }
  }

  /** `str(i)` is made of digits and a possible minus sign. */
  lemma IntToStringChars(i: int)
    ensures forall j :: 0 <= j < |IntToString(i)| ==> IntToString(i)[j] == '-' || IsDigit(IntToString(i)[j])
  {
    if i < 0 {
      var n := NatToString(-i);
      assert forall j :: 1 <= j < |IntToString(i)| ==> IntToString(i)[j] == n[j - 1];
    }
  }

  /** A link head holds no space, and `Special:Diff` sits two characters in. */
  lemma LinkHeadShape(diff: int)
    ensures |LinkHead(diff)| >= 14 && LinkHead(diff)[2..14] == "Special:Diff"
    ensures forall j :: 0 <= j < |LinkHead(diff)| ==> LinkHead(diff)[j] != ' '
  {
    var a, n, b := "[[Special:Diff/", IntToString(diff), "|(+";
    var h := a + n + b;
    assert LinkHead(diff) == h;
    IntToStringChars(diff);
    forall j | 0 <= j < |h|
      ensures h[j] != ' '
    {
      if j < |a| {
        assert h[j] == a[j];
      } else if j < |a| + |n| {
        assert h[j] == n[j - |a|];
      } else {
        assert h[j] == b[j - |a| - |n|];
      }
    }
    assert h[2..14] == a[2..14];
    assert a == "[[" + "Special:Diff" + "/";
    assert a[2..14] == "Special:Diff";
  }

  /** No link head starts inside a part that ends with a space and does not
      contain `Special:Diff`. */
  lemma NoHeadBefore(a: string, b: string, diff: int)
    requires a != [] && a[|a| - 1] == ' ' && !Contains(a, "Special:Diff")
    ensures forall i :: 0 <= i < |a| ==> !StartsWith((a + b)[i..], LinkHead(diff))
  {
    LinkHeadShape(diff);
    forall i | 0 <= i < |a|
      ensures !StartsWith((a + b)[i..], LinkHead(diff))
    {
      NoHeadAt(a, b, LinkHead(diff), i);
    }
  }

  lemma NoHeadAt(a: string, b: string, h: string, i: nat)
    requires i < |a| && a[|a| - 1] == ' ' && !Contains(a, "Special:Diff")
    requires |h| >= 14 && h[2..14] == "Special:Diff"
    requires forall j :: 0 <= j < |h| ==> h[j] != ' '
    ensures !StartsWith((a + b)[i..], h)
  {
    var t := (a + b)[i..];
    if |h| <= |t| {
      if i + |h| <= |a| {
        NotContainsAt(a, "Special:Diff", i + 2);
        assert t[..|h|][2..14] == t[2..14] == (a + b)[i + 2..i + 14];
        assert (a + b)[i + 2..i + 14] == a[i + 2..i + 14];
      } else {
        assert t[..|h|][|a| - 1 - i] == a[|a| - 1];
      }
    }
  }

  /** The page lines the case page lists are bare: a star, the page link and
      the count of its edits. */
  lemma BarePageLineOf(page: string, digits: string, suffix: string)
    requires IsDigits(digits) && (suffix == " edit): " || suffix == " edits): ")
    ensures IsBarePageLine("*[[:" + page + "]] (" + digits + suffix, page)
  {
    var head := "[[:" + page + "]] (";
    var line := "*[[:" + page + "]] (" + digits + suffix;
    assert line[1..] == head + (digits + suffix);
    assert line[1..][..|head|] == head;
    assert line[1 + |head|..] == digits + suffix;
    DigitRunOf(digits, suffix);
    assert (digits + suffix)[|digits|..] == suffix;
  }

  /** The converse of `LineOutcome`'s guarantee: a bare page line followed by
      one positive-size link whose diff is culled is dropped. */
  lemma LineDropped(prefix: string, digits: string, e: Edit)
    requires IsBarePageLine(prefix, e.page) && !Contains(prefix, "Special:Diff") && IsDigits(digits)
    ensures LineOutcome(prefix + LinkHead(e.diff) + digits + ")]]", [e]) == []
  {
    FoldDropsLink(prefix, digits, e);
  }

  /** The one edit whose link ends the line removes that link and nothing else. */
  lemma FoldDropsLink(prefix: string, digits: string, e: Edit)
    requires IsBarePageLine(prefix, e.page) && !Contains(prefix, "Special:Diff") && IsDigits(digits)
    ensures Fold(prefix + LinkHead(e.diff) + digits + ")]]", [e]) == LineEdit(prefix, true, e.page, 1)
  {
    var line := prefix + LinkHead(e.diff) + digits + ")]]";
    assert Contains(line, Tag(e.diff)) by {
      assert line[|prefix|..|prefix| + |Tag(e.diff)|] == Tag(e.diff);
      ContainsAt(line, Tag(e.diff), |prefix|);
    }
    assert RemoveLinks(line, LinkHead(e.diff)) == prefix by {
      RemoveLastLink(prefix, digits, e);
    }
    assert Visit(LineEdit(line, false, "", 0), e) == LineEdit(prefix, true, e.page, 1);
    assert Fold(line, [e]) == Visit(Fold(line, []), e) by {
      assert [e][..0] == [];
    }
    assert Fold(line, []) == LineEdit(line, false, "", 0);
  }

  /** Removing links from a bare page line followed by one link leaves the page line. */
  lemma RemoveLastLink(prefix: string, digits: string, e: Edit)
    requires IsBarePageLine(prefix, e.page) && !Contains(prefix, "Special:Diff") && IsDigits(digits)
    ensures RemoveLinks(prefix + LinkHead(e.diff) + digits + ")]]", LinkHead(e.diff)) == prefix
  {
    var h := LinkHead(e.diff);
    var rest := h + digits + ")]]";
    assert prefix + h + digits + ")]]" == prefix + rest;
    NoHeadBefore(prefix, rest, e.diff);
    RemoveLinksAfter(prefix, rest, h);
    RemoveLinksLink(digits, [], h);
    assert rest == h + digits + ")]]" + [];
    assert RemoveLinks([], h) == [];
    assert prefix + [] == prefix;
  }

  /** The lines after the first pass. */
  function Rewritten(lines: seq<string>, edits: seq<Edit>): (r: seq<string>)
    ensures |r| <= |lines|
    decreases |lines|
  {
    if lines == [] then [] else LineOutcome(lines[0], edits) + Rewritten(lines[1..], edits)
  }

  /** `removed_diffs` after the first pass. */
  function RemovedCount(lines: seq<string>, edits: seq<Edit>): (r: nat)
    ensures r <= |lines| * |edits|
    decreases |lines|
  {
    if lines == [] then 0
    else
      MulStep(|lines|, |edits|);
      Fold(lines[0], edits).removed + RemovedCount(lines[1..], edits)
  }

  lemma MulStep(x: nat, y: nat)
    requires x > 0
    ensures (x - 1) * y + y == x * y
  {
  }

  /** Lines that carry none of the culled diffs pass through the first pass
      unchanged, and count nothing. */
  lemma {:induction false} RewrittenUntouched(lines: seq<string>, edits: seq<Edit>)
    requires forall i, k :: 0 <= i < |lines| && 0 <= k < |edits| ==> !Contains(lines[i], Tag(edits[k].diff))
    ensures Rewritten(lines, edits) == lines && RemovedCount(lines, edits) == 0
    decreases |lines|
  {
    if lines != [] {
      FoldUntouched(lines[0], edits);
      RewrittenUntouched(lines[1..], edits);
    }
  }

  /** `out` and `count` give, line by line, what the first pass leaves of a
      line and how many diffs it counts on it. The loop below reasons about
      them rather than about `LineOutcome` and `Fold` themselves. */
  ghost predicate PerLine(out: string -> seq<string>, count: string -> nat, edits: seq<Edit>) {
    forall l {:trigger LineOutcome(l, edits)} ::
      out(l) == LineOutcome(l, edits) && count(l) == Fold(l, edits).removed
  }

  /** The outcomes of `lines`, one after the other. */
  ghost function FlatMap(lines: seq<string>, out: string -> seq<string>): seq<string>
    decreases |lines|
  {
    if lines == [] then [] else out(lines[0]) + FlatMap(lines[1..], out)
  }

  /** The counts of `lines`, summed. */
  ghost function SumOf(lines: seq<string>, count: string -> nat): nat
    decreases |lines|
  {
    if lines == [] then 0 else count(lines[0]) + SumOf(lines[1..], count)
  }

  /** Any `out` and `count` that agree with the first pass line by line give
      its lines and its count. */
  lemma {:induction false} PerLineRewritten(lines: seq<string>, edits: seq<Edit>,
                                            out: string -> seq<string>, count: string -> nat)
    requires PerLine(out, count, edits)
    ensures FlatMap(lines, out) == Rewritten(lines, edits)
    ensures SumOf(lines, count) == RemovedCount(lines, edits)
    decreases |lines|
  {
    if lines != [] {
      assert out(lines[0]) == LineOutcome(lines[0], edits);
      PerLineRewritten(lines[1..], edits, out, count);
    }
  }

  /** One turn of the first loop of `_build_edit`: whether the line is popped,
      the line stored otherwise, and how many diffs were counted on it. */
  method RewriteOne(line: string, edits: seq<Edit>, ghost out: string -> seq<string>, ghost count: string -> nat)
    returns (pop: bool, stored: string, removed: nat)
    requires PerLine(out, count, edits)
    ensures out(line) == if pop then [] else [stored]
    ensures count(line) == removed
  {
    var r := RewriteLine(line, edits);
    removed := r.removed;
    pop := false;
    stored := line;
    if r.changed {
      if !Contains(r.line, "Special:Diff") && IsBarePageLine(r.line, r.page) {
        pop := true;
      } else {
        stored := r.line;
      }
    }
    assert LineOutcome(line, edits) == if pop then [] else [stored];
  }

  /** The outcomes from line `i` are the outcome of line `i`, then those of the
      lines after it. */
  lemma FlatMapFrom(lines: seq<string>, i: nat, out: string -> seq<string>, count: string -> nat)
    requires i < |lines|
    ensures FlatMap(lines[i..], out) == out(lines[i]) + FlatMap(lines[i + 1..], out)
    ensures SumOf(lines[i..], count) == count(lines[i]) + SumOf(lines[i + 1..], count)
  {
    assert lines[i..][1..] == lines[i + 1..];
  }

  /** Popping or overwriting entry `i` of a list puts the outcome in its place. */
  lemma Splice(lines: seq<string>, i: nat, prefix: seq<string>, pop: bool, stored: string, tail: seq<string>)
    requires |prefix| == i < |lines|
    requires lines == prefix + [lines[i]] + tail
    ensures (if pop then lines[..i] + lines[i + 1..] else lines[i := stored])
            == prefix + ((if pop then [] else [stored]) + tail)
  {
    if pop {
      assert lines[..i] == prefix && lines[i + 1..] == tail;
    } else {
      assert lines[i := stored] == prefix + [stored] + tail;
    }
  }

  /** One turn of the first loop of `_build_edit`, on line `i`: the lines after
      it are already rewritten, and the lines before it are as they came. */
  method RewriteAt(lines: seq<string>, i: nat, ghost lines0: seq<string>, edits: seq<Edit>,
                   ghost out: string -> seq<string>, ghost count: string -> nat)
    returns (lines': seq<string>, removed: nat)
    requires PerLine(out, count, edits)
    requires i < |lines0|
    requires lines == lines0[..i + 1] + FlatMap(lines0[i + 1..], out)
    ensures lines' == lines0[..i] + FlatMap(lines0[i..], out)
    ensures SumOf(lines0[i..], count) == removed + SumOf(lines0[i + 1..], count)
  {
    assert lines0[..i + 1] == lines0[..i] + [lines0[i]];
    FlatMapFrom(lines0, i, out, count);
    var pop, stored;
    pop, stored, removed := RewriteOne(lines[i], edits, out, count);
    Splice(lines, i, lines0[..i], pop, stored, FlatMap(lines0[i + 1..], out));
    lines' := if pop then lines[..i] + lines[i + 1..] else lines[i := stored];
  }

  /** What the first pass leaves of each line, as a function. */
  ghost function OutcomeOf(edits: seq<Edit>): string -> seq<string> {
    (l: string) => LineOutcome(l, edits)
  }

  /** How many diffs the first pass counts on each line, as a function. */
  ghost function CountOf(edits: seq<Edit>): string -> nat {
    (l: string) => Fold(l, edits).removed
  }

  /** `OutcomeOf` and `CountOf` agree with the first pass line by line. */
  lemma PerLineOf(edits: seq<Edit>)
    ensures PerLine(OutcomeOf(edits), CountOf(edits), edits)
  {
    assert forall l :: OutcomeOf(edits)(l) == LineOutcome(l, edits) && CountOf(edits)(l) == Fold(l, edits).removed;
  }

  /** The first loop of `_build_edit`, over any `out` and `count` that agree
      with the first pass line by line. */
  method RewriteAll(lines0: seq<string>, edits: seq<Edit>, ghost out: string -> seq<string>, ghost count: string -> nat)
    returns (lines: seq<string>, removed: nat)
    requires PerLine(out, count, edits)
    ensures lines == FlatMap(lines0, out)
    ensures removed == SumOf(lines0, count)
  {
    lines := lines0;
    removed := 0;
    var i := |lines0|;
    while i > 0
      invariant 0 <= i <= |lines0|
      invariant lines == lines0[..i] + FlatMap(lines0[i..], out)
      invariant removed == SumOf(lines0[i..], count)
    {
      i := i - 1;
      var n;
      lines, n := RewriteAt(lines, i, lines0, edits, out, count);
      removed := removed + n;
    }
    assert lines0[..0] == [] && lines0[0..] == lines0;
  }

  /** The first loop of `_build_edit`: over the lines from last to first, each
      line is rewritten, popped, or left, and the diffs are counted. */
  method RewriteLines(lines0: seq<string>, edits: seq<Edit>) returns (lines: seq<string>, removed: nat)
    ensures lines == Rewritten(lines0, edits)
    ensures removed == RemovedCount(lines0, edits)
  {
    PerLineOf(edits);
    lines, removed := RewriteAll(lines0, edits, OutcomeOf(edits), CountOf(edits));
    PerLineRewritten(lines0, edits, OutcomeOf(edits), CountOf(edits));
  }

  // ---------------------------------------------------------------------------
  // Dropping empty sections (lines 95-107)

  /** A section heading of a case page, `=== Pages N through M ===`. The
      functions and lemmas below take the heading test as a parameter `header`;
      the pass itself tests for this prefix. */
  predicate IsPagesHeading(line: string) {
    StartsWith(line, "=== Pages ")
  }

  /** The offset of the first heading in `ls`, if any. */
  function NextHeader(ls: seq<string>, header: string -> bool): (r: Option<nat>)
    ensures r.Some? ==> r.value < |ls| && header(ls[r.value])
    ensures r.Some? ==> forall k :: 0 <= k < r.value ==> !header(ls[k])
    ensures r.None? ==> forall k :: 0 <= k < |ls| ==> !header(ls[k])
    decreases |ls|
  {
    if ls == [] then None
    else if header(ls[0]) then Some(0)
    else match NextHeader(ls[1..], header)
      case None => None
      case Some(n) => Some(n + 1)
  }

  /** Whether a non-empty line comes before the first heading in `ls`. */
  predicate HasContent(ls: seq<string>, header: string -> bool)
    decreases |ls|
  {
    ls != [] && !header(ls[0]) && (ls[0] != "" || HasContent(ls[1..], header))
  }

  /** The lines after the second pass: a heading whose section holds only empty
      lines is removed along with them when another heading follows it; the last
      section stays even when empty. */
  function Drop(ls: seq<string>, header: string -> bool): (r: seq<string>)
    ensures |r| <= |ls|
    decreases |ls|
  {
    if ls == [] then []
    else if !header(ls[0]) then [ls[0]] + Drop(ls[1..], header)
    else
      var n := NextHeader(ls[1..], header);
      if n.Some? && !HasContent(ls[1..], header) then Drop(ls[1 + n.value..], header)
      else [ls[0]] + Drop(ls[1..], header)
  }

  /** Lines before the first heading pass through untouched. */
  lemma {:induction false} DropLead(ls: seq<string>, n: nat, header: string -> bool)
    requires n <= |ls|
    requires forall k :: 0 <= k < n ==> !header(ls[k])
    ensures Drop(ls, header) == ls[..n] + Drop(ls[n..], header)
    decreases n
  {
    if n > 0 {
      var tail := ls[1..];
      var after := Drop(ls[n..], header);
      assert Drop(ls, header) == [ls[0]] + Drop(tail, header) by {
        assert !header(ls[0]);
      }
      assert Drop(tail, header) == tail[..n - 1] + after by {
        assert forall k :: 0 <= k < n - 1 ==> !header(tail[k]) by {
          forall k | 0 <= k < n - 1 ensures !header(tail[k]) {
            assert tail[k] == ls[k + 1];
          }
        }
        DropLead(tail, n - 1, header);
        assert tail[n - 1..] == ls[n..];
      }
      assert ls[..n] == [ls[0]] + tail[..n - 1];
      assert [ls[0]] + (tail[..n - 1] + after) == [ls[0]] + tail[..n - 1] + after;
    }
  }

  /** The lines that carry something: neither headings nor empty. */
  function Kept(ls: seq<string>, header: string -> bool): (r: seq<string>)
    ensures forall k :: 0 <= k < |r| ==> r[k] != "" && !header(r[k])
    decreases |ls|
  {
    if ls == [] then []
    else (if ls[0] != "" && !header(ls[0]) then [ls[0]] else []) + Kept(ls[1..], header)
  }

  /** Up to the first heading at `n`, a section without content keeps nothing. */
  lemma {:induction false} KeptEmptyRun(ls: seq<string>, n: nat, header: string -> bool)
    requires n <= |ls|
    requires forall k :: 0 <= k < n ==> !header(ls[k])
    requires !HasContent(ls, header)
    ensures Kept(ls, header) == Kept(ls[n..], header)
    decreases n
  {
    if n > 0 {
      KeptEmptyRun(ls[1..], n - 1, header);
      assert ls[1..][n - 1..] == ls[n..];
    }
  }

  /** The second pass removes only headings and empty lines: every line with
      content survives, in order. */
  lemma {:induction false} DropKeepsContent(ls: seq<string>, header: string -> bool)
    ensures Kept(Drop(ls, header), header) == Kept(ls, header)
    decreases |ls|
  {
    if ls != [] {
      var n := NextHeader(ls[1..], header);
      if header(ls[0]) && n.Some? && !HasContent(ls[1..], header) {
        DropKeepsContent(ls[1 + n.value..], header);
        KeptEmptyRun(ls[1..], n.value, header);
        assert ls[1..][n.value..] == ls[1 + n.value..];
      } else {
        DropKeepsContent(ls[1..], header);
        assert Drop(ls, header) == [ls[0]] + Drop(ls[1..], header);
        assert (Drop(ls, header))[1..] == Drop(ls[1..], header);
      }
    }
  }

  /** No heading is followed by another heading with only empty lines between. */
  predicate Tidy(ls: seq<string>, header: string -> bool)
    decreases |ls|
  {
    ls == [] || ((header(ls[0]) ==> NextHeader(ls[1..], header).None? || HasContent(ls[1..], header)) && Tidy(ls[1..], header))
  }

  /** The part of a section before its next heading decides `HasContent` and
      `NextHeader`, and `Drop` keeps that part. */
  lemma {:induction false} DropHead(ls: seq<string>, header: string -> bool)
    ensures HasContent(Drop(ls, header), header) == HasContent(ls, header)
    ensures NextHeader(Drop(ls, header), header).None? == NextHeader(ls, header).None?
    decreases |ls|
  {
    if ls != [] && !header(ls[0]) {
      DropHead(ls[1..], header);
      assert Drop(ls, header)[1..] == Drop(ls[1..], header);
    } else if ls != [] {
      var n := NextHeader(ls[1..], header);
      if n.Some? && !HasContent(ls[1..], header) {
        var rest := ls[1 + n.value..];
        DropStartsWithHeader(rest, header);
      }
    }
  }

  /** What `Drop` leaves of lines starting with a heading starts with a heading. */
  lemma {:induction false} DropStartsWithHeader(ls: seq<string>, header: string -> bool)
    requires ls != [] && header(ls[0])
    ensures Drop(ls, header) != [] && header(Drop(ls, header)[0])
    decreases |ls|
  {
    var n := NextHeader(ls[1..], header);
    if n.Some? && !HasContent(ls[1..], header) {
      DropStartsWithHeader(ls[1 + n.value..], header);
    }
  }

  /** The second pass leaves no empty section before another heading. */
  lemma {:induction false} DropTidy(ls: seq<string>, header: string -> bool)
    ensures Tidy(Drop(ls, header), header)
    decreases |ls|
  {
    if ls != [] {
      var n := NextHeader(ls[1..], header);
      if header(ls[0]) && n.Some? && !HasContent(ls[1..], header) {
        DropTidy(ls[1 + n.value..], header);
      } else {
        DropTidy(ls[1..], header);
        DropHead(ls[1..], header);
        assert Drop(ls, header) == [ls[0]] + Drop(ls[1..], header);
        assert Drop(ls, header)[1..] == Drop(ls[1..], header);
      }
    }
  }

  /** A page with no empty sections is left as it is; so the second pass is idempotent. */
  lemma {:induction false} TidyDropFixes(ls: seq<string>, header: string -> bool)
    requires Tidy(ls, header)
    ensures Drop(ls, header) == ls
    decreases |ls|
  {
    if ls != [] {
      TidyDropFixes(ls[1..], header);
      assert ls == [ls[0]] + ls[1..];
    }
  }

  lemma DropIdempotent(ls: seq<string>, header: string -> bool)
    ensures Drop(Drop(ls, header), header) == Drop(ls, header)
  {
    DropTidy(ls, header);
    TidyDropFixes(Drop(ls, header), header);
  }

  /** A heading followed by empty lines only, then another heading, is removed
      together with the empty lines. */
  lemma DropEmptySection(head: string, blanks: seq<string>, rest: seq<string>, header: string -> bool)
    requires !header("")
    requires header(head) && rest != [] && header(rest[0])
    requires forall k :: 0 <= k < |blanks| ==> blanks[k] == ""
    ensures Drop([head] + blanks + rest, header) == Drop(rest, header)
  {
    var ls := [head] + blanks + rest;
    assert ls[1..] == blanks + rest;
    BlanksThenHeader(blanks, rest, header);
    assert ls[1 + |blanks|..] == rest;
  }

  lemma {:induction false} BlanksThenHeader(blanks: seq<string>, rest: seq<string>, header: string -> bool)
    requires !header("")
    requires rest != [] && header(rest[0])
    requires forall k :: 0 <= k < |blanks| ==> blanks[k] == ""
    ensures NextHeader(blanks + rest, header) == Some(|blanks|) && !HasContent(blanks + rest, header)
    decreases |blanks|
  {
    if blanks == [] {
      assert blanks + rest == rest;
    } else {
      assert !header(blanks[0]);
      assert (blanks + rest)[1..] == blanks[1..] + rest;
      BlanksThenHeader(blanks[1..], rest, header);
    }
  }

  /** `t` is the tail of `s`. */
  predicate EndsWith(s: seq<string>, t: seq<string>) {
    |t| <= |s| && s[|s| - |t|..] == t
  }

  lemma EndsWithCons(x: string, s: seq<string>, t: seq<string>)
    requires EndsWith(s, t)
    ensures EndsWith([x] + s, t)
  {
    assert ([x] + s)[|[x] + s| - |t|..] == s[|s| - |t|..];
  }

  /** The last heading and everything after it survive the second pass, however
      empty that last section is. */
  lemma {:induction false} DropKeepsLastSection(ls: seq<string>, h: nat, header: string -> bool)
    requires h < |ls| && header(ls[h])
    requires forall k :: h < k < |ls| ==> !header(ls[k])
    ensures EndsWith(Drop(ls, header), ls[h..])
    decreases |ls|
  {
    if h == 0 {
      LastSectionWhole(ls, header);
    } else {
      var n := NextHeader(ls[1..], header);
      assert n.Some? && n.value <= h - 1 by {
        assert header(ls[1..][h - 1]);
      }
      if header(ls[0]) && !HasContent(ls[1..], header) {
        var m := 1 + n.value;
        DropKeepsLastSection(ls[m..], h - m, header);
        assert ls[m..][h - m..] == ls[h..];
      } else {
        DropKeepsLastSection(ls[1..], h - 1, header);
        assert ls[1..][h - 1..] == ls[h..];
        EndsWithCons(ls[0], Drop(ls[1..], header), ls[h..]);
      }
    }
  }

  /** A last section is kept whole. */
  lemma LastSectionWhole(ls: seq<string>, header: string -> bool)
    requires ls != [] && header(ls[0])
    requires forall k :: 0 < k < |ls| ==> !header(ls[k])
    ensures Drop(ls, header) == ls
  {
    var tail := ls[1..];
    assert NextHeader(tail, header).None? by {
      assert forall k :: 0 <= k < |tail| ==> !header(tail[k]) by {
        forall k | 0 <= k < |tail| ensures !header(tail[k]) {
          assert tail[k] == ls[k + 1];
        }
      }
    }
    assert Drop(ls, header) == [ls[0]] + Drop(tail, header);
    DropLead(tail, |tail|, header);
    assert tail[..|tail|] == tail && tail[|tail|..] == [];
  }

  /** `for _ in range(n): lines.pop(i)`. */
  method PopRange(lines: seq<string>, i: nat, n: nat) returns (lines': seq<string>)
    requires i + n <= |lines|
    ensures lines' == lines[..i] + lines[i + n..]
  {
    lines' := lines;
    var k := 0;
    while k < n
      invariant 0 <= k <= n
      invariant lines' == lines[..i] + lines[i + k..]
    {
      lines' := lines'[..i] + lines'[i + 1..];
      assert lines[i + k..][1..] == lines[i + k + 1..];
      k := k + 1;
    }
  }

  /** `HasContent` and `Anchor` from line `i`, in terms of line `i` and the
      lines after it. */
  lemma ScanFrom(lines0: seq<string>, i: nat, header: string -> bool)
    requires i < |lines0|
    ensures HasContent(lines0[i..], header) == (!header(lines0[i]) && (lines0[i] != "" || HasContent(lines0[i + 1..], header)))
    ensures Anchor(lines0, i, header) == if header(lines0[i]) then Some(i) else Anchor(lines0, i + 1, header)
  {
    var ls := lines0[i..];
    assert ls[0] == lines0[i] && ls[1..] == lines0[i + 1..];
  }

  /** Line `i` survives the second pass unless it heads an empty section. */
  lemma DropKeep(lines0: seq<string>, i: nat, header: string -> bool)
    requires i < |lines0|
    requires !header(lines0[i]) || Anchor(lines0, i + 1, header).None? || HasContent(lines0[i + 1..], header)
    ensures Drop(lines0[i..], header) == [lines0[i]] + Drop(lines0[i + 1..], header)
  {
    var ls := lines0[i..];
    assert ls[0] == lines0[i] && ls[1..] == lines0[i + 1..];
  }

  /** An empty section headed at `i` is dropped up to the next heading. */
  lemma DropSkip(lines0: seq<string>, i: nat, header: string -> bool)
    requires i < |lines0|
    requires header(lines0[i]) && Anchor(lines0, i + 1, header).Some? && !HasContent(lines0[i + 1..], header)
    ensures Drop(lines0[i..], header) == Drop(lines0[Anchor(lines0, i + 1, header).value..], header)
  {
    var ls := lines0[i..];
    assert ls[0] == lines0[i] && ls[1..] == lines0[i + 1..];
    var n := NextHeader(ls[1..], header).value;
    assert ls[1 + n..] == lines0[i + 1 + n..];
  }

  /** Popping an empty section: the heading at `i` and the empty lines up to the
      next heading at `a` leave the list. */
  lemma PopSection(lines: seq<string>, lines0: seq<string>, i: nat, a: nat, header: string -> bool)
    requires i < |lines0|
    requires lines == lines0[..i + 1] + Drop(lines0[i + 1..], header)
    requires Anchor(lines0, i + 1, header) == Some(a)
    ensures a <= |lines|
    ensures lines[..i] + lines[a..] == lines0[..i] + Drop(lines0[a..], header)
  {
    var rest := lines0[i + 1..];
    var n := NextHeader(rest, header).value;
    DropLead(rest, n, header);
    assert rest[n..] == lines0[a..];
    SpliceOut(lines, lines0, i, a, Drop(rest, header), Drop(lines0[a..], header));
  }

  /** Cutting `lines0[i..a]` out of a list that starts with `lines0[..a]`. */
  lemma SpliceOut(lines: seq<string>, lines0: seq<string>, i: nat, a: nat, d: seq<string>, e: seq<string>)
    requires i < a <= |lines0|
    requires lines == lines0[..i + 1] + d
    requires d == lines0[i + 1..][..a - i - 1] + e
    ensures a <= |lines|
    ensures lines[..i] + lines[a..] == lines0[..i] + e
  {
    assert lines[..i] == lines0[..i];
    assert lines[a..] == e;
  }

  /** Line `i` is still in place. */
  lemma LineAt(lines: seq<string>, lines0: seq<string>, i: nat, header: string -> bool)
    requires i < |lines0|
    requires lines == lines0[..i + 1] + Drop(lines0[i + 1..], header)
    ensures i < |lines| && lines[i] == lines0[i]
  {
  }

  /** Keeping line `i`. */
  lemma KeepLine(lines: seq<string>, lines0: seq<string>, i: nat, header: string -> bool)
    requires i < |lines0|
    requires lines == lines0[..i + 1] + Drop(lines0[i + 1..], header)
    ensures lines == lines0[..i] + ([lines0[i]] + Drop(lines0[i + 1..], header))
  {
    assert lines0[..i + 1] == lines0[..i] + [lines0[i]];
  }

  /** One turn of the second loop on line `i`, proved against `Drop`. */
  method DropAt(lines: seq<string>, i: nat, hasContent: bool, lastHeader: Option<nat>, ghost lines0: seq<string>)
    returns (lines': seq<string>, hasContent': bool, lastHeader': Option<nat>)
    requires i < |lines0|
    requires lines == lines0[..i + 1] + Drop(lines0[i + 1..], IsPagesHeading)
    requires hasContent == HasContent(lines0[i + 1..], IsPagesHeading)
    requires lastHeader == Anchor(lines0, i + 1, IsPagesHeading)
    ensures lines' == lines0[..i] + Drop(lines0[i..], IsPagesHeading)
    ensures hasContent' == HasContent(lines0[i..], IsPagesHeading)
    ensures lastHeader' == Anchor(lines0, i, IsPagesHeading)
  {
    ScanFrom(lines0, i, IsPagesHeading);
    LineAt(lines, lines0, i, IsPagesHeading);
    var line := lines[i];
    lines', hasContent', lastHeader' := lines, hasContent, lastHeader;
    if IsPagesHeading(line) {
      if hasContent {
        hasContent' := false;
        DropKeep(lines0, i, IsPagesHeading);
        KeepLine(lines, lines0, i, IsPagesHeading);
      } else if lastHeader.Some? && lastHeader.value != 0 {
        DropSkip(lines0, i, IsPagesHeading);
        PopSection(lines, lines0, i, lastHeader.value, IsPagesHeading);
        lines' := PopRange(lines, i, lastHeader.value - i);
      } else {
        DropKeep(lines0, i, IsPagesHeading);
        KeepLine(lines, lines0, i, IsPagesHeading);
      }
      lastHeader' := Some(i);
    } else {
      if line != "" {
        hasContent' := true;
      }
      DropKeep(lines0, i, IsPagesHeading);
      KeepLine(lines, lines0, i, IsPagesHeading);
    }
  }

  /** Where the loop expects the next heading: the index, in the list as it is
      being rewritten, of the first heading at or after `i`. */
  function Anchor(lines0: seq<string>, i: nat, header: string -> bool): (r: Option<nat>)
    requires i <= |lines0|
    ensures r.Some? ==> r.value >= i
  {
    match NextHeader(lines0[i..], header)
    case None => None
    case Some(n) => Some(i + n)
  }

  /** The second loop of `_build_edit`: from the last line to the first, a
      heading with no content below it before the next heading is popped with
      its empty lines. */
  method DropEmptySections(lines0: seq<string>) returns (lines: seq<string>)
    ensures lines == Drop(lines0, IsPagesHeading)
  {
    lines := lines0;
    var hasContent := false;
    var lastHeader: Option<nat> := None;
    var i := |lines0|;
    while i > 0
      invariant 0 <= i <= |lines0|
      invariant lines == lines0[..i] + Drop(lines0[i..], IsPagesHeading)
      invariant hasContent == HasContent(lines0[i..], IsPagesHeading)
      invariant lastHeader == Anchor(lines0, i, IsPagesHeading)
    {
      i := i - 1;
      lines, hasContent, lastHeader := DropAt(lines, i, hasContent, lastHeader, lines0);
    }
    assert lines0[..0] == [] && lines0[0..] == lines0;
  }

  // ---------------------------------------------------------------------------
  // The edit (lines 73-119)

  /** The JSON object `_build_edit` prints: the page, its new text, the revision
      the text was read at, and the edit summary. */
  datatype EditRequest = EditRequest(title: string, content: string, revid: int, summary: string)

  /** `tool-assisted cull: -<removed>/<total> diffs ([[<link root>/<case>/<key>.html|more info]])`. */
  function Summary(removed: nat, total: nat, rootName: string, key: string): (r: string)
    ensures StartsWith(r, "tool-assisted cull: -")
    ensures |".html|more info]])"| <= |r| && r[|r| - |".html|more info]])"|..] == ".html|more info]])"
  {
    "tool-assisted cull: -" + (NatToString(removed) + ("/" + (NatToString(total) + (" diffs " + MoreInfo(rootName, key)))))
  }

  /** `([[<link root>/<case>/<key>.html|more info]])`. */
  function MoreInfo(rootName: string, key: string): string {
    "([[" + LinkRoot + "/" + rootName + "/" + key + ".html|more info]])"
  }

  /** The counts can be read back from the summary: after the leading text come
      the digits of `removed`, a slash, the digits of `total` and ` diffs`. */
  lemma SummaryNumbers(removed: nat, total: nat, rootName: string, key: string)
    ensures var r := Summary(removed, total, rootName, key);
            var lead := "tool-assisted cull: -";
            && StartsWith(r, lead)
            && var t := r[|lead|..];
               var k := DigitRun(t);
               && 0 < k < |t| && DigitsValue(t[..k]) == removed && t[k] == '/'
               && var u := t[k + 1..];
                  var m := DigitRun(u);
                  0 < m && DigitsValue(u[..m]) == total && StartsWith(u[m..], " diffs")
  {
    var lead := "tool-assisted cull: -";
    var tail := " diffs " + MoreInfo(rootName, key);
    var t := NatToString(removed) + ("/" + (NatToString(total) + tail));
    var r := Summary(removed, total, rootName, key);
    assert StartsWith(r, lead) && r[|lead|..] == t by {
      assert r == lead + t;
      assert r[..|lead|] == lead;
    }
    assert tail != [] && !IsDigit(tail[0]) && StartsWith(tail, " diffs") by {
      assert tail[..6] == " diffs";
    }
    NumbersRead(removed, total, tail);
  }

  /** Two numbers written out with a slash between them, followed by a
      non-digit, are read back in turn. */
  lemma NumbersRead(a: nat, b: nat, tail: string)
    requires tail != [] && !IsDigit(tail[0])
    ensures var t := NatToString(a) + ("/" + (NatToString(b) + tail));
            var k := DigitRun(t);
            && 0 < k < |t| && DigitsValue(t[..k]) == a && t[k] == '/'
            && var u := t[k + 1..];
               var m := DigitRun(u);
               0 < m && DigitsValue(u[..m]) == b && u[m..] == tail
  {
    var sa := NatToString(a);
    var u := NatToString(b) + tail;
    var su := "/" + u;
    var t := sa + su;
    assert su[0] == '/' && su[1..] == u;
    var k := DigitRun(t);
    assert k == |sa| && DigitsValue(t[..k]) == a && t[k..] == su by {
      ReadBack(a, su);
    }
    assert 0 < k < |t| && t[k] == '/' && t[k + 1..] == u by {
      assert t[k..][0] == t[k] && t[k..][1..] == t[k + 1..];
    }
    ReadBack(b, tail);
  }

  /** A number written out in decimal and followed by a non-digit is read back
      whole, and what follows it is left. */
  lemma ReadBack(n: nat, rest: string)
    requires rest != [] && !IsDigit(rest[0])
    ensures var t := NatToString(n) + rest;
            var k := DigitRun(t);
            k == |NatToString(n)| && DigitsValue(t[..k]) == n && t[k..] == rest
  {
    var a := NatToString(n);
    DigitRunOf(a, rest);
    assert (a + rest)[..|a|] == a && (a + rest)[|a|..] == rest;
    DigitsValueOfNatToString(n);
  }

  /** The lines of the page text as `_build_edit` reads them. */
  function PageLines(content: string): seq<string> {
    SplitLines(Strip(content))
  }

  /** The new page text: both passes over the lines, joined, with a final newline. */
  function NewContent(content: string, edits: seq<Edit>): (r: string)
    ensures r != [] && r[|r| - 1] == '\n'
  {
    Join(Drop(Rewritten(PageLines(content), edits), IsPagesHeading), "\n") + "\n"
  }

  /** `_build_edit(root, key, title, edits)`, with the page's current revision id
      and text, which the source fetches from the wiki, given as `revid` and
      `content`, and the printed JSON object returned. */
  method BuildEdit(rootName: string, key: string, title: string, edits: seq<Edit>, revid: int, content: string)
    returns (r: EditRequest)
    ensures r.title == title && r.revid == revid
    ensures r.content == NewContent(content, edits)
    ensures r.summary == Summary(RemovedCount(PageLines(content), edits), Count(content, "[[Special:Diff/"), rootName, key)
  {
    var total := Count(content, "[[Special:Diff/");
    var lines := SplitLines(Strip(content));
    var removed;
    lines, removed := RewriteLines(lines, edits);
    lines := DropEmptySections(lines);
    var newContent := Join(lines, "\n") + "\n";
    r := EditRequest(title, newContent, revid, Summary(removed, total, rootName, key));
  }

  /** A page none of whose lines carries a culled diff, and with no empty
      section before another heading, is saved back as its stripped text. */
  lemma NewContentUntouched(content: string, edits: seq<Edit>)
    requires forall i :: 0 <= i < |content| && IsLineBreak(content[i]) ==> content[i] == '\n'
    requires forall i, k :: 0 <= i < |PageLines(content)| && 0 <= k < |edits| ==> !Contains(PageLines(content)[i], Tag(edits[k].diff))
    requires Tidy(PageLines(content), IsPagesHeading)
    ensures RemovedCount(PageLines(content), edits) == 0
    ensures NewContent(content, edits) == Strip(content) + "\n"
  {
    var lines := PageLines(content);
    var t := Strip(content);
    RewrittenUntouched(lines, edits);
    assert Drop(lines, IsPagesHeading) == lines by {
      TidyDropFixes(lines, IsPagesHeading);
    }
    assert Join(lines, "\n") == t by {
      var a := StripSlice(content);
      forall i | 0 <= i < |t| && IsLineBreak(t[i]) ensures t[i] == '\n' {
        assert t[i] == content[a + i];
      }
      JoinSplit(t);
    }
  }
}

=== FILE: case.dfy ===
/** The records of `cci/case.py`: revisions, cull provenance, added lines, deltas,
    edits, and the parsed case hierarchy (diffs, pages, sections, case pages).
    `Line` and `Edit` are classes because the cull engine updates their fields in
    place; the others are values. */
module Case {
  import opened Wrappers

  /** The text of a page at one revision. */
  datatype Revision = Revision(raw: string)

  /** The JSON object a `Revision` is loaded from: `raw` is `None` when the key
      is absent, and `extra` holds any other keys. */
  datatype RawRevision = RawRevision(raw: Option<string>, extra: set<string>)

  /** `Revision.load(raw)`, i.e. `Revision(**raw)`: `raw` is required and any
      other key is a `TypeError`. */
  function LoadRevision(raw: RawRevision): (r: Result<Revision, LoadError>)
    ensures r.Ok? <==> raw.raw.Some? && raw.extra == {}
    ensures r.Ok? ==> r.value.raw == raw.raw.value
  {
    if raw.extra != {} then Err(UnexpectedArguments)
    else if raw.raw.None? then Err(MissingArguments)
    else Ok(Revision(raw.raw.value))
  }

  /** `dataclasses.asdict` of a `Revision`. */
  function DumpRevision(v: Revision): RawRevision {
    RawRevision(Some(v.raw), {})
  }

  /** Loading what was dumped gives the same revision back. */
  lemma LoadDumpRevision(v: Revision)
    ensures LoadRevision(DumpRevision(v)) == Ok(v)
  {
  }

  /** Provenance of a cull: the rule's name and what it matched. */
  datatype CullRule = CullRule(name: string, detail: Option<string>)

  /** The JSON object a `CullRule` is loaded from: `name` and `detail` are `None`
      when the key is absent (`detail == Some(None)` is an explicit `null`), and
      `extra` holds any other keys. */
  datatype RawCullRule = RawCullRule(name: Option<string>, detail: Option<Option<string>>, extra: set<string>)

  /** How a loaded or cull-built `Line` lists its rules: the cull engine appends
      `CullRule` objects, while `Line.load` leaves the raw mappings in place. */
  datatype RuleRecord = Rule(rule: CullRule) | Mapping(raw: RawCullRule)

  /** Why a `load` raises: a `KeyError` on a key the loader reads, or the
      `TypeError` of a dataclass constructor given an unknown keyword or missing
      a required one (Python reports the unknown keyword first). */
  datatype LoadError = MissingKey(key: string) | UnexpectedArguments | MissingArguments

  /** `CullRule.load(raw)`, i.e. `CullRule(**raw)`: `name` is required, `detail`
      defaults to `None`, and any other key is a `TypeError`. */
  function LoadCullRule(raw: RawCullRule): (r: Result<CullRule, LoadError>)
    ensures r.Ok? <==> raw.name.Some? && raw.extra == {}
    ensures r.Ok? && raw.detail.None? ==> r.value.detail == None
  {
    if raw.extra != {} then Err(UnexpectedArguments)
    else if raw.name.None? then Err(MissingArguments)
    else Ok(CullRule(raw.name.value, if raw.detail.Some? then raw.detail.value else None))
  }

  /** `dataclasses.asdict` of a `CullRule`. */
  function DumpCullRule(c: CullRule): RawCullRule {
    RawCullRule(Some(c.name), Some(c.detail), {})
  }

  /** Loading what was dumped gives the same rule back. */
  lemma LoadDumpCullRule(c: CullRule)
    ensures LoadCullRule(DumpCullRule(c)) == Ok(c)
  {
  }

  /** The mutable part of a `Line`. */
  datatype LineState = LineState(text: string, culled: bool, rules: seq<RuleRecord>)

  /** One added line of an edit: its 1-based position in the new text, the raw
      line, and the text the rules see, whether it was culled and why. */
  class Line {
    const index: int
    const raw: string
    var text: string
    var culled: bool
    var rules: seq<RuleRecord>

    /** `Line(index=..., raw=..., text=...)`: not culled, no rules. */
    constructor (index: int, raw: string, text: string)
      ensures this.index == index && this.raw == raw
      ensures State() == LineState(text, false, [])
    {
      this.index := index;
      this.raw := raw;
      this.text := text;
      this.culled := false;
      this.rules := [];
    }

    /** A line with every field given, as `Line(**raw)` builds it. */
    constructor Restore(index: int, raw: string, text: string, culled: bool, rules: seq<RuleRecord>)
      ensures this.index == index && this.raw == raw
      ensures State() == LineState(text, culled, rules)
    {
      this.index := index;
      this.raw := raw;
      this.text := text;
      this.culled := culled;
      this.rules := rules;
    }

    function State(): LineState
      reads this
    {
      LineState(text, culled, rules)
    }
  }

  /** The JSON object a `Line` is loaded from (absent keys are `None`, and
      `extra` holds any other keys). */
  datatype RawLine = RawLine(index: Option<int>, raw: Option<string>, text: Option<string>, culled: Option<bool>,
                             rules: Option<seq<RawCullRule>>, extra: set<string>)

  /** Whether `Line.load(raw)` returns: `raw['rules']` must exist, every rule in it
      must load, and `Line(**raw)` accepts no other key and needs `index`, `raw`
      and `text`. */
  predicate LineLoads(raw: RawLine) {
    && raw.rules.Some?
    && (forall k :: 0 <= k < |raw.rules.value| ==> LoadCullRule(raw.rules.value[k]).Ok?)
    && raw.extra == {}
    && raw.index.Some? && raw.raw.Some? && raw.text.Some?
  }

  /** The state a loaded line starts in: the stored text, culled only when the
      stored flag is `true`, and the raw rule mappings as its records. */
  function LoadedState(raw: RawLine): (st: LineState)
    requires raw.rules.Some? && raw.text.Some?
    ensures st.text == raw.text.value && (st.culled <==> raw.culled == Some(true))
    ensures |st.rules| == |raw.rules.value|
    ensures forall k :: 0 <= k < |st.rules| ==> st.rules[k] == Mapping(raw.rules.value[k])
  {
    LineState(raw.text.value, raw.culled == Some(true),
              seq(|raw.rules.value|, k requires 0 <= k < |raw.rules.value| => Mapping(raw.rules.value[k])))
  }

  /** `line` is what `Line.load(raw)` builds. */
  predicate Loaded(line: Line, raw: RawLine)
    reads line
  {
    && raw.rules.Some? && raw.index.Some? && raw.raw.Some? && raw.text.Some?
    && line.index == raw.index.value && line.raw == raw.raw.value && line.State() == LoadedState(raw)
  }

  /** `Line.load(raw)`. The converted rule list is computed, so a bad rule still
      raises, but the line is built from the unconverted mapping: its rules are
      the raw mappings. */
  method LoadLine(raw: RawLine) returns (r: Result<Line, LoadError>)
    ensures r.Ok? <==> LineLoads(raw)
    ensures raw.rules.None? ==> r == Err(MissingKey("rules"))
    ensures r.Ok? ==> fresh(r.value) && Loaded(r.value, raw)
  {
    if raw.rules.None? {
      return Err(MissingKey("rules"));
    }
    var rawRules := raw.rules.value;
    var k := 0;
    while k < |rawRules|
      invariant 0 <= k <= |rawRules|
      invariant forall j :: 0 <= j < k ==> LoadCullRule(rawRules[j]).Ok?
    {
      var converted := LoadCullRule(rawRules[k]);
      if converted.Err? {
        return Err(converted.error);
      }
      k := k + 1;
    }
    if raw.extra != {} {
      return Err(UnexpectedArguments);
    }
    if raw.index.None? || raw.raw.None? || raw.text.None? {
      return Err(MissingArguments);
    }
    var records := seq(|rawRules|, j requires 0 <= j < |rawRules| => Mapping(rawRules[j]));
    var line := new Line.Restore(raw.index.value, raw.raw.value, raw.text.value, raw.culled == Some(true), records);
    return Ok(line);
  }

  /** The added lines of an edit. */
  datatype Delta = Delta(lines: seq<Line>)

  /** The JSON value stored under an edit's `delta` key when it is not `null`:
      an empty object, or an object with a `lines` list. */
  datatype RawDelta = EmptyObject | LinesObject(lines: seq<RawLine>)

  /** `Delta.load(raw)`: every line is loaded in order; the first failure raises. */
  method LoadDelta(raw: seq<RawLine>) returns (r: Result<Delta, LoadError>)
    ensures r.Ok? <==> forall k :: 0 <= k < |raw| ==> LineLoads(raw[k])
    ensures r.Ok? ==> |r.value.lines| == |raw|
    ensures r.Ok? ==> forall k :: 0 <= k < |raw| ==> fresh(r.value.lines[k]) && Loaded(r.value.lines[k], raw[k])
  {
    var lines: seq<Line> := [];
    var k := 0;
    while k < |raw|
      invariant 0 <= k <= |raw| && |lines| == k
      invariant forall j :: 0 <= j < k ==> LineLoads(raw[j])
      invariant forall j :: 0 <= j < k ==> fresh(lines[j]) && Loaded(lines[j], raw[j])
    {
      var line := LoadLine(raw[k]);
      if line.Err? {
        return Err(line.error);
      }
      lines := lines + [line.value];
      k := k + 1;
    }
    return Ok(Delta(lines));
  }

  /** One recorded change to a page listed on a case page, with the text before
      and after it and, once culled, its delta. */
  class Edit {
    const casepage: string
    const section: string
    const page: string
    const diff: int
    const before: Revision
    const after: Revision
    var delta: Option<Delta>

    constructor (casepage: string, section: string, page: string, diff: int,
                 before: Revision, after: Revision, delta: Option<Delta>)
      ensures this.casepage == casepage && this.section == section && this.page == page
      ensures this.diff == diff && this.before == before && this.after == after
      ensures this.delta == delta
    {
      this.casepage := casepage;
      this.section := section;
      this.page := page;
      this.diff := diff;
      this.before := before;
      this.after := after;
      this.delta := delta;
    }

    function Lines(): seq<Line>
      reads this
    {
      if delta.Some? then delta.value.lines else []
    }

    /** The `culled` property: `self.delta and all(line.culled ...)`. A `Delta`
        object is always truthy, so a present delta with no lines is culled. */
    predicate Culled()
      reads this, Lines()
      ensures Culled() ==> delta.Some?
      ensures delta.Some? && delta.value.lines == [] ==> Culled()
    {
      delta.Some? && forall k :: 0 <= k < |delta.value.lines| ==> delta.value.lines[k].culled
    }
  }

  /** The JSON object an `Edit` is loaded from: absent keys are `None` (`delta`
      is also `None` when it is `null`), and `extra` holds any other keys. */
  datatype RawEdit = RawEdit(casepage: Option<string>, section: Option<string>, page: Option<string>, diff: Option<int>,
                             before: Option<RawRevision>, after: Option<RawRevision>, delta: Option<RawDelta>,
                             extra: set<string>)

  /** Whether the delta of `raw` is loaded: it is present and truthy. */
  predicate HasLinesDelta(raw: RawEdit) {
    raw.delta.Some? && raw.delta.value.LinesObject?
  }

  /** Whether `Edit.load(raw)` returns: `before` and `after` must exist and load,
      a truthy delta must load line by line, and `Edit(**kwargs)` accepts no
      other key and needs `casepage`, `section`, `page` and `diff`. */
  predicate EditLoads(raw: RawEdit) {
    && raw.before.Some? && LoadRevision(raw.before.value).Ok?
    && raw.after.Some? && LoadRevision(raw.after.value).Ok?
    && (HasLinesDelta(raw) ==> forall k :: 0 <= k < |raw.delta.value.lines| ==> LineLoads(raw.delta.value.lines[k]))
    && raw.extra == {}
    && raw.casepage.Some? && raw.section.Some? && raw.page.Some? && raw.diff.Some?
  }

  /** `Edit.load(raw)`: the revisions are loaded, and the delta is loaded only
      when it is present and truthy (an object with a `lines` key); a falsy
      delta leaves the edit without one. */
  method LoadEdit(raw: RawEdit) returns (r: Result<Edit, LoadError>)
    ensures r.Ok? <==> EditLoads(raw)
    ensures raw.before.None? ==> r == Err(MissingKey("before"))
    ensures raw.before.Some? && LoadRevision(raw.before.value).Ok? && raw.after.None? ==> r == Err(MissingKey("after"))
    ensures r.Ok? && !HasLinesDelta(raw) ==> r.value.delta.None?
    ensures r.Ok? ==> fresh(r.value)
    ensures r.Ok? ==> && Some(r.value.casepage) == raw.casepage && Some(r.value.section) == raw.section
                      && Some(r.value.page) == raw.page && Some(r.value.diff) == raw.diff
                      && Ok(r.value.before) == LoadRevision(raw.before.value)
                      && Ok(r.value.after) == LoadRevision(raw.after.value)
    ensures r.Ok? && r.value.delta.Some? ==>
              && HasLinesDelta(raw)
              && |r.value.delta.value.lines| == |raw.delta.value.lines|
              && forall k :: 0 <= k < |raw.delta.value.lines| ==> Loaded(r.value.delta.value.lines[k], raw.delta.value.lines[k])
    ensures r.Ok? ==> (r.value.Culled() <==>
                         && HasLinesDelta(raw)
                         && forall k :: 0 <= k < |raw.delta.value.lines| ==> raw.delta.value.lines[k].culled == Some(true))
  {
    if raw.before.None? {
      return Err(MissingKey("before"));
    }
    var before := LoadRevision(raw.before.value);
    if before.Err? {
      return Err(before.error);
    }
    if raw.after.None? {
      return Err(MissingKey("after"));
    }
    var after := LoadRevision(raw.after.value);
    if after.Err? {
      return Err(after.error);
    }
    var delta: Option<Delta> := None;
    if HasLinesDelta(raw) {
      var loaded := LoadDelta(raw.delta.value.lines);
      if loaded.Err? {
        return Err(loaded.error);
      }
      delta := Some(loaded.value);
    }
    if raw.extra != {} {
      return Err(UnexpectedArguments);
    }
    if raw.casepage.None? || raw.section.None? || raw.page.None? || raw.diff.None? {
      return Err(MissingArguments);
    }
    var edit := new Edit(raw.casepage.value, raw.section.value, raw.page.value, raw.diff.value,
                         before.value, after.value, delta);
    return Ok(edit);
  }

  /** One diff listed for a page: its revision id and its size text such as `+120`. */
  datatype Diff = Diff(revid: int, size: string)

  datatype Page = Page(title: string, diffs: seq<Diff>)

  datatype Section = Section(title: string, pages: seq<Page>)

  /** A Python dict as its items in insertion order. */
  predicate DistinctKeys<V>(items: seq<(string, V)>) {
    forall i, j :: 0 <= i < j < |items| ==> items[i].0 != items[j].0
  }

  datatype CasePage = CasePage(index: string, sections: seq<(string, Section)>)

  datatype Case = Case(pages: seq<(string, CasePage)>, index: seq<string>)

  /** `Case(pages)` with `__post_init__`: `index` lists the page keys in insertion order. */
  function NewCase(pages: seq<(string, CasePage)>): (c: Case)
    requires DistinctKeys(pages)
    ensures c.pages == pages && |c.index| == |pages|
    ensures forall i :: 0 <= i < |pages| ==> c.index[i] == pages[i].0
    ensures forall i, j :: 0 <= i < j < |c.index| ==> c.index[i] != c.index[j]
  {
    Case(pages, seq(|pages|, i requires 0 <= i < |pages| => pages[i].0))
  }
}

=== FILE: cull.dfy ===
/** The cull engine of `cci/cull_diffs.py`: extracting an edit's added lines,
    the whitelist pass, the first-applicable-rule pass with per-edit caps, and
    the driver that filters edits and groups the fully culled ones by case page.

    Each loop of the source is a method proved against a specification function:
    `WhitelistPass` and `Scan` for one line, `CullLine` and `Run` for the lines
    of one edit, `EditPass` for an edit, and `Selected`, `Keys` and `Group` for
    the driver. */
module Cull {
  import opened Wrappers
  import opened Text
  import opened Case
  import opened Rules

  // ---------------------------------------------------------------------------
  // The delta: added lines

  /** An added line before it becomes a `Line`: its 1-based index in the new
      text, the raw line, and the stripped text. */
  datatype Seed = Seed(index: int, raw: string, text: string)

  /** Whether line `line` of the new text is an added line: it has non-blank
      content and is not a line of the old text. */
  predicate Kept(line: string, beforeLines: set<string>) {
    Strip(line) != [] && line !in beforeLines
  }

  /** The added lines among `lines`, numbered from 1, in order. */
  function AddedFrom(lines: seq<string>, beforeLines: set<string>): (r: seq<Seed>)
    ensures |r| <= |lines|
    ensures forall k :: 0 <= k < |r| ==> 1 <= r[k].index <= |lines|
    ensures forall j, k :: 0 <= j < k < |r| ==> r[j].index < r[k].index
  {
    if lines == [] then []
    else
      var n := |lines|;
      var prefix := AddedFrom(lines[..n - 1], beforeLines);
      if Kept(lines[n - 1], beforeLines) then prefix + [Seed(n, lines[n - 1], Strip(lines[n - 1]))]
      else prefix
  }

  /** Seed `s` is the added line at its index among `lines`. */
  predicate SeedOf(lines: seq<string>, beforeLines: set<string>, s: Seed) {
    && 1 <= s.index <= |lines|
    && s.raw == lines[s.index - 1]
    && s.text == Strip(s.raw)
    && Kept(s.raw, beforeLines)
  }

  /** Every seed is an added line of the new text, with its stripped text. */
  lemma {:induction false} AddedFromSound(lines: seq<string>, beforeLines: set<string>, k: nat)
    requires k < |AddedFrom(lines, beforeLines)|
    ensures SeedOf(lines, beforeLines, AddedFrom(lines, beforeLines)[k])
    decreases |lines|
  {
    var n := |lines|;
    var prefix := AddedFrom(lines[..n - 1], beforeLines);
    if k < |prefix| {
      AddedFromSound(lines[..n - 1], beforeLines, k);
      assert AddedFrom(lines, beforeLines)[k] == prefix[k];
    }
  }

  /** Every line of the new text that is non-blank and not a line of the old
      text is among the seeds. */
  lemma {:induction false} AddedFromComplete(lines: seq<string>, beforeLines: set<string>, i: nat)
    requires i < |lines| && Kept(lines[i], beforeLines)
    ensures exists k :: 0 <= k < |AddedFrom(lines, beforeLines)| && AddedFrom(lines, beforeLines)[k].index == i + 1
    decreases |lines|
  {
    var n := |lines|;
    var prefix := AddedFrom(lines[..n - 1], beforeLines);
    var r := AddedFrom(lines, beforeLines);
    if i < n - 1 {
      assert lines[..n - 1][i] == lines[i];
      AddedFromComplete(lines[..n - 1], beforeLines, i);
      var k :| 0 <= k < |prefix| && prefix[k].index == i + 1;
      assert r[k] == prefix[k];
    } else {
      assert r[|prefix|].index == n;
    }
  }

  /** The lines of a text, as a set. */
  function LineSet(text: string): (r: set<string>)
    ensures forall l :: l in r <==> l in SplitLines(text)
  {
    set l | l in SplitLines(text)
  }

  /** The delta `_cull_edit` builds from the two revisions. */
  function AddedLines(before: string, after: string): seq<Seed> {
    AddedFrom(SplitLines(after), LineSet(before))
  }

  /** The state a fresh `Line` for each seed starts in. */
  function InitialStates(seeds: seq<Seed>): (r: seq<LineState>)
    ensures |r| == |seeds|
    ensures forall k :: 0 <= k < |r| ==> r[k] == LineState(seeds[k].text, false, [])
  {
    seq(|seeds|, k requires 0 <= k < |seeds| => LineState(seeds[k].text, false, []))
  }

  /** An unchanged revision adds no lines. */
  lemma UnchangedAddsNothing(text: string)
    ensures AddedLines(text, text) == []
  {
    if AddedLines(text, text) != [] {
      AddedFromSound(SplitLines(text), LineSet(text), 0);
    }
  }

  // ---------------------------------------------------------------------------
  // One line

  /** The whitelist pass: every whitelist item contained in the text (checked
      against the text as already reduced by the earlier items) is deleted from
      it everywhere and recorded as a `whitelist` rule. Gives the new text and
      the records appended. */
  function WhitelistPass(items: seq<string>, text: string): (r: (string, seq<RuleRecord>))
    ensures |r.0| <= |text|
    ensures |r.1| <= |items|
    ensures forall k :: 0 <= k < |r.1| ==>
              && r.1[k].Rule? && r.1[k].rule.name == "whitelist"
              && r.1[k].rule.detail.Some? && r.1[k].rule.detail.value in items
  {
    if items == [] then (text, [])
    else
      var p := WhitelistPass(items[..|items| - 1], text);
      var item := items[|items| - 1];
      if Contains(p.0, item) then (RemoveAll(p.0, item), p.1 + [Rule(CullRule("whitelist", Some(item)))])
      else p
  }

  /** One item: recorded and deleted everywhere exactly when the text contains it. */
  lemma WhitelistOne(item: string, text: string)
    ensures WhitelistPass([item], text) ==
              if Contains(text, item) then (RemoveAll(text, item), [Rule(CullRule("whitelist", Some(item)))])
              else (text, [])
  {
    assert [item][..0] == [];
    var rec := Rule(CullRule("whitelist", Some(item)));
    assert [] + [rec] == [rec];
  }

  /** The pass over `a + b` is the pass over `a`, then the pass over `b` on the
      text `a` left, with the records of both in order. */
  lemma {:induction false} WhitelistAppend(a: seq<string>, b: seq<string>, text: string)
    ensures var p := WhitelistPass(a, text);
            var q := WhitelistPass(b, p.0);
            WhitelistPass(a + b, text) == (q.0, p.1 + q.1)
    decreases |b|
  {
    if b == [] {
      assert a + b == a;
      assert WhitelistPass(a, text).1 + [] == WhitelistPass(a, text).1;
    } else {
      var b', item := b[..|b| - 1], b[|b| - 1];
      assert (a + b)[..|a + b| - 1] == a + b';
      assert (a + b)[|a + b| - 1] == item;
      WhitelistAppend(a, b', text);
      var p := WhitelistPass(a, text);
      var q' := WhitelistPass(b', p.0);
      var rec := Rule(CullRule("whitelist", Some(item)));
      if Contains(q'.0, item) {
        assert WhitelistPass(b, p.0) == (RemoveAll(q'.0, item), q'.1 + [rec]);
        assert WhitelistPass(a + b, text) == (RemoveAll(q'.0, item), (p.1 + q'.1) + [rec]);
        assert (p.1 + q'.1) + [rec] == p.1 + (q'.1 + [rec]);
      } else {
        assert WhitelistPass(b, p.0) == q';
        assert WhitelistPass(a + b, text) == WhitelistPass(a + b', text);
      }
    }
  }

  /** An item can be recorded although the original text does not contain it:
      deleting an earlier item may join its pieces. */
  lemma WhitelistJoins()
    ensures !Contains("aXb", "ab")
    ensures WhitelistPass(["X", "ab"], "aXb") ==
              ("", [Rule(CullRule("whitelist", Some("X"))), Rule(CullRule("whitelist", Some("ab")))])
  {
    assert "aXb"[1] == 'X' && "aXb"[1..] == "Xb" && "Xb"[1..] == "b" && "b"[1..] == [];
    assert !StartsWith("aXb", "ab") && !StartsWith("Xb", "ab") && !StartsWith("b", "ab") && !StartsWith([], "ab");
    assert !Contains("b", "ab") by { assert !Contains([], "ab"); }
    assert StartsWith("Xb", "X");
    assert Contains("aXb", "X");
    var recX := Rule(CullRule("whitelist", Some("X")));
    var recAb := Rule(CullRule("whitelist", Some("ab")));
    WhitelistAppend(["X"], ["ab"], "aXb");
    assert ["X"] + ["ab"] == ["X", "ab"];
    WhitelistOne("X", "aXb");
    assert RemoveAll("aXb", "X") == "ab";
    assert WhitelistPass(["X"], "aXb") == ("ab", [recX]);
    WhitelistOne("ab", "ab");
    assert StartsWith("ab", "ab");
    assert RemoveAll("ab", "ab") == "";
    assert WhitelistPass(["ab"], "ab") == ("", [recAb]);
    assert [recX] + [recAb] == [recX, recAb];
  }

  /** A blank item (the empty string) is contained in every text, so it always
      leaves a record, and it leaves the text as it was. */
  lemma BlankWhitelistItem(text: string)
    ensures WhitelistPass([""], text) == (text, [Rule(CullRule("whitelist", Some("")))])
  {
    var items := [""];
    assert items[..0] == [];
    var p := WhitelistPass(items[..0], text);
    assert p == (text, []);
    assert Contains(p.0, "") by { assert StartsWith(text, ""); }
    assert RemoveAll(text, "") == text;
    var rec := Rule(CullRule("whitelist", Some("")));
    assert WhitelistPass(items, text) == (RemoveAll(p.0, ""), p.1 + [rec]);
    assert p.1 + [rec] == [rec];
  }

  /** Whether rule `name` has reached its cap for this edit. A rule that has not
      culled yet in this edit is never capped, whatever its `max`. */
  predicate Capped(name: string, rule: RuleDef, counts: map<string, int>)
    ensures name !in counts || rule.max.None? ==> !Capped(name, rule, counts)
  {
    name in counts && rule.max.Some? && counts[name] >= rule.max.value
  }

  /** The result of the rule pass for one line. */
  datatype Verdict = Live | CulledBy(name: string, rule: CullRule)

  /** Whether the rule at `i` lets the pass go on to the next rule: it does not
      match, or it matches but is capped. */
  predicate PassesOver(rules: seq<(string, RuleDef)>, i: nat, text: string, counts: map<string, int>, mr: Matcher)
    requires i < |rules|
  {
    var out := mr(text, rules[i].0, rules[i].1);
    out.Ok? && (out.value.None? || Capped(rules[i].0, rules[i].1, counts))
  }

  /** The rule pass over `rules[i..]`: the first rule that matches and is not
      capped culls the line; a matcher that raises ends the pass. */
  function Scan(rules: seq<(string, RuleDef)>, i: nat, text: string, counts: map<string, int>, mr: Matcher): (r: Result<Verdict, Error>)
    requires i <= |rules|
    ensures r.Ok? && r.value.CulledBy? ==>
              exists k :: && i <= k < |rules| && rules[k].0 == r.value.name && !Capped(rules[k].0, rules[k].1, counts)
                          && mr(text, rules[k].0, rules[k].1) == Ok(Some(r.value.rule))
    ensures r.Err? ==> exists k :: i <= k < |rules| && mr(text, rules[k].0, rules[k].1) == Err(r.error)
    decreases |rules| - i
  {
    if i == |rules| then Ok(Live)
    else match mr(text, rules[i].0, rules[i].1)
      case Err(e) => Err(e)
      case Ok(None) => Scan(rules, i + 1, text, counts, mr)
      case Ok(Some(c)) =>
        if Capped(rules[i].0, rules[i].1, counts) then Scan(rules, i + 1, text, counts, mr)
        else Ok(CulledBy(rules[i].0, c))
  }

  /** The rule pass takes the first rule that matches and is not capped: every
      rule before it does not match or is capped; a line left live was passed
      over by every rule; a pass that raises met a rule whose matcher raised. */
  lemma {:induction false} ScanFirst(rules: seq<(string, RuleDef)>, i: nat, text: string, counts: map<string, int>, mr: Matcher)
    requires i <= |rules|
    ensures var r := Scan(rules, i, text, counts, mr);
            && (r.Ok? && r.value.Live? ==> forall j :: i <= j < |rules| ==> PassesOver(rules, j, text, counts, mr))
            && (r.Ok? && r.value.CulledBy? ==>
                  exists k :: i <= k < |rules|
                              && rules[k].0 == r.value.name
                              && mr(text, rules[k].0, rules[k].1) == Ok(Some(r.value.rule))
                              && !Capped(rules[k].0, rules[k].1, counts)
                              && forall j :: i <= j < k ==> PassesOver(rules, j, text, counts, mr))
            && (r.Err? ==> exists k :: i <= k < |rules| && mr(text, rules[k].0, rules[k].1).Err?)
    decreases |rules| - i
  {
    if i < |rules| {
      ScanFirst(rules, i + 1, text, counts, mr);
    }
  }

  /** `rule_counts[name] += 1`, starting from 0. */
  function Bump(counts: map<string, int>, name: string): (r: map<string, int>)
    ensures r.Keys == counts.Keys + {name}
    ensures forall n :: n in counts && n != name ==> r[n] == counts[n]
  {
    counts[name := (if name in counts then counts[name] else 0) + 1]
  }

  /** Where one line ends up: its state, the edit's rule counts, and the
      exception raised, if any. */
  datatype Step = Step(state: LineState, counts: map<string, int>, error: Option<Error>)

  /** One iteration of `_cull_edit`'s line loop. */
  function CullLine(st: LineState, rs: RuleSet, counts: map<string, int>, mr: Matcher): (r: Step)
    ensures st.rules <= r.state.rules
    ensures st.culled ==> r.state.culled
  {
    var w := WhitelistPass(rs.whitelist, st.text);
    var after := LineState(w.0, st.culled, st.rules + w.1);
    match Scan(rs.rules, 0, w.0, counts, mr)
    case Err(e) => Step(after, counts, Some(e))
    case Ok(Live) => Step(after, counts, None)
    case Ok(CulledBy(name, c)) =>
      Step(LineState(w.0, true, after.rules + [Rule(c)]), Bump(counts, name), None)
  }

  /** Rule `k` is the one the rule pass culls with: it matches, it is not capped,
      and every rule before it is passed over. */
  predicate FirstCuller(rules: seq<(string, RuleDef)>, k: int, text: string, counts: map<string, int>, mr: Matcher) {
    && 0 <= k < |rules|
    && mr(text, rules[k].0, rules[k].1).Ok? && mr(text, rules[k].0, rules[k].1).value.Some?
    && !Capped(rules[k].0, rules[k].1, counts)
    && forall j :: 0 <= j < k ==> PassesOver(rules, j, text, counts, mr)
  }

  /** Rules that are passed over do not change where the pass ends. */
  lemma {:induction false} ScanSkips(rules: seq<(string, RuleDef)>, i: nat, k: nat, text: string, counts: map<string, int>, mr: Matcher)
    requires i <= k <= |rules|
    requires forall j :: i <= j < k ==> PassesOver(rules, j, text, counts, mr)
    ensures Scan(rules, i, text, counts, mr) == Scan(rules, k, text, counts, mr)
    decreases k - i
  {
    if i < k {
      assert PassesOver(rules, i, text, counts, mr);
      ScanSkips(rules, i + 1, k, text, counts, mr);
    }
  }

  /** One unculled line: the whitelist pass gives its text and first records; the
      line is culled exactly when some rule is the first culler, and then that
      rule's record is appended and its count raised; otherwise the records and
      counts stay, and the line stays live without an error exactly when every
      rule passes over it. */
  lemma CullLineSpec(st: LineState, rs: RuleSet, counts: map<string, int>, mr: Matcher)
    requires !st.culled
    ensures var w := WhitelistPass(rs.whitelist, st.text);
            var s := CullLine(st, rs, counts, mr);
            && s.state.text == w.0
            && (s.state.culled <==> exists k :: FirstCuller(rs.rules, k, w.0, counts, mr))
            && (s.state.culled ==>
                  exists k :: FirstCuller(rs.rules, k, w.0, counts, mr)
                              && s.state.rules == st.rules + w.1 + [Rule(mr(w.0, rs.rules[k].0, rs.rules[k].1).value.value)]
                              && s.counts == Bump(counts, rs.rules[k].0) && s.error.None?)
            && (!s.state.culled ==> s.state.rules == st.rules + w.1 && s.counts == counts)
            && (!s.state.culled && s.error.None? <==>
                  forall j :: 0 <= j < |rs.rules| ==> PassesOver(rs.rules, j, w.0, counts, mr))
  {
    var w := WhitelistPass(rs.whitelist, st.text);
    var sc := Scan(rs.rules, 0, w.0, counts, mr);
    ScanFirst(rs.rules, 0, w.0, counts, mr);
    forall k | FirstCuller(rs.rules, k, w.0, counts, mr)
      ensures sc.Ok? && sc.value.CulledBy?
    {
      ScanSkips(rs.rules, 0, k, w.0, counts, mr);
    }
    if forall j :: 0 <= j < |rs.rules| ==> PassesOver(rs.rules, j, w.0, counts, mr) {
      ScanSkips(rs.rules, 0, |rs.rules|, w.0, counts, mr);
    }
    if sc.Ok? && sc.value.CulledBy? {
      var k :| 0 <= k < |rs.rules| && rs.rules[k].0 == sc.value.name
               && mr(w.0, rs.rules[k].0, rs.rules[k].1) == Ok(Some(sc.value.rule))
               && !Capped(rs.rules[k].0, rs.rules[k].1, counts)
               && forall j :: 0 <= j < k ==> PassesOver(rs.rules, j, w.0, counts, mr);
      assert FirstCuller(rs.rules, k, w.0, counts, mr);
    }
  }

  /** The whitelist loop of `_cull_edit`. */
  method StripWhitelist(line: Line, items: seq<string>)
    modifies line
    ensures line.text == WhitelistPass(items, old(line.text)).0
    ensures line.rules == old(line.rules) + WhitelistPass(items, old(line.text)).1
    ensures line.culled == old(line.culled)
  {
    var i := 0;
    while i < |items|
      invariant 0 <= i <= |items|
      invariant line.text == WhitelistPass(items[..i], old(line.text)).0
      invariant line.rules == old(line.rules) + WhitelistPass(items[..i], old(line.text)).1
      invariant line.culled == old(line.culled)
    {
      assert items[..i + 1][..i] == items[..i];
      var item := items[i];
      if Contains(line.text, item) {
        line.text := RemoveAll(line.text, item);
        line.rules := line.rules + [Rule(CullRule("whitelist", Some(item)))];
      }
      i := i + 1;
    }
    assert items[..|items|] == items;
  }

  /** The body of `_cull_edit`'s line loop: the whitelist, then the rules in
      order until one culls the line. */
  method CullLineInPlace(line: Line, rs: RuleSet, counts: map<string, int>, env: Env, ghost mr: Matcher)
    returns (counts': map<string, int>, error: Option<Error>)
    requires Implements(mr, env)
    modifies line
    ensures var s := CullLine(old(line.State()), rs, counts, mr);
            line.State() == s.state && counts' == s.counts && error == s.error
  {
    StripWhitelist(line, rs.whitelist);
    ghost var w := WhitelistPass(rs.whitelist, old(line.text));
    var rules := rs.rules;
    var i := 0;
    while i < |rules|
      invariant 0 <= i <= |rules|
      invariant line.text == w.0 && line.rules == old(line.rules) + w.1 && line.culled == old(line.culled)
      invariant Scan(rules, 0, line.text, counts, mr) == Scan(rules, i, line.text, counts, mr)
    {
      var name := rules[i].0;
      var rule := rules[i].1;
      var out := MatchRule(line.text, name, rule, env);
      if out.Err? {
        return counts, Some(out.error);
      }
      if out.value.Some? {
        if !Capped(name, rule, counts) {
          line.rules := line.rules + [Rule(out.value.value)];
          line.culled := true;
          return Bump(counts, name), None;
        }
      }
      i := i + 1;
    }
    return counts, None;
  }

  // ---------------------------------------------------------------------------
  // One edit

  /** The lines of an edit with the rule counts and the exception, if any. */
  datatype Pass = Pass(states: seq<LineState>, counts: map<string, int>, error: Option<Error>)

  /** The line loop of `_cull_edit` after the first `n` lines: the counts start
      empty for every edit, and the first exception stops the loop, leaving the
      remaining lines as they were. */
  function Run(init: seq<LineState>, n: nat, rs: RuleSet, mr: Matcher): (p: Pass)
    requires n <= |init|
    ensures |p.states| == |init|
    ensures forall k :: n <= k < |init| ==> p.states[k] == init[k]
    decreases n
  {
    if n == 0 then Pass(init, map[], None)
    else
      var p := Run(init, n - 1, rs, mr);
      if p.error.Some? then p
      else
        var s := CullLine(p.states[n - 1], rs, p.counts, mr);
        Pass(p.states[n - 1 := s.state], s.counts, s.error)
  }

  /** Line `k` is handled once, by the loop's `k`-th iteration: it is the line
      `CullLine` makes of its initial state with the counts the earlier lines
      left, unless an earlier line raised. Later iterations leave it alone. */
  lemma {:induction false} RunLineState(init: seq<LineState>, n: nat, k: nat, rs: RuleSet, mr: Matcher)
    requires k < n <= |init|
    ensures var p := Run(init, k, rs, mr);
            Run(init, n, rs, mr).states[k] ==
              if p.error.Some? then init[k] else CullLine(init[k], rs, p.counts, mr).state
    decreases n
  {
    if n > k + 1 {
      RunLineState(init, n - 1, k, rs, mr);
    }
  }

  /** `_cull_edit` as a whole, for the edit's two revisions. */
  function EditPass(before: string, after: string, rs: RuleSet, mr: Matcher): (p: Pass)
    ensures |p.states| == |AddedLines(before, after)|
  {
    var init := InitialStates(AddedLines(before, after));
    Run(init, |init|, rs, mr)
  }

  /** Whether every added line ends up culled. */
  predicate AllCulled(p: Pass) {
    forall k :: 0 <= k < |p.states| ==> p.states[k].culled
  }

  /** Whether a line was culled by rule `name`: it is culled and its last record
      is that rule's. */
  predicate CulledByName(st: LineState, name: string) {
    st.culled && |st.rules| > 0 && st.rules[|st.rules| - 1].Rule? && st.rules[|st.rules| - 1].rule.name == name
  }

  /** How many of the lines were culled by rule `name`. */
  function Tally(states: seq<LineState>, name: string): nat {
    if states == [] then 0
    else Tally(states[..|states| - 1], name) + (if CulledByName(states[|states| - 1], name) then 1 else 0)
  }

  lemma {:induction false} TallyUpdate(states: seq<LineState>, k: nat, s: LineState, name: string)
    requires k < |states| && !CulledByName(states[k], name)
    ensures Tally(states[k := s], name) == Tally(states, name) + (if CulledByName(s, name) then 1 else 0)
    decreases |states|
  {
    var n := |states|;
    var t := states[k := s];
    if k == n - 1 {
      assert t[..n - 1] == states[..n - 1];
    } else {
      assert t[..n - 1] == states[..n - 1][k := s];
      TallyUpdate(states[..n - 1], k, s, name);
    }
  }

  /** `rule_counts[name]` is the number of lines the rule `name` culled, so far. */
  function CountOf(counts: map<string, int>, name: string): int {
    if name in counts then counts[name] else 0
  }

  /** The rule counts kept while culling an edit count exactly the lines each
      rule culled. */
  lemma {:induction false} RunCounts(init: seq<LineState>, n: nat, rs: RuleSet, mr: Matcher, name: string)
    requires n <= |init|
    requires forall k :: 0 <= k < |init| ==> !init[k].culled
    requires NamesItsRule(mr)
    ensures Tally(Run(init, n, rs, mr).states, name) == CountOf(Run(init, n, rs, mr).counts, name)
    decreases n
  {
    if n == 0 {
      assert Run(init, 0, rs, mr) == Pass(init, map[], None);
      TallyNone(init, name);
    } else {
      RunCounts(init, n - 1, rs, mr, name);
      var p := Run(init, n - 1, rs, mr);
      if p.error.None? {
        var s := CullLine(p.states[n - 1], rs, p.counts, mr);
        var q := Run(init, n, rs, mr);
        assert q == Pass(p.states[n - 1 := s.state], s.counts, s.error);
        assert p.states[n - 1] == init[n - 1];
        var b := if CulledByName(s.state, name) then 1 else 0;
        assert Tally(q.states, name) == Tally(p.states, name) + b by {
          TallyUpdate(p.states, n - 1, s.state, name);
        }
        assert CountOf(q.counts, name) == CountOf(p.counts, name) + b by {
          CullLineCounts(p.states[n - 1], rs, p.counts, mr, name);
        }
      } else {
        assert Run(init, n, rs, mr) == p;
      }
    }
  }

  /** One line's rule pass raises the count of the rule that culled it, and no other. */
  lemma CullLineCounts(st: LineState, rs: RuleSet, counts: map<string, int>, mr: Matcher, name: string)
    requires !st.culled && NamesItsRule(mr)
    ensures var s := CullLine(st, rs, counts, mr);
            CountOf(s.counts, name) == CountOf(counts, name) + (if CulledByName(s.state, name) then 1 else 0)
  {
    var w := WhitelistPass(rs.whitelist, st.text);
    var sc := Scan(rs.rules, 0, w.0, counts, mr);
    if sc.Ok? && sc.value.CulledBy? {
      ScanFirst(rs.rules, 0, w.0, counts, mr);
      var k :| 0 <= k < |rs.rules| && rs.rules[k].0 == sc.value.name
               && mr(w.0, rs.rules[k].0, rs.rules[k].1) == Ok(Some(sc.value.rule));
      assert sc.value.rule.name == sc.value.name;
      var s := CullLine(st, rs, counts, mr);
      assert s.state.rules[|s.state.rules| - 1] == Rule(sc.value.rule);
    }
  }

  lemma {:induction false} TallyNone(states: seq<LineState>, name: string)
    requires forall k :: 0 <= k < |states| ==> !states[k].culled
    ensures Tally(states, name) == 0
    decreases |states|
  {
    if states != [] {
      TallyNone(states[..|states| - 1], name);
    }
  }

  predicate DistinctNames(rules: seq<(string, RuleDef)>) {
    forall i, j :: 0 <= i < j < |rules| ==> rules[i].0 != rules[j].0
  }

  function MaxInt(a: int, b: int): int { if a < b then b else a }

  /** A rule with `max: m` culls at most `max(m, 1)` lines of an edit: the cap is
      checked only once the rule has culled, so even `max: 0` culls one line. */
  lemma {:induction false} RunCap(init: seq<LineState>, n: nat, rs: RuleSet, mr: Matcher, idx: nat, cap: int)
    requires n <= |init|
    requires DistinctNames(rs.rules)
    requires idx < |rs.rules| && rs.rules[idx].1.max == Some(cap)
    ensures CountOf(Run(init, n, rs, mr).counts, rs.rules[idx].0) <= MaxInt(cap, 1)
    decreases n
  {
    if n > 0 {
      RunCap(init, n - 1, rs, mr, idx, cap);
      var p := Run(init, n - 1, rs, mr);
      if p.error.None? {
        var w := WhitelistPass(rs.whitelist, p.states[n - 1].text);
        var sc := Scan(rs.rules, 0, w.0, p.counts, mr);
        if sc.Ok? && sc.value.CulledBy? && sc.value.name == rs.rules[idx].0 {
          ScanFirst(rs.rules, 0, w.0, p.counts, mr);
          var k :| 0 <= k < |rs.rules| && rs.rules[k].0 == sc.value.name
                   && !Capped(rs.rules[k].0, rs.rules[k].1, p.counts);
          assert k == idx;
        }
      }
    }
  }

  /** The cap, stated on the lines: an edit never has more than `max(m, 1)` lines
      culled by a rule with `max: m`. */
  lemma EditCap(before: string, after: string, rs: RuleSet, mr: Matcher, idx: nat, cap: int)
    requires NamesItsRule(mr)
    requires DistinctNames(rs.rules)
    requires idx < |rs.rules| && rs.rules[idx].1.max == Some(cap)
    ensures Tally(EditPass(before, after, rs, mr).states, rs.rules[idx].0) <= MaxInt(cap, 1)
  {
    var init := InitialStates(AddedLines(before, after));
    RunCounts(init, |init|, rs, mr, rs.rules[idx].0);
    RunCap(init, |init|, rs, mr, idx, cap);
  }

  /** A culled line was culled by the first rule that matched its
      whitelist-reduced text without being capped under the counts of the lines
      before it, and its last record is that rule's. */
  lemma CulledLinesNameARule(init: seq<LineState>, n: nat, rs: RuleSet, mr: Matcher, k: nat)
    requires n <= |init| && k < |init|
    requires forall j :: 0 <= j < |init| ==> !init[j].culled
    requires Run(init, n, rs, mr).states[k].culled
    requires NamesItsRule(mr)
    ensures var st := Run(init, n, rs, mr).states[k];
            |st.rules| > 0 && st.rules[|st.rules| - 1].Rule?
            && exists i :: 0 <= i < |rs.rules| && rs.rules[i].0 == st.rules[|st.rules| - 1].rule.name
    ensures var p := Run(init, k, rs, mr);
            var w := WhitelistPass(rs.whitelist, init[k].text);
            var st := Run(init, n, rs, mr).states[k];
            && k < n && p.error.None?
            && exists i :: FirstCuller(rs.rules, i, w.0, p.counts, mr)
                           && st.rules == init[k].rules + w.1 + [Rule(mr(w.0, rs.rules[i].0, rs.rules[i].1).value.value)]
                           && st.rules[|st.rules| - 1].rule.name == rs.rules[i].0
  {
    var p := Run(init, k, rs, mr);
    var w := WhitelistPass(rs.whitelist, init[k].text);
    var st := Run(init, n, rs, mr).states[k];
    RunLineState(init, n, k, rs, mr);
    CullLineSpec(init[k], rs, p.counts, mr);
    var i :| FirstCuller(rs.rules, i, w.0, p.counts, mr)
             && st.rules == init[k].rules + w.1 + [Rule(mr(w.0, rs.rules[i].0, rs.rules[i].1).value.value)];
    assert st.rules[|st.rules| - 1] == Rule(mr(w.0, rs.rules[i].0, rs.rules[i].1).value.value);
  }

  /** `DeltaMatches(edit)`: the edit's delta holds exactly the added lines, each
      in the state `_cull_edit` leaves it in. */
  predicate DeltaMatches(edit: Edit, rs: RuleSet, mr: Matcher)
    reads edit, edit.Lines()
  {
    var seeds := AddedLines(edit.before.raw, edit.after.raw);
    var p := EditPass(edit.before.raw, edit.after.raw, rs, mr);
    && edit.delta.Some?
    && |edit.delta.value.lines| == |seeds|
    && forall k :: 0 <= k < |seeds| ==>
         && edit.delta.value.lines[k].index == seeds[k].index
         && edit.delta.value.lines[k].raw == seeds[k].raw
         && edit.delta.value.lines[k].State() == p.states[k]
  }

  /** The list comprehension of `_cull_edit`: a fresh `Line` per seed. */
  method NewLines(seeds: seq<Seed>) returns (lines: seq<Line>)
    ensures |lines| == |seeds|
    ensures forall k :: 0 <= k < |lines| ==> fresh(lines[k])
    ensures forall a, b :: 0 <= a < b < |lines| ==> lines[a] != lines[b]
    ensures forall k :: 0 <= k < |lines| ==>
              && lines[k].index == seeds[k].index && lines[k].raw == seeds[k].raw
              && lines[k].State() == InitialStates(seeds)[k]
  {
    lines := [];
    var j := 0;
    while j < |seeds|
      invariant 0 <= j <= |seeds| && |lines| == j
      invariant forall k :: 0 <= k < j ==> fresh(lines[k])
      invariant forall a, b :: 0 <= a < b < j ==> lines[a] != lines[b]
      invariant forall k :: 0 <= k < j ==>
                  && lines[k].index == seeds[k].index && lines[k].raw == seeds[k].raw
                  && lines[k].State() == LineState(seeds[k].text, false, [])
    {
      var line := new Line(seeds[j].index, seeds[j].raw, seeds[j].text);
      lines := lines + [line];
      j := j + 1;
    }
  }

  /** Lines `lines` are distinct and in the states `states`. */
  ghost predicate InStates(lines: seq<Line>, states: seq<LineState>)
    reads set k | 0 <= k < |lines| :: lines[k]
  {
    && |lines| == |states|
    && (forall a, b :: 0 <= a < b < |lines| ==> lines[a] != lines[b])
    && (forall k :: 0 <= k < |lines| ==> lines[k].State() == states[k])
  }

  /** One iteration of the line loop of `_cull_edit`: line `i` is culled in place. */
  method CullAt(lines: seq<Line>, i: nat, ghost init: seq<LineState>, ghost states: seq<LineState>,
                counts: map<string, int>, rs: RuleSet, env: Env, ghost mr: Matcher)
    returns (ghost states': seq<LineState>, counts': map<string, int>, error: Option<Error>)
    requires Implements(mr, env)
    requires i < |lines| == |init|
    requires Run(init, i, rs, mr) == Pass(states, counts, None)
    requires InStates(lines, states)
    modifies lines[i]
    ensures Run(init, i + 1, rs, mr) == Pass(states', counts', error)
    ensures InStates(lines, states')
  {
    ghost var s := CullLine(states[i], rs, counts, mr);
    counts', error := CullLineInPlace(lines[i], rs, counts, env, mr);
    states' := states[i := s.state];
    forall k | 0 <= k < |lines| ensures lines[k].State() == states'[k] {
      if k != i {
        assert lines[k] != lines[i];
      }
    }
  }

  /** The line loop of `_cull_edit`, over distinct lines starting in `init`. */
  method CullLines(lines: seq<Line>, ghost init: seq<LineState>, rs: RuleSet, env: Env, ghost mr: Matcher)
    returns (error: Option<Error>)
    requires Implements(mr, env)
    requires InStates(lines, init)
    modifies set k | 0 <= k < |lines| :: lines[k]
    ensures error == Run(init, |init|, rs, mr).error
    ensures InStates(lines, Run(init, |init|, rs, mr).states)
  {
    var counts: map<string, int> := map[];
    ghost var states := init;
    error := None;
    var i := 0;
    while i < |lines| && error.None?
      invariant 0 <= i <= |lines|
      invariant Run(init, i, rs, mr) == Pass(states, counts, error)
      invariant InStates(lines, states)
    {
      states, counts, error := CullAt(lines, i, init, states, counts, rs, env, mr);
      i := i + 1;
    }
    RunStops(init, i, |init|, rs, mr);
  }

  /** `_cull_edit(edit, rules)`: builds the delta from the two revisions, then
      culls its lines in order. Returns the exception raised, if any. */
  method CullEdit(edit: Edit, rs: RuleSet, env: Env, ghost mr: Matcher) returns (error: Option<Error>)
    requires Implements(mr, env)
    modifies edit
    ensures DeltaMatches(edit, rs, mr)
    ensures forall k :: 0 <= k < |edit.Lines()| ==> fresh(edit.Lines()[k])
    ensures error == EditPass(edit.before.raw, edit.after.raw, rs, mr).error
    ensures edit.Culled() <==> AllCulled(EditPass(edit.before.raw, edit.after.raw, rs, mr))
  {
    var seeds := AddedLines(edit.before.raw, edit.after.raw);
    var lines := NewLines(seeds);
    edit.delta := Some(Delta(lines));
    error := CullLines(lines, InitialStates(seeds), rs, env, mr);
  }

  /** Once a line has raised, the later lines are left alone. */
  lemma {:induction false} RunStops(init: seq<LineState>, n: nat, m: nat, rs: RuleSet, mr: Matcher)
    requires n <= m <= |init|
    requires n < m ==> Run(init, n, rs, mr).error.Some?
    ensures Run(init, m, rs, mr) == Run(init, n, rs, mr)
    decreases m
  {
    if m > n {
      RunStops(init, n, m - 1, rs, mr);
    }
  }

  /** An edit with no added lines is fully culled: its delta is present and empty. */
  lemma EmptyDeltaCulled(before: string, after: string, rs: RuleSet, mr: Matcher)
    requires AddedLines(before, after) == []
    ensures AllCulled(EditPass(before, after, rs, mr)) && EditPass(before, after, rs, mr).error.None?
  {
  }

  // ---------------------------------------------------------------------------
  // The driver

  /** The command-line filters; an absent list does not filter. */
  datatype Filters = Filters(
    casepages: Option<seq<string>>,
    sections: Option<seq<string>>,
    pages: Option<seq<string>>,
    diffs: Option<seq<int>>)

  /** Whether the filters let an edit through: each list given must contain the
      edit's attribute. */
  predicate Admits(filters: Option<Filters>, edit: Edit)
    ensures filters.None? ==> Admits(filters, edit)
  {
    filters.None? ||
    var f := filters.value;
    && (f.casepages.None? || edit.casepage in f.casepages.value)
    && (f.sections.None? || edit.section in f.sections.value)
    && (f.pages.None? || edit.page in f.pages.value)
    && (f.diffs.None? || edit.diff in f.diffs.value)
  }

  /** Whether an edit lands in the output: it passes the filters, culling it did
      not raise, and every added line was culled. */
  predicate Selects(filters: Option<Filters>, edit: Edit, rs: RuleSet, mr: Matcher)
    ensures Selects(filters, edit, rs, mr) ==> Admits(filters, edit)
  {
    var p := EditPass(edit.before.raw, edit.after.raw, rs, mr);
    Admits(filters, edit) && p.error.None? && AllCulled(p)
  }

  /** The selected edits, in input order. */
  function Selected(edits: seq<Edit>, filters: Option<Filters>, rs: RuleSet, mr: Matcher): (r: seq<Edit>)
    ensures forall k :: 0 <= k < |r| ==> r[k] in edits && Selects(filters, r[k], rs, mr)
    ensures forall k :: 0 <= k < |edits| && Selects(filters, edits[k], rs, mr) ==> edits[k] in r
  {
    if edits == [] then []
    else
      var prefix := Selected(edits[..|edits| - 1], filters, rs, mr);
      var e := edits[|edits| - 1];
      assert edits == edits[..|edits| - 1] + [e];
      if Selects(filters, e, rs, mr) then prefix + [e] else prefix
  }

  /** The case pages of `edits`, in order of first appearance. */
  function Keys(edits: seq<Edit>): (r: seq<string>)
    ensures forall i, j :: 0 <= i < j < |r| ==> r[i] != r[j]
    ensures forall s :: s in r <==> exists k :: 0 <= k < |edits| && edits[k].casepage == s
  {
    if edits == [] then []
    else
      var prefix := Keys(edits[..|edits| - 1]);
      var e := edits[|edits| - 1];
      assert edits == edits[..|edits| - 1] + [e];
      if e.casepage in prefix then prefix else prefix + [e.casepage]
  }

  /** The edits of case page `key`, in order. */
  function Group(edits: seq<Edit>, key: string): (r: seq<Edit>)
    ensures forall k :: 0 <= k < |r| ==> r[k] in edits && r[k].casepage == key
    ensures forall k :: 0 <= k < |edits| && edits[k].casepage == key ==> edits[k] in r
  {
    if edits == [] then []
    else
      var prefix := Group(edits[..|edits| - 1], key);
      var e := edits[|edits| - 1];
      assert edits == edits[..|edits| - 1] + [e];
      if e.casepage == key then prefix + [e] else prefix
  }

  /** Selecting is filtering: it works on each part of the input separately and
      keeps the order. */
  lemma {:induction false} SelectedAppend(a: seq<Edit>, b: seq<Edit>, filters: Option<Filters>, rs: RuleSet, mr: Matcher)
    ensures Selected(a + b, filters, rs, mr) == Selected(a, filters, rs, mr) + Selected(b, filters, rs, mr)
    decreases |b|
  {
    if b == [] {
      assert a + b == a;
    } else {
      var ab, b', e := a + b, b[..|b| - 1], b[|b| - 1];
      assert ab[..|ab| - 1] == a + b' && ab[|ab| - 1] == e;
      var last := Selected([e], filters, rs, mr);
      assert Selected(ab, filters, rs, mr) == Selected(a + b', filters, rs, mr) + last by {
        SelectedLast(ab, filters, rs, mr);
      }
      assert Selected(b, filters, rs, mr) == Selected(b', filters, rs, mr) + last by {
        SelectedLast(b, filters, rs, mr);
      }
      SelectedAppend(a, b', filters, rs, mr);
      var x, y := Selected(a, filters, rs, mr), Selected(b', filters, rs, mr);
      assert (x + y) + last == x + (y + last);
    }
  }

  /** One step of the filter: the last edit is filtered on its own. */
  lemma SelectedLast(edits: seq<Edit>, filters: Option<Filters>, rs: RuleSet, mr: Matcher)
    requires edits != []
    ensures Selected(edits, filters, rs, mr)
              == Selected(edits[..|edits| - 1], filters, rs, mr) + Selected([edits[|edits| - 1]], filters, rs, mr)
  {
    SelectedOne(edits[|edits| - 1], filters, rs, mr);
  }

  /** A single edit is kept exactly when it is selected. */
  lemma SelectedOne(e: Edit, filters: Option<Filters>, rs: RuleSet, mr: Matcher)
    ensures Selected([e], filters, rs, mr) == if Selects(filters, e, rs, mr) then [e] else []
  {
    assert [e][..0] == [];
  }

  /** Grouping by one case page is filtering too. */
  lemma {:induction false} GroupAppendSeq(a: seq<Edit>, b: seq<Edit>, key: string)
    ensures Group(a + b, key) == Group(a, key) + Group(b, key)
    decreases |b|
  {
    if b == [] {
      assert a + b == a;
    } else {
      var b', e := b[..|b| - 1], b[|b| - 1];
      assert (a + b)[..|a + b| - 1] == a + b' && (a + b)[|a + b| - 1] == e;
      GroupAppendSeq(a, b', key);
      var x, y := Group(a, key), Group(b', key);
      if e.casepage == key {
        assert (x + y) + [e] == x + (y + [e]);
      }
    }
  }

  /** A single edit is in the group exactly when it belongs to the case page. */
  lemma GroupOne(e: Edit, key: string)
    ensures Group([e], key) == if e.casepage == key then [e] else []
  {
    assert [e][..0] == [];
  }

  /** `i` is where case page `key` first appears in `edits`. */
  predicate FirstAt(edits: seq<Edit>, key: string, i: int) {
    0 <= i < |edits| && edits[i].casepage == key && forall j :: 0 <= j < i ==> edits[j].casepage != key
  }

  /** The keys come in the order of their first appearance. */
  lemma {:induction false} KeysOrder(edits: seq<Edit>, a: nat, b: nat, ia: nat, ib: nat)
    requires a < b < |Keys(edits)|
    requires FirstAt(edits, Keys(edits)[a], ia) && FirstAt(edits, Keys(edits)[b], ib)
    ensures ia < ib
    decreases |edits|
  {
    var n := |edits|;
    var p, e := edits[..n - 1], edits[n - 1];
    var kp := Keys(p);
    assert edits == p + [e];
    FirstInPrefix(edits, Keys(edits)[a], ia);
    if b < |kp| {
      FirstInPrefix(edits, Keys(edits)[b], ib);
      KeysOrder(p, a, b, ia, ib);
    } else {
      assert ia < n - 1;
      assert Keys(edits)[b] !in kp;
    }
  }

  /** A key of all but the last edit first appears before the last edit. */
  lemma FirstInPrefix(edits: seq<Edit>, key: string, i: nat)
    requires edits != [] && FirstAt(edits, key, i) && key in Keys(edits[..|edits| - 1])
    ensures i < |edits| - 1 && FirstAt(edits[..|edits| - 1], key, i)
  {
    var p := edits[..|edits| - 1];
    var k :| 0 <= k < |p| && p[k].casepage == key;
    assert edits[k].casepage == key;
  }

  /** The dictionary `culled` after appending the edits `sel` in order with
      `culled.setdefault(edit.casepage, []).append(edit)`. */
  function GroupMap(sel: seq<Edit>): (r: map<string, seq<Edit>>)
    ensures forall key :: key in r ==> r[key] != [] && r[key][|r[key]| - 1].casepage == key
  {
    if sel == [] then map[]
    else
      var m := GroupMap(sel[..|sel| - 1]);
      var e := sel[|sel| - 1];
      m[e.casepage := (if e.casepage in m then m[e.casepage] else []) + [e]]
  }

  /** The dictionary's keys are the case pages of `sel`, in `Keys(sel)`. */
  lemma {:induction false} GroupMapKeys(sel: seq<Edit>)
    ensures GroupMap(sel).Keys == set k | k in Keys(sel)
  {
    if sel != [] {
      var p := sel[..|sel| - 1];
      GroupMapKeys(p);
      assert sel == p + [sel[|sel| - 1]];
      GroupAppend(p, sel[|sel| - 1]);
    }
  }

  /** Each entry of the dictionary is the group of its case page. */
  lemma {:induction false} GroupMapGroups(sel: seq<Edit>, key: string)
    requires key in GroupMap(sel)
    ensures GroupMap(sel)[key] == Group(sel, key) && Group(sel, key) != []
  {
    var p := sel[..|sel| - 1];
    var e := sel[|sel| - 1];
    assert sel == p + [e];
    GroupAppend(p, e);
    if key in GroupMap(p) {
      GroupMapGroups(p, key);
    } else {
      assert e.casepage == key;
      GroupMapKeys(p);
      assert key !in Keys(p);
      GroupsEmpty(p, key);
    }
  }

  /** A case page that no edit belongs to has an empty group. */
  lemma GroupsEmpty(edits: seq<Edit>, key: string)
    requires key !in Keys(edits)
    ensures Group(edits, key) == []
  {
  }

  /** One step of `culled.setdefault(edit.casepage, []).append(edit)`, with the
      key order. */
  lemma AppendStep(sel: seq<Edit>, edit: Edit)
    ensures Keys(sel + [edit])
            == if edit.casepage in GroupMap(sel) then Keys(sel) else Keys(sel) + [edit.casepage]
    ensures GroupMap(sel + [edit])
            == GroupMap(sel)[edit.casepage :=
                 (if edit.casepage in GroupMap(sel) then GroupMap(sel)[edit.casepage] else []) + [edit]]
  {
    GroupAppend(sel, edit);
    GroupMapKeys(sel);
    assert (sel + [edit])[..|sel|] == sel;
  }

  /** `_cull_edit` on an admitted edit of the list, keeping the earlier
      admitted edits' deltas as they were left. */
  method CullEditAt(edits: seq<Edit>, i: nat, rs: RuleSet, filters: Option<Filters>, env: Env, ghost mr: Matcher)
    returns (error: Option<Error>)
    requires Implements(mr, env)
    requires i < |edits| && Admits(filters, edits[i])
    requires forall j {:trigger DeltaMatches(edits[j], rs, mr)} ::
               0 <= j < i && Admits(filters, edits[j]) ==> DeltaMatches(edits[j], rs, mr)
    modifies edits[i]
    ensures forall j {:trigger DeltaMatches(edits[j], rs, mr)} ::
              0 <= j < i + 1 && Admits(filters, edits[j]) ==> DeltaMatches(edits[j], rs, mr)
    ensures error.None? && edits[i].Culled() <==> Selects(filters, edits[i], rs, mr)
  {
    error := CullEdit(edits[i], rs, env, mr);
    forall j | 0 <= j < i + 1 && Admits(filters, edits[j])
      ensures DeltaMatches(edits[j], rs, mr)
    {
      if edits[j] != edits[i] {
        assert j < i && old(DeltaMatches(edits[j], rs, mr));
        assert unchanged(edits[j]) && unchanged(old(edits[j].Lines()));
      }
    }
  }

  /** One turn of the edit loop of `cull_diffs`: an edit the filters let
      through is culled, and goes into its case page's group when it is
      selected; an edit the filters reject is left alone. */
  method CullNth(edits: seq<Edit>, i: nat, rs: RuleSet, filters: Option<Filters>, env: Env, ghost mr: Matcher,
                 keys: seq<string>, groups: map<string, seq<Edit>>, ghost sel: seq<Edit>)
    returns (keys': seq<string>, groups': map<string, seq<Edit>>, ghost sel': seq<Edit>)
    requires Implements(mr, env)
    requires i < |edits|
    requires sel == Selected(edits[..i], filters, rs, mr) && keys == Keys(sel) && groups == GroupMap(sel)
    requires forall j {:trigger DeltaMatches(edits[j], rs, mr)} ::
               0 <= j < i && Admits(filters, edits[j]) ==> DeltaMatches(edits[j], rs, mr)
    modifies edits[i]
    ensures sel' == Selected(edits[..i + 1], filters, rs, mr) && keys' == Keys(sel') && groups' == GroupMap(sel')
    ensures forall j {:trigger DeltaMatches(edits[j], rs, mr)} ::
              0 <= j < i + 1 && Admits(filters, edits[j]) ==> DeltaMatches(edits[j], rs, mr)
    ensures !Admits(filters, edits[i]) ==> edits[i].delta == old(edits[i].delta)
  {
    var selected := false;
    if Admits(filters, edits[i]) {
      var error := CullEditAt(edits, i, rs, filters, env, mr);
      selected := error.None? && edits[i].Culled();
    }
    SelectedStep(edits, i, filters, rs, mr);
    keys', groups', sel' := keys, groups, sel;
    if selected {
      var page := edits[i].casepage;
      keys' := if page in groups then keys else keys + [page];
      groups' := groups[page := (if page in groups then groups[page] else []) + [edits[i]]];
      AppendStep(sel, edits[i]);
      sel' := sel + [edits[i]];
    }
  }

  /** The edit loop of `cull_diffs`: filter, cull, and append each fully culled
      edit to its case page's group (`culled.setdefault(...).append(...)`), with
      the groups' keys in insertion order. */
  method CullDiffs(edits: seq<Edit>, rs: RuleSet, filters: Option<Filters>, env: Env, ghost mr: Matcher)
    returns (keys: seq<string>, groups: map<string, seq<Edit>>)
    requires Implements(mr, env)
    modifies set i | 0 <= i < |edits| :: edits[i]
    ensures keys == Keys(Selected(edits, filters, rs, mr))
    ensures groups == GroupMap(Selected(edits, filters, rs, mr))
    ensures forall i :: 0 <= i < |edits| && Admits(filters, edits[i]) ==> DeltaMatches(edits[i], rs, mr)
    ensures forall i :: 0 <= i < |edits| && !Admits(filters, edits[i]) ==> edits[i].delta == old(edits[i].delta)
  {
    keys := [];
    groups := map[];
    ghost var sel: seq<Edit> := [];
    var i := 0;
    while i < |edits|
      invariant 0 <= i <= |edits|
      invariant sel == Selected(edits[..i], filters, rs, mr) && keys == Keys(sel) && groups == GroupMap(sel)
      invariant forall j {:trigger DeltaMatches(edits[j], rs, mr)} ::
                  0 <= j < i && Admits(filters, edits[j]) ==> DeltaMatches(edits[j], rs, mr)
      invariant forall j :: 0 <= j < |edits| && !Admits(filters, edits[j]) ==> edits[j].delta == old(edits[j].delta)
    {
      keys, groups, sel := CullNth(edits, i, rs, filters, env, mr, keys, groups, sel);
      i := i + 1;
    }
    assert edits[..|edits|] == edits;
  }

  lemma SelectedStep(edits: seq<Edit>, i: nat, filters: Option<Filters>, rs: RuleSet, mr: Matcher)
    requires i < |edits|
    ensures Selected(edits[..i + 1], filters, rs, mr)
            == if Selects(filters, edits[i], rs, mr) then Selected(edits[..i], filters, rs, mr) + [edits[i]]
               else Selected(edits[..i], filters, rs, mr)
  {
    assert edits[..i + 1][..i] == edits[..i];
  }

  lemma GroupAppend(sel: seq<Edit>, e: Edit)
    ensures forall k :: Group(sel + [e], k) == (if e.casepage == k then Group(sel, k) + [e] else Group(sel, k))
    ensures Keys(sel + [e]) == (if e.casepage in Keys(sel) then Keys(sel) else Keys(sel) + [e.casepage])
  {
    assert (sel + [e])[..|sel|] == sel;
  }
}

=== FILE: fetch_cci.dfy ===
/** The string-level helpers of `cci/fetch_cci.py` that turn a case page's
    wikitext into `Case` records: whether a section's lines are wrapped in a
    collapse box, the index of a `Pages N through M` section, one diff link, and
    the gate and page title of one listed-page line. The wikitext parser is not
    modelled: a link is given as its title and its optional text, and a line's
    parse as the names of its templates and its wikilinks. */
module FetchCci {
  import opened Wrappers
  import opened Text
  import opened Case

  // ---------------------------------------------------------------------------
  // Collapsed sections (lines 96-105)

  /** The collapse-box openers and closers, tested on lower-cased lines. */
  predicate Opens(first: string) {
    Contains(first, "{{collapse top") || Contains(first, "{{ctop")
  }

  predicate Closes(last: string) {
    Contains(last, "{{collapse bottom") || Contains(last, "{{cbot")
  }

  /** The footer a report generator leaves after a collapse box. */
  predicate IsFooter(lowered: string) {
    StartsWith(lowered, "this report generated by")
  }

  /** `_is_collapsed(lines)` as written: when the lower-cased last line is the
      footer, the line before it is tested as it stands, not lower-cased. */
  predicate IsCollapsedAsWritten(lines: seq<string>)
    ensures IsCollapsedAsWritten(lines) ==> lines != [] && Opens(Lower(lines[0]))
    ensures |lines| == 1 ==> (IsCollapsedAsWritten(lines) <==> Opens(Lower(lines[0])) && Closes(Lower(lines[0])))
  {
    && lines != []
    && var first, last := Lower(lines[0]), Lower(lines[|lines| - 1]);
       var closing := if IsFooter(last) && |lines| > 1 then lines[|lines| - 2] else last;
       Opens(first) && Closes(closing)
  }

  /** `_is_collapsed(lines)` with the line before the footer lower-cased like the
      first and last lines. */
  predicate IsCollapsed(lines: seq<string>)
    ensures IsCollapsed(lines) ==> lines != [] && Opens(Lower(lines[0]))
    ensures |lines| == 1 ==> (IsCollapsed(lines) <==> Opens(Lower(lines[0])) && Closes(Lower(lines[0])))
  {
    && lines != []
    && var first, last := Lower(lines[0]), Lower(lines[|lines| - 1]);
       var closing := if IsFooter(last) && |lines| > 1 then Lower(lines[|lines| - 2]) else last;
       Opens(first) && Closes(closing)
  }

  /** A box closed by `{{Cbot}}` and followed by the footer is not recognised
      as written, although the same box without the footer is. */
  lemma IsCollapsedAsWrittenMissesCapital(footer: string)
    requires IsFooter(Lower(footer))
    ensures IsCollapsedAsWritten(["{{ctop}}", "{{Cbot}}"])
    ensures !IsCollapsedAsWritten(["{{ctop}}", "{{Cbot}}", footer])
    ensures IsCollapsed(["{{ctop}}", "{{Cbot}}", footer])
  {
    var lines := ["{{ctop}}", "{{Cbot}}", footer];
    SampleLines();
    NoCbot(lines[1]);
    assert [lines[0], lines[1]] == ["{{ctop}}", "{{Cbot}}"];
  }

  /** The lines of the example, lower-cased. */
  lemma SampleLines()
    ensures Opens(Lower("{{ctop}}")) && Closes(Lower("{{Cbot}}"))
  {
    assert Lower("{{ctop}}") == "{{ctop}}";
    ContainsAt("{{ctop}}", "{{ctop", 0);
    assert Lower("{{Cbot}}") == "{{cbot}}";
    ContainsAt("{{cbot}}", "{{cbot", 0);
  }

  /** `{{Cbot}}` contains neither closer, as the text stands. */
  lemma NoCbot(s: string)
    requires s == "{{Cbot}}"
    ensures !Closes(s)
  {
    NotLonger(s[3..], "{{cbot");
    assert s[2..][1..] == s[3..];
    assert s[2..][..6][0] != '{';
    assert !Contains(s[2..], "{{cbot");
    assert s[1..][1..] == s[2..];
    assert s[1..][..6][1] != '{';
    assert !Contains(s[1..], "{{cbot");
    assert s[..6][2] != 'c';
    assert |s| < |"{{collapse bottom"|;
    NotLonger(s, "{{collapse bottom");
  }

  /** A pattern longer than the text is not in it. */
  lemma {:induction false} NotLonger(s: string, p: string)
    requires |s| < |p|
    ensures !Contains(s, p)
    decreases |s|
  {
    if s != [] {
      NotLonger(s[1..], p);
    }
  }

  /** The two readings agree whenever the line before a footer is already lower case. */
  lemma IsCollapsedAgrees(lines: seq<string>)
    requires |lines| > 1 ==> Lower(lines[|lines| - 2]) == lines[|lines| - 2]
    ensures IsCollapsedAsWritten(lines) == IsCollapsed(lines)
  {
  }

  /** No lines, no collapse box. */
  lemma IsCollapsedEmpty()
    ensures !IsCollapsed([]) && !IsCollapsedAsWritten([])
  {
  }

  /** Lower-casing is idempotent. */
  lemma LowerLower(s: string)
    ensures Lower(Lower(s)) == Lower(s)
  {
  }

  /** The corrected predicate ignores letter case. */
  lemma IsCollapsedIgnoresCase(lines: seq<string>)
    ensures IsCollapsed(lines) == IsCollapsed(seq(|lines|, i requires 0 <= i < |lines| => Lower(lines[i])))
  {
    var lowered := seq(|lines|, i requires 0 <= i < |lines| => Lower(lines[i]));
    if lines != [] {
      LowerLower(lines[0]);
      LowerLower(lines[|lines| - 1]);
      if |lines| > 1 {
        LowerLower(lines[|lines| - 2]);
      }
    }
  }

  /** A footer after a box does not hide it: the line before the footer is
      tested as the last line would be. */
  lemma IsCollapsedFooter(lines: seq<string>, footer: string)
    requires lines != [] && IsFooter(Lower(footer))
    requires !IsFooter(Lower(lines[|lines| - 1]))
    ensures IsCollapsed(lines + [footer]) == IsCollapsed(lines)
  {
    var all := lines + [footer];
    assert all[0] == lines[0] && all[|all| - 1] == footer && all[|all| - 2] == lines[|lines| - 1];
  }

  // ---------------------------------------------------------------------------
  // Section headings (lines 80-84)

  /** `re.match(r'^Pages (\d+) through (\d+)$', title.strip())`: the two groups.
      The title is stripped, so `$` can only match at its end. */
  function HeadingGroups(title: string): (r: Option<(string, string)>)
    ensures r.Some? ==> IsDigits(r.value.0) && IsDigits(r.value.1)
    ensures r.Some? ==> Strip(title) == "Pages " + r.value.0 + " through " + r.value.1
  {
    var t := Strip(title);
    if !StartsWith(t, "Pages ") then None
    else
      var s := t[6..];
      var k := DigitRun(s);
      if k > 0 && StartsWith(s[k..], " through ") && IsDigits(s[k + 9..]) then
        HeadingParts(t, k);
        Some((s[..k], s[k + 9..]))
      else None
  }

  lemma HeadingParts(t: string, k: nat)
    requires StartsWith(t, "Pages ") && 6 + k + 9 <= |t| && StartsWith(t[6 + k..], " through ")
    ensures t == "Pages " + t[6..][..k] + " through " + t[6..][k + 9..]
  {
    var s := t[6..];
    assert t == t[..6] + s;
    assert s == s[..k] + s[k..k + 9] + s[k + 9..];
  }

  /** Every heading of the form is recognised, with its two numbers. */
  lemma HeadingGroupsOf(a: string, b: string)
    requires IsDigits(a) && IsDigits(b)
    ensures HeadingGroups("Pages " + a + " through " + b) == Some((a, b))
  {
    var t := "Pages " + a + " through " + b;
    assert t[|t| - 1] == b[|b| - 1];
    StripUnpadded(t);
    var s := t[6..];
    assert s == a + (" through " + b);
    DigitRunOf(a, " through " + b);
    HeadingTail(s, a, b);
  }

  lemma HeadingTail(s: string, a: string, b: string)
    requires s == a + (" through " + b)
    ensures StartsWith(s[|a|..], " through ") && s[..|a|] == a && s[|a| + 9..] == b
  {
    assert s[|a|..] == " through " + b;
  }

  /** A text with no whitespace at either end is its own strip. */
  lemma StripUnpadded(t: string)
    requires t != [] && !IsSpace(t[0]) && !IsSpace(t[|t| - 1])
    ensures Strip(t) == t
  {
  }

  datatype HeadingError = NotAPagesHeading(title: string)

  /** The key of a `Pages N through M` section: `N-M`; any other level-3 heading
      fails the assertion. */
  function SectionIndex(title: string): (r: Result<string, HeadingError>)
    ensures r.Err? <==> HeadingGroups(title).None?
  {
    match HeadingGroups(title)
    case None => Err(NotAPagesHeading(title))
    case Some((a, b)) => Ok(a + "-" + b)
  }

  /** `Pages N through M` gets the index `N-M`. */
  lemma SectionIndexOf(a: string, b: string)
    requires IsDigits(a) && IsDigits(b)
    ensures SectionIndex("Pages " + a + " through " + b) == Ok(a + "-" + b)
  {
    HeadingGroupsOf(a, b);
  }

  // ---------------------------------------------------------------------------
  // Diff links (lines 124-134)

  /** A wikilink: its title and its text, `None` when it has no `|`. */
  datatype Link = Link(title: string, text: Option<string>)

  datatype DiffError = NotADiffLink | BadRevid(revid: string) | BadSize(size: string)

  /** `re.match(r'^\d+$', s)`: `$` also matches before a final newline. */
  predicate MatchesDigits(s: string)
    ensures MatchesDigits(s) <==>
              && s != [] && IsDigit(s[0])
              && forall i :: 0 <= i < |s| ==> IsDigit(s[i]) || (i == |s| - 1 && s[i] == '\n')
  {
    IsDigits(s) || (s != [] && s[|s| - 1] == '\n' && IsDigits(s[..|s| - 1]))
  }

  /** `re.match(r'^\([+-]\d+\)$', s)`, with the same `$`. */
  predicate MatchesSize(s: string)
    ensures MatchesSize(s) ==>
              && |s| >= 4 && s[0] == '(' && (s[1] == '+' || s[1] == '-') && IsDigit(s[2])
              && (s[|s| - 1] == ')' || (|s| >= 5 && s[|s| - 1] == '\n' && s[|s| - 2] == ')'))
  {
    IsSize(s) || (s != [] && s[|s| - 1] == '\n' && IsSize(s[..|s| - 1]))
  }

  /** `([+-]\d+)` exactly. */
  predicate IsSize(s: string) {
    |s| >= 4 && s[0] == '(' && (s[1] == '+' || s[1] == '-') && IsDigits(s[2..|s| - 1]) && s[|s| - 1] == ')'
  }

  /** `str(link.text)`: a missing text prints as `None`. */
  function TextOf(link: Link): string {
    if link.text.Some? then link.text.value else "None"
  }

  /** `_parse_diff(link)`: the title must start with `Special:Diff/`, the part
      after its first `/` must be a number, and the text a signed size in
      parentheses; the revision id is that number and the size the text
      without its first and last characters. */
  function ParseDiff(link: Link): (r: Result<Diff, DiffError>)
    ensures r.Ok? <==> StartsWith(link.title, "Special:Diff/") && MatchesDigits(link.title[13..]) && MatchesSize(TextOf(link))
    ensures r.Ok? ==> r.value.revid >= 0 && |r.value.size| == |TextOf(link)| - 2
  {
    if !StartsWith(link.title, "Special:Diff/") then Err(NotADiffLink)
    else
      var revid := link.title[13..];
      var size := TextOf(link);
      if !MatchesDigits(revid) then Err(BadRevid(revid))
      else if !MatchesSize(size) then Err(BadSize(size))
      else
        var n := if IsDigits(revid) then DigitsValue(revid) else DigitsValue(revid[..|revid| - 1]);
        Ok(Diff(n, size[1..|size| - 1]))
  }

  /** The link a diff is listed with: `[[Special:Diff/<revid>|(<size>)]]`. */
  function DiffLink(d: Diff): Link {
    Link("Special:Diff/" + IntToString(d.revid), Some("(" + d.size + ")"))
  }

  /** A signed size such as `+120` or `-4`. */
  predicate IsSignedSize(size: string) {
    |size| >= 2 && (size[0] == '+' || size[0] == '-') && IsDigits(size[1..])
  }

  /** Parsing the link of a diff gives the diff back. */
  lemma ParseDiffLink(d: Diff)
    requires d.revid >= 0 && IsSignedSize(d.size)
    ensures ParseDiff(DiffLink(d)) == Ok(d)
  {
    var link := DiffLink(d);
    var digits := NatToString(d.revid);
    assert link.title[..13] == "Special:Diff/";
    assert link.title[13..] == digits;
    var text := "(" + d.size + ")";
    assert text[2..|text| - 1] == d.size[1..];
    assert text[1..|text| - 1] == d.size;
    DigitsValueOfNatToString(d.revid);
  }

  /** A link accepted by `_parse_diff` and listed again gives the same diff,
      once a newline the `$` let through is dropped. */
  lemma ParseDiffSound(link: Link)
    requires ParseDiff(link).Ok? && IsSize(TextOf(link))
    ensures IsSignedSize(ParseDiff(link).value.size)
  {
    var t := TextOf(link);
    assert t[1..|t| - 1][1..] == t[2..|t| - 1];
  }

  /** `$` before a final newline: such a size keeps its `)`. */
  lemma ParseDiffTrailingNewline()
    ensures ParseDiff(Link("Special:Diff/7", Some("(+12)\n"))) == Ok(Diff(7, "+12)"))
  {
    var size := "(+12)\n";
    assert size[..|size| - 1] == "(+12)";
    assert "(+12)"[2..4] == "12";
    assert "Special:Diff/7"[13..] == "7";
    assert DigitsValue("7") == 7;
    assert size[1..|size| - 1] == "+12)";
  }

  // ---------------------------------------------------------------------------
  // Listed-page lines (lines 107-122)

  /** What the wikitext parser finds in a line: the names of its templates and
      its wikilinks, in order. */
  datatype LineTree = LineTree(templates: seq<string>, links: seq<Link>)

  datatype LineError = NoLinks | PageLinkHasText | SpecialPage(title: string) | BadDiff(error: DiffError)

  /** `name.matches(('Y', 'N', '?'))`: whitespace is ignored and so is the case
      of the first letter. */
  predicate IsStatusTemplate(name: string)
    ensures IsStatusTemplate(name) ==> |Strip(name)| == 1
  {
    Strip(name) in {"Y", "y", "N", "n", "?"}
  }

  /** `[_parse_diff(link) for link in links]`: the first failure raises. */
  function ParseDiffs(links: seq<Link>): (r: Result<seq<Diff>, DiffError>)
    ensures r.Ok? <==> forall k :: 0 <= k < |links| ==> ParseDiff(links[k]).Ok?
    ensures r.Ok? ==> |r.value| == |links| && forall k :: 0 <= k < |links| ==> r.value[k] == ParseDiff(links[k]).value
    decreases |links|
  {
    if links == [] then Ok([])
    else
      var d :- ParseDiff(links[0]);
      var rest :- ParseDiffs(links[1..]);
      DiffsCons(links, d, rest);
      Ok([d] + rest)
  }

  /** The diffs of a link and of the links after it, put together. */
  lemma DiffsCons(links: seq<Link>, d: Diff, rest: seq<Diff>)
    requires links != [] && ParseDiff(links[0]) == Ok(d) && |rest| == |links| - 1
    requires forall k :: 0 <= k < |rest| ==> ParseDiff(links[1..][k]).Ok? && rest[k] == ParseDiff(links[1..][k]).value
    ensures forall k :: 0 <= k < |links| ==> ParseDiff(links[k]).Ok? && ([d] + rest)[k] == ParseDiff(links[k]).value
  {
    forall k | 1 <= k < |links|
      ensures ParseDiff(links[k]).Ok? && ([d] + rest)[k] == ParseDiff(links[k]).value
    {
      assert links[k] == links[1..][k - 1] && ([d] + rest)[k] == rest[k - 1];
    }
  }

  /** `_parse_line(line)`, with `tree` the parse of `line`: a line that is not
      a `*` item, or that carries a status template, lists no page; otherwise
      the first link is the page, with its leading colons stripped, and the
      others are its diffs. */
  function ParseLine(line: string, tree: LineTree): (r: Result<Option<Page>, LineError>)
    ensures !StartsWith(line, "*") ==> r == Ok(None)
    ensures StartsWith(line, "*") && (exists k :: 0 <= k < |tree.templates| && IsStatusTemplate(tree.templates[k])) ==> r == Ok(None)
    ensures StartsWith(line, "*") && (forall k :: 0 <= k < |tree.templates| ==> !IsStatusTemplate(tree.templates[k])) ==>
              r.Err? || r.value.Some?
    ensures r.Ok? && r.value.Some? ==> |tree.links| > 0 && r.value.value.title == LStripChar(tree.links[0].title, ':')
    ensures r.Ok? && r.value.Some? ==> r.value.value.title == [] || r.value.value.title[0] != ':'
    ensures r.Ok? && r.value.Some? ==> |r.value.value.diffs| == |tree.links| - 1
    ensures r.Ok? && r.value.Some? ==>
              forall k :: 1 <= k < |tree.links| ==> ParseDiff(tree.links[k]) == Ok(r.value.value.diffs[k - 1])
    ensures r.Err? <==>
              && StartsWith(line, "*")
              && (forall k :: 0 <= k < |tree.templates| ==> !IsStatusTemplate(tree.templates[k]))
              && (|| tree.links == []
                  || tree.links[0].text.Some?
                  || StartsWith(tree.links[0].title, "Special:")
                  || exists k :: 1 <= k < |tree.links| && ParseDiff(tree.links[k]).Err?)
  {
    if !StartsWith(line, "*") then Ok(None)
    else if exists k :: 0 <= k < |tree.templates| && IsStatusTemplate(tree.templates[k]) then Ok(None)
    else if tree.links == [] then Err(NoLinks)
    else
      var page := tree.links[0];
      if page.text.Some? then Err(PageLinkHasText)
      else if StartsWith(page.title, "Special:") then Err(SpecialPage(page.title))
      else match ParseDiffs(tree.links[1..])
        case Err(e) => Err(BadDiff(e))
        case Ok(diffs) =>
          assert forall k :: 1 <= k < |tree.links| ==> tree.links[k] == tree.links[1..][k - 1];
          Ok(Some(Page(LStripChar(page.title, ':'), diffs)))
  }
}

=== FILE: rules.dfy ===
/** The rule matchers of `cci/cull_diffs.py`: the typed rule definitions, the
    wikitext preprocessor's mode dispatch and size thresholds, the `regex` and
    `refs` rule kinds, and `_match_rule`'s dispatch on the rule type.

    Python's regular-expression engine and the mwparserfromhell tree operations
    are not modelled; they enter as the function-valued fields of `Env`. */
module Rules {
  import opened Wrappers
  import opened Text
  import opened Case

  /** The exceptions culling a line can raise. */
  datatype Error =
    | UnknownRuleType(kind: string)   // NotImplementedError in _match_rule
    | UnknownPreMode(mode: string)    // NotImplementedError in _preprocess_wikitext
    | MissingRuleKey(key: string)     // KeyError on a rule's 'match', 'journals' or 'titles'
    | UnknownFlag(flag: string)       // KeyError from re.RegexFlag[...]
    | EmptyFlags                      // TypeError: reduce() of an empty flag list
    | MarkupError                     // an exception raised while parsing wikitext
    | ReError(pattern: string)        // re.error or ValueError from re.sub or re.fullmatch on this pattern

  /** One entry of the configuration's `rules` mapping. A `match` or `flags` value
      given as a single string is the one-element list. An absent `sub` is `[]`. */
  datatype RuleDef = RuleDef(
    kind: string,
    pre: Option<string>,
    sub: seq<(string, string)>,
    patterns: Option<seq<string>>,
    flags: Option<seq<string>>,
    max: Option<int>,
    journals: Option<seq<string>>,
    titles: Option<seq<string>>)

  /** The loaded configuration: whitelist substrings and the rules in configured order. */
  datatype RuleSet = RuleSet(whitelist: seq<string>, rules: seq<(string, RuleDef)>)

  /** The rule file as parsed: `whitelist` is one text block. */
  datatype Config = Config(whitelist: Option<string>, rules: seq<(string, RuleDef)>)

  /** `rules['whitelist'] = rules.get('whitelist', '').splitlines()`. */
  function LoadRuleSet(config: Config): (rs: RuleSet)
    ensures rs.rules == config.rules
    ensures config.whitelist.None? ==> rs.whitelist == []
    ensures forall k :: 0 <= k < |rs.whitelist| ==> NoLineBreak(rs.whitelist[k])
  {
    RuleSet(SplitLines(if config.whitelist.Some? then config.whitelist.value else ""), config.rules)
  }

  // ---------------------------------------------------------------------------
  // Wikitext preprocessing

  datatype Mode = StripMode | DerefMode | DeextlinkMode

  function ParseMode(s: string): Option<Mode> {
    if s == "strip" then Some(StripMode)
    else if s == "deref" then Some(DerefMode)
    else if s == "deextlink" then Some(DeextlinkMode)
    else None
  }

  /** The tree passes `_strip_templates`, `_strip_wikilinks`, `_strip_ext_links`, `_strip_tags`. */
  datatype TreePass = StripTemplates | StripWikilinks | StripExtLinks | StripTags

  /** `_strip_links`. */
  const LinkPasses: seq<TreePass> := [StripTemplates, StripWikilinks, StripExtLinks]

  /** `n` rounds of `passes`, one after the other: the first round is `passes`
      and every later position repeats the one a round earlier. */
  function Repeat(passes: seq<TreePass>, n: nat): (r: seq<TreePass>)
    ensures |r| == n * |passes|
    ensures n > 0 ==> r[..|passes|] == passes
    ensures forall i :: |passes| <= i < |r| ==> r[i] == r[i - |passes|]
  {
    if n == 0 then []
    else
      var rest := Repeat(passes, n - 1);
      var r := passes + rest;
      assert forall i :: |passes| <= i < |r| ==> r[i] == rest[i - |passes|];
      r
  }

  /** Round by round, `Repeat(LinkPasses, n)` cycles through the three link passes. */
  lemma {:induction false} RepeatLinkPasses(n: nat, i: nat)
    requires i < 3 * n
    ensures Repeat(LinkPasses, n)[i] == LinkPasses[i % 3]
    decreases i
  {
    if i >= 3 {
      RepeatLinkPasses(n, i - 3);
    }
  }

  /** The passes each mode runs. `deref` runs `_strip_links` over the whole
      fragment once for every `ref` tag found anywhere in it, then `_strip_tags`. */
  function ModePasses(mode: Mode, refTags: nat): (r: seq<TreePass>)
    ensures mode == StripMode ==> r == LinkPasses + [StripTags]
    ensures mode == DerefMode ==> |r| == 3 * refTags + 1 && r[|r| - 1] == StripTags &&
                                  forall i :: 0 <= i < 3 * refTags ==> r[i] == LinkPasses[i % 3]
    ensures mode == DeextlinkMode ==> r == [StripExtLinks]
  {
    match mode
    case StripMode => LinkPasses + [StripTags]
    case DerefMode =>
      var r := Repeat(LinkPasses, refTags) + [StripTags];
      assert forall i :: 0 <= i < 3 * refTags ==> r[i] == LinkPasses[i % 3] by {
        forall i | 0 <= i < 3 * refTags
          ensures r[i] == LinkPasses[i % 3]
        {
          RepeatLinkPasses(refTags, i);
        }
      }
      r
    case DeextlinkMode => [StripExtLinks]
  }

  /** The wikitext parser: whether parsing succeeds, how many `ref` tags the
      parsed fragment holds, and each tree pass seen as a text-to-text rewrite. */
  datatype Markup = Markup(parses: string -> bool, refTags: string -> nat, run: (TreePass, string) -> string)

  function RunPasses(passes: seq<TreePass>, text: string, m: Markup): string
    decreases |passes|
  {
    if passes == [] then text else RunPasses(passes[1..], m.run(passes[0], text), m)
  }

  /** `_preprocess_wikitext(mode, text)`: parse, run the mode's passes, then
      collapse every run of whitespace to one space. */
  function Preprocess(mode: string, text: string, m: Markup): (r: Result<string, Error>)
    ensures !m.parses(text) ==> r == Err(MarkupError)
    ensures m.parses(text) && ParseMode(mode).None? ==> r == Err(UnknownPreMode(mode))
    ensures r.Ok? ==> Collapsed(r.value)
  {
    if !m.parses(text) then Err(MarkupError)
    else match ParseMode(mode)
      case None => Err(UnknownPreMode(mode))
      case Some(md) => Ok(CollapseWhitespace(RunPasses(ModePasses(md, m.refTags(text)), text, m)))
  }

  /** Preprocessing is stable under whitespace collapsing: feeding its output
      back through the final collapse changes nothing. */
  lemma PreprocessCollapsed(mode: string, text: string, m: Markup)
    requires Preprocess(mode, text, m).Ok?
    ensures CollapseWhitespace(Preprocess(mode, text, m).value) == Preprocess(mode, text, m).value
  {
    CollapseFixes(Preprocess(mode, text, m).value);
  }

  /** In `deref` mode a fragment without `ref` tags only has its tags unwrapped. */
  lemma DerefWithoutRefs(text: string, m: Markup)
    requires m.parses(text) && m.refTags(text) == 0
    ensures Preprocess("deref", text, m) == Ok(CollapseWhitespace(m.run(StripTags, text)))
  {
    assert ParseMode("deref") == Some(DerefMode);
    assert ModePasses(DerefMode, 0) == [StripTags];
    assert RunPasses([StripTags], text, m) == RunPasses([], m.run(StripTags, text), m);
  }

  /** In `deref` mode a fragment with a `ref` tag anywhere has its links stripped
      across the whole fragment, before the tags are handled. */
  lemma DerefWithRefs(text: string, m: Markup)
    requires m.parses(text) && m.refTags(text) > 0
    ensures Preprocess("deref", text, m)
            == Ok(CollapseWhitespace(RunPasses(Repeat(LinkPasses, m.refTags(text) - 1) + [StripTags],
                                               RunPasses(LinkPasses, text, m), m)))
  {
    var k := m.refTags(text);
    assert ParseMode("deref") == Some(DerefMode);
    RunPassesAppend(LinkPasses, Repeat(LinkPasses, k - 1) + [StripTags], text, m);
    assert Repeat(LinkPasses, k) + [StripTags] == LinkPasses + (Repeat(LinkPasses, k - 1) + [StripTags]);
  }

  lemma {:induction false} RunPassesAppend(a: seq<TreePass>, b: seq<TreePass>, text: string, m: Markup)
    ensures RunPasses(a + b, text, m) == RunPasses(b, RunPasses(a, text, m), m)
    decreases |a|
  {
    if a != [] {
      assert (a + b)[0] == a[0] && (a + b)[1..] == a[1..] + b;
      RunPassesAppend(a[1..], b, m.run(a[0], text), m);
    } else {
      assert a + b == b;
    }
  }

  // Size thresholds of the tree passes.

  const TemplateThreshold := 30
  const WikilinkThreshold := 50
  const ExtLinkTitleThreshold := 250
  const ExtLinkUrlThreshold := 1000
  const RefThreshold := 200

  datatype Param = Param(name: string, value: string)

  /** A template node: its name and parameters, each as its text. */
  datatype Template = Template(name: string, params: seq<Param>)

  predicate ShortParam(p: Param) {
    |p.name| < TemplateThreshold && |p.value| < TemplateThreshold
  }

  /** The parameters `_strip_templates` leaves on a template: it removes every
      parameter whose name and value are both short. */
  function KeptParams(params: seq<Param>): (r: seq<Param>)
    ensures |r| <= |params|
    ensures forall k :: 0 <= k < |r| ==> !ShortParam(r[k]) && r[k] in params
    ensures forall k :: 0 <= k < |params| && !ShortParam(params[k]) ==> params[k] in r
  {
    if params == [] then []
    else if ShortParam(params[|params| - 1]) then KeptParams(params[..|params| - 1])
    else KeptParams(params[..|params| - 1]) + [params[|params| - 1]]
  }

  /** Whether `_strip_templates` removes the template node: nothing is left of its
      parameters and its name is short. */
  predicate TemplateRemoved(t: Template) {
    KeptParams(t.params) == [] && |t.name| < TemplateThreshold
  }

  /** A template is removed exactly when its name and all its parameters are short;
      one long parameter name or value keeps it. */
  lemma TemplateRemovedIff(t: Template)
    ensures TemplateRemoved(t) <==> |t.name| < TemplateThreshold
                                     && forall k :: 0 <= k < |t.params| ==> ShortParam(t.params[k])
  {
    if !TemplateRemoved(t) && |t.name| < TemplateThreshold {
      var r := KeptParams(t.params);
      assert r != [] && !ShortParam(r[0]) && r[0] in t.params;
    }
  }

  /** `_strip_wikilinks`: a short title and no display text or a short one. */
  predicate WikilinkRemoved(title: string, text: Option<string>) {
    |title| < WikilinkThreshold && (text.None? || |text.value| < WikilinkThreshold)
  }

  /** `_strip_ext_links`: a URL under 1000 characters and no title or one under 250. */
  predicate ExtLinkRemoved(url: string, title: Option<string>) {
    |url| < ExtLinkUrlThreshold && (title.None? || |title.value| < ExtLinkTitleThreshold)
  }

  /** `_strip_tags`, first loop: a tag other than `ref` without attributes is
      replaced by its contents. */
  predicate TagUnwrapped(tag: string, hasAttributes: bool) {
    tag != "ref" && !hasAttributes
  }

  /** `_strip_tags`, second loop: a `ref` tag with short contents is removed. */
  predicate RefRemoved(tag: string, contents: string) {
    tag == "ref" && |contents| < RefThreshold
  }

  // ---------------------------------------------------------------------------
  // Regular expressions

  /** `re.IGNORECASE`, the flags a `regex` rule uses when it names none. */
  const IgnoreCase: bv32 := 2

  /** `re.RegexFlag[name]`, with the members `re.RegexFlag` has in Python 3.11 and 3.12. */
  function FlagValue(name: string): Option<bv32> {
    if name == "ASCII" || name == "A" then Some(256)
    else if name == "IGNORECASE" || name == "I" then Some(2)
    else if name == "LOCALE" || name == "L" then Some(4)
    else if name == "MULTILINE" || name == "M" then Some(8)
    else if name == "DOTALL" || name == "S" then Some(16)
    else if name == "UNICODE" || name == "U" then Some(32)
    else if name == "VERBOSE" || name == "X" then Some(64)
    else if name == "DEBUG" then Some(128)
    else if name == "TEMPLATE" || name == "T" then Some(1)
    else if name == "NOFLAG" then Some(0)
    else None
  }

  /** The first name in `names` that is not a flag, if any. */
  function FirstUnknownFlag(names: seq<string>): (r: Option<nat>)
    ensures r.Some? ==> r.value < |names| && FlagValue(names[r.value]).None?
                        && forall j :: 0 <= j < r.value ==> FlagValue(names[j]).Some?
    ensures r.None? ==> forall j :: 0 <= j < |names| ==> FlagValue(names[j]).Some?
    decreases |names|
  {
    if names == [] then None
    else if FlagValue(names[0]).None? then Some(0)
    else match FirstUnknownFlag(names[1..])
      case None => None
      case Some(k) => Some(k + 1)
  }

  function OrFlags(names: seq<string>): bv32
    requires forall j :: 0 <= j < |names| ==> FlagValue(names[j]).Some?
  {
    if names == [] then 0 else FlagValue(names[0]).value | OrFlags(names[1..])
  }

  /** `functools.reduce(operator.or_, [re.RegexFlag[flag] for flag in names])`:
      the lookups run first, so an unknown name raises before an empty list does. */
  function CombineFlags(names: seq<string>): (r: Result<bv32, Error>)
    ensures r.Err? <==> names == [] || exists j :: 0 <= j < |names| && FlagValue(names[j]).None?
  {
    match FirstUnknownFlag(names)
    case Some(k) => Err(UnknownFlag(names[k]))
    case None => if names == [] then Err(EmptyFlags) else Ok(OrFlags(names))
  }

  function RuleFlags(rule: RuleDef): (r: Result<bv32, Error>)
    ensures rule.flags.None? ==> r == Ok(IgnoreCase)
  {
    if rule.flags.None? then Ok(IgnoreCase) else CombineFlags(rule.flags.value)
  }

  /** `re.fullmatch(pattern, text, flags=...) is not None` and `re.sub(pattern, repl, text)`;
      `None` when the call raises any exception: `re.error` for a malformed
      pattern or replacement, `ValueError` for incompatible flags such as
      `re.LOCALE` on a `str` pattern. Either kind is reported as `ReError`. */
  datatype Regex = Regex(fullmatch: (string, string, bv32) -> Option<bool>, sub: (string, string, string) -> Option<string>)

  /** Everything the matchers need from outside the model. */
  datatype Env = Env(markup: Markup, regex: Regex)

  /** The text after each `(pattern, repl)` substitution has run in order, or
      the `re.error` of the first one that raises. */
  function ApplySubs(subs: seq<(string, string)>, text: string, rx: Regex): (r: Result<string, Error>)
    ensures r.Err? ==> exists i :: 0 <= i < |subs| && r.error == ReError(subs[i].0)
    decreases |subs|
  {
    if subs == [] then Ok(text)
    else
      var (pattern, repl) := subs[|subs| - 1];
      match ApplySubs(subs[..|subs| - 1], text, rx)
      case Err(e) => Err(e)
      case Ok(t) =>
        match rx.sub(pattern, repl, t)
        case None => Err(ReError(pattern))
        case Some(u) => Ok(u)
  }

  /** Once a substitution has raised, the later ones do not run. */
  lemma {:induction false} ApplySubsStops(subs: seq<(string, string)>, text: string, rx: Regex, i: nat)
    requires i <= |subs| && ApplySubs(subs[..i], text, rx).Err?
    ensures ApplySubs(subs, text, rx) == ApplySubs(subs[..i], text, rx)
    decreases |subs|
  {
    if i < |subs| {
      var init := subs[..|subs| - 1];
      assert init[..i] == subs[..i];
      ApplySubsStops(init, text, rx, i);
    } else {
      assert subs[..i] == subs;
    }
  }

  /** The position of the first pattern that matches the whole text, or the
      `re.error` of a pattern reached before any matched. */
  function FirstFullMatch(patterns: seq<string>, text: string, flags: bv32, rx: Regex): (r: Result<Option<nat>, Error>)
    ensures r.Ok? && r.value.Some? ==>
              && r.value.value < |patterns| && rx.fullmatch(patterns[r.value.value], text, flags) == Some(true)
              && forall j :: 0 <= j < r.value.value ==> rx.fullmatch(patterns[j], text, flags) == Some(false)
    ensures r.Ok? && r.value.None? ==> forall j :: 0 <= j < |patterns| ==> rx.fullmatch(patterns[j], text, flags) == Some(false)
    ensures r.Err? ==> exists k :: && 0 <= k < |patterns| && rx.fullmatch(patterns[k], text, flags).None?
                                   && r.error == ReError(patterns[k])
                                   && forall j :: 0 <= j < k ==> rx.fullmatch(patterns[j], text, flags) == Some(false)
    decreases |patterns|
  {
    if patterns == [] then Ok(None)
    else match rx.fullmatch(patterns[0], text, flags)
      case None => Err(ReError(patterns[0]))
      case Some(true) => Ok(Some(0))
      case Some(false) =>
        match FirstFullMatch(patterns[1..], text, flags, rx)
        case Err(e) => Err(e)
        case Ok(None) => Ok(None)
        case Ok(Some(k)) => Ok(Some(k + 1))
  }

  /** The first pattern whose `re.fullmatch` does not come back empty decides
      the outcome: its `re.error`, or a match at its position. */
  lemma FirstFullMatchAt(patterns: seq<string>, text: string, flags: bv32, rx: Regex, k: nat)
    requires k < |patterns| && rx.fullmatch(patterns[k], text, flags) != Some(false)
    requires forall j :: 0 <= j < k ==> rx.fullmatch(patterns[j], text, flags) == Some(false)
    ensures FirstFullMatch(patterns, text, flags, rx)
            == if rx.fullmatch(patterns[k], text, flags).None? then Err(ReError(patterns[k])) else Ok(Some(k))
  {
    var r := FirstFullMatch(patterns, text, flags, rx);
    if r.Err? {
      var i :| && 0 <= i < |patterns| && rx.fullmatch(patterns[i], text, flags).None?
               && r.error == ReError(patterns[i])
               && forall j :: 0 <= j < i ==> rx.fullmatch(patterns[j], text, flags) == Some(false);
      assert i == k;
    } else {
      assert r.value.Some?;
    }
  }

  /** The text a `regex` rule tests: preprocessed if the rule says so, then substituted. */
  function RegexSubject(text: string, rule: RuleDef, env: Env): Result<string, Error> {
    if rule.pre.Some? then
      match Preprocess(rule.pre.value, text, env.markup)
      case Err(e) => Err(e)
      case Ok(t) => ApplySubs(rule.sub, t, env.regex)
    else ApplySubs(rule.sub, text, env.regex)
  }

  /** What `_match_regex` returns or raises. */
  function RegexOutcome(text: string, name: string, rule: RuleDef, env: Env): (r: Result<Option<CullRule>, Error>)
    ensures RegexSubject(text, rule, env).Err? ==> r == Err(RegexSubject(text, rule, env).error)
    ensures RegexSubject(text, rule, env).Ok? && rule.patterns.None? ==> r == Err(MissingRuleKey("match"))
    ensures r.Ok? && r.value.Some? ==>
              && rule.patterns.Some? && r.value.value.name == name
              && exists k :: 0 <= k < |rule.patterns.value| && r.value.value.detail == Some("regex match: " + rule.patterns.value[k])
  {
    match RegexSubject(text, rule, env)
    case Err(e) => Err(e)
    case Ok(subject) =>
      if rule.patterns.None? then Err(MissingRuleKey("match"))
      else match RuleFlags(rule)
        case Err(e) => Err(e)
        case Ok(flags) =>
          match FirstFullMatch(rule.patterns.value, subject, flags, env.regex)
          case Err(e) => Err(e)
          case Ok(None) => Ok(None)
          case Ok(Some(k)) => Ok(Some(CullRule(name, Some("regex match: " + rule.patterns.value[k]))))
  }

  /** A `regex` rule culls with the first of its patterns that matches the whole
      prepared text, and records that pattern; a pattern that raises before
      any matched is the outcome's error. */
  lemma RegexCullsWithFirstMatch(text: string, name: string, rule: RuleDef, env: Env, subject: string, flags: bv32)
    requires RegexSubject(text, rule, env) == Ok(subject) && RuleFlags(rule) == Ok(flags)
    requires rule.patterns.Some?
    ensures var out := RegexOutcome(text, name, rule, env);
            var ps := rule.patterns.value;
            && (out.Ok? && out.value.None? <==> forall j :: 0 <= j < |ps| ==> env.regex.fullmatch(ps[j], subject, flags) == Some(false))
            && (out.Ok? && out.value.Some? ==>
                  exists k :: && 0 <= k < |ps|
                              && env.regex.fullmatch(ps[k], subject, flags) == Some(true)
                              && (forall j :: 0 <= j < k ==> env.regex.fullmatch(ps[j], subject, flags) == Some(false))
                              && out.value.value == CullRule(name, Some("regex match: " + ps[k])))
            && (out.Err? <==>
                  exists k :: && 0 <= k < |ps|
                              && env.regex.fullmatch(ps[k], subject, flags).None?
                              && (forall j :: 0 <= j < k ==> env.regex.fullmatch(ps[j], subject, flags) == Some(false)))
            && (out.Err? ==> exists k :: 0 <= k < |ps| && out.error == ReError(ps[k]))
  {
    var ps := rule.patterns.value;
    var r := FirstFullMatch(ps, subject, flags, env.regex);
    if r.Ok? && r.value.Some? {
      assert 0 <= r.value.value < |ps|;
    }
    if exists k :: 0 <= k < |ps| && env.regex.fullmatch(ps[k], subject, flags).None?
                   && (forall j :: 0 <= j < k ==> env.regex.fullmatch(ps[j], subject, flags) == Some(false)) {
      var k :| 0 <= k < |ps| && env.regex.fullmatch(ps[k], subject, flags).None?
               && (forall j :: 0 <= j < k ==> env.regex.fullmatch(ps[j], subject, flags) == Some(false));
      FirstFullMatchAt(ps, subject, flags, env.regex, k);
    }
  }

  /** The substitution loop of `_match_regex`: `re.sub` with each pair in
      order, stopping at the first that raises. */
  method Substitute(subs: seq<(string, string)>, text: string, rx: Regex) returns (out: Result<string, Error>)
    ensures out == ApplySubs(subs, text, rx)
  {
    out := Ok(text);
    var i := 0;
    while i < |subs|
      invariant 0 <= i <= |subs|
      invariant out == ApplySubs(subs[..i], text, rx) && out.Ok?
    {
      assert subs[..i + 1][..i] == subs[..i];
      var next := rx.sub(subs[i].0, subs[i].1, out.value);
      if next.None? {
        out := Err(ReError(subs[i].0));
        ApplySubsStops(subs, text, rx, i + 1);
        return;
      }
      out := Ok(next.value);
      i := i + 1;
    }
    assert subs[..|subs|] == subs;
  }

  /** `_match_regex`: preprocess, substitute in order, then try each pattern in
      order for a full match. */
  method MatchRegex(text: string, name: string, rule: RuleDef, env: Env) returns (r: Result<Option<CullRule>, Error>)
    ensures r == RegexOutcome(text, name, rule, env)
  {
    var subject := text;
    if rule.pre.Some? {
      var pre := Preprocess(rule.pre.value, text, env.markup);
      if pre.Err? {
        return Err(pre.error);
      }
      subject := pre.value;
    }
    var subbed := Substitute(rule.sub, subject, env.regex);
    if subbed.Err? {
      return Err(subbed.error);
    }
    subject := subbed.value;
    if rule.patterns.None? {
      return Err(MissingRuleKey("match"));
    }
    var patterns := rule.patterns.value;
    var flags := RuleFlags(rule);
    if flags.Err? {
      return Err(flags.error);
    }
    var k := 0;
    while k < |patterns|
      invariant 0 <= k <= |patterns|
      invariant forall j :: 0 <= j < k ==> env.regex.fullmatch(patterns[j], subject, flags.value) == Some(false)
    {
      var m := env.regex.fullmatch(patterns[k], subject, flags.value);
      if m.None? {
        FirstFullMatchAt(patterns, subject, flags.value, env.regex, k);
        return Err(ReError(patterns[k]));
      }
      if m.value {
        FirstFullMatchAt(patterns, subject, flags.value, env.regex, k);
        return Ok(Some(CullRule(name, Some("regex match: " + patterns[k]))));
      }
      k := k + 1;
    }
    return Ok(None);
  }

  // ---------------------------------------------------------------------------
  // Bibliography rule

  const RefsThreshold := 30

  /** A journal and a title both occur in the text, and what is left once every
      occurrence of the journal and then of the title is removed is short. */
  predicate RefsHit(text: string, journal: string, title: string) {
    && Contains(text, journal)
    && Contains(text, title)
    && |RemoveAll(RemoveAll(text, journal), title)| < RefsThreshold
  }

  predicate SomeJournalIn(text: string, journals: seq<string>) {
    exists a :: 0 <= a < |journals| && Contains(text, journals[a])
  }

  predicate SomeRefsHit(text: string, journals: seq<string>, titles: seq<string>) {
    exists a, b :: 0 <= a < |journals| && 0 <= b < |titles| && RefsHit(text, journals[a], titles[b])
  }

  /** What `_match_refs` returns or raises. Only list items (text starting with
      `*`) are candidates; the text is lower-cased and preprocessed in `strip`
      mode; `titles` is only looked up once some journal occurs. */
  function RefsOutcome(text: string, name: string, rule: RuleDef, env: Env): (r: Result<Option<CullRule>, Error>)
    ensures !StartsWith(text, "*") ==> r == Ok(None)
    ensures r.Ok? && r.value.Some? ==> r.value.value == CullRule(name, Some("bibliography match"))
  {
    if !StartsWith(text, "*") then Ok(None)
    else match Preprocess("strip", Lower(text), env.markup)
      case Err(e) => Err(e)
      case Ok(t) =>
        if rule.journals.None? then Err(MissingRuleKey("journals"))
        else if rule.titles.None? then
          (if SomeJournalIn(t, rule.journals.value) then Err(MissingRuleKey("titles")) else Ok(None))
        else if SomeRefsHit(t, rule.journals.value, rule.titles.value) then
          Ok(Some(CullRule(name, Some("bibliography match"))))
        else Ok(None)
  }

  /** `_match_refs`: try every journal, and for a journal in the text every title. */
  method MatchRefs(text: string, name: string, rule: RuleDef, env: Env) returns (r: Result<Option<CullRule>, Error>)
    ensures r == RefsOutcome(text, name, rule, env)
  {
    if !StartsWith(text, "*") {
      return Ok(None);
    }
    var pre := Preprocess("strip", Lower(text), env.markup);
    if pre.Err? {
      return Err(pre.error);
    }
    var t := pre.value;
    if rule.journals.None? {
      return Err(MissingRuleKey("journals"));
    }
    var journals := rule.journals.value;
    var a := 0;
    while a < |journals|
      invariant 0 <= a <= |journals|
      invariant forall x :: 0 <= x < a ==> !Contains(t, journals[x])
                                           || (rule.titles.Some? && forall y :: 0 <= y < |rule.titles.value| ==> !RefsHit(t, journals[x], rule.titles.value[y]))
    {
      if Contains(t, journals[a]) {
        if rule.titles.None? {
          return Err(MissingRuleKey("titles"));
        }
        var titles := rule.titles.value;
        var b := 0;
        while b < |titles|
          invariant 0 <= b <= |titles|
          invariant forall y :: 0 <= y < b ==> !RefsHit(t, journals[a], titles[y])
        {
          if Contains(t, titles[b]) && |RemoveAll(RemoveAll(t, journals[a]), titles[b])| < RefsThreshold {
            assert RefsHit(t, journals[a], titles[b]);
            return Ok(Some(CullRule(name, Some("bibliography match"))));
          }
          b := b + 1;
        }
      }
      a := a + 1;
    }
    return Ok(None);
  }

  // ---------------------------------------------------------------------------
  // Dispatch

  /** What `_match_rule` returns or raises for one rule and the line's text. */
  function RuleOutcome(text: string, name: string, rule: RuleDef, env: Env): (r: Result<Option<CullRule>, Error>)
    ensures rule.kind != "regex" && rule.kind != "refs" ==> r == Err(UnknownRuleType(rule.kind))
    ensures r.Ok? && r.value.Some? ==> r.value.value.name == name
  {
    if rule.kind == "regex" then RegexOutcome(text, name, rule, env)
    else if rule.kind == "refs" then RefsOutcome(text, name, rule, env)
    else Err(UnknownRuleType(rule.kind))
  }

  /** A rule matcher: the outcome for a line's text, a rule name and its definition. */
  type Matcher = (string, string, RuleDef) -> Result<Option<CullRule>, Error>

  /** `mr` is `_match_rule` under `env`. */
  ghost predicate Implements(mr: Matcher, env: Env) {
    forall text, name, rule {:trigger RuleOutcome(text, name, rule, env)} ::
      mr(text, name, rule) == RuleOutcome(text, name, rule, env)
  }

  /** A matcher that culls only ever records the rule it was asked about. */
  ghost predicate NamesItsRule(mr: Matcher) {
    forall text, name, rule :: mr(text, name, rule).Ok? && mr(text, name, rule).value.Some? ==>
                                 mr(text, name, rule).value.value.name == name
  }

  lemma ImplementsNamesItsRule(mr: Matcher, env: Env)
    requires Implements(mr, env)
    ensures NamesItsRule(mr)
  {
    forall text, name, rule | mr(text, name, rule).Ok? && mr(text, name, rule).value.Some?
      ensures mr(text, name, rule).value.value.name == name
    {
      assert mr(text, name, rule) == RuleOutcome(text, name, rule, env);
    }
  }

  /** `_match_rule`. */
  method MatchRule(text: string, name: string, rule: RuleDef, env: Env) returns (r: Result<Option<CullRule>, Error>)
    ensures r == RuleOutcome(text, name, rule, env)
  {
    if rule.kind == "regex" {
      r := MatchRegex(text, name, rule, env);
    } else if rule.kind == "refs" {
      r := MatchRefs(text, name, rule, env);
    } else {
      r := Err(UnknownRuleType(rule.kind));
    }
  }
}

=== FILE: text.dfy ===
/** The Python string primitives the cull tools rely on (`str.isspace`,
    `strip`, `lstrip`, `lower`, `splitlines`, `in`, `startswith`, `replace`,
    `count`, `'\n'.join`, `int`/`str` on decimal numbers, and the pattern
    `re.sub(r'\s+', ' ', s)`), written out over `seq<char>`. */
module Text {
  import opened Wrappers

  /** Python's `str.isspace()`; also exactly what `\s` matches in a `str` pattern. */
  predicate IsSpace(c: char) {
    || c in {'\t', '\n', '\U{b}', '\U{c}', '\r', '\U{1c}', '\U{1d}', '\U{1e}', '\U{1f}', ' ',
             '\U{85}', '\U{a0}', '\U{1680}', '\U{2028}', '\U{2029}', '\U{202f}', '\U{205f}', '\U{3000}'}
    || ('\U{2000}' <= c <= '\U{200a}')
  }

  /** The separators at which `str.splitlines()` breaks a string (`\r\n` counts as one). */
  predicate IsLineBreak(c: char) {
    c in {'\n', '\r', '\U{b}', '\U{c}', '\U{1c}', '\U{1d}', '\U{1e}', '\U{85}', '\U{2028}', '\U{2029}'}
  }

  predicate IsDigit(c: char) { '0' <= c <= '9' }

  /** `re.fullmatch(r'\d+', s)` over ASCII digits. */
  predicate IsDigits(s: string) {
    |s| > 0 && forall i :: 0 <= i < |s| ==> IsDigit(s[i])
  }

  predicate StartsWith(s: string, p: string) {
    |p| <= |s| && s[..|p|] == p
  }

  /** Python's `p in s`; the empty string is contained in every string. */
  predicate Contains(s: string, p: string)
    decreases |s|
  {
    StartsWith(s, p) || (s != [] && Contains(s[1..], p))
  }

  lemma {:induction false} ContainsAt(s: string, p: string, i: nat)
    requires i + |p| <= |s| && s[i..i + |p|] == p
    ensures Contains(s, p)
    decreases i
  {
    if i == 0 {
      assert s[..|p|] == p;
    } else {
      assert s[1..][i - 1..i - 1 + |p|] == s[i..i + |p|];
      ContainsAt(s[1..], p, i - 1);
    }
  }

  lemma {:induction false} ContainsWitness(s: string, p: string) returns (i: nat)
    requires Contains(s, p)
    ensures i + |p| <= |s| && s[i..i + |p|] == p
    decreases |s|
  {
    if StartsWith(s, p) {
      i := 0;
    } else {
      var j := ContainsWitness(s[1..], p);
      assert s[1..][j..j + |p|] == s[j + 1..j + 1 + |p|];
      i := j + 1;
    }
  }

  /** Python's `s.replace(p, '')`: the occurrences of `p` found by a left-to-right scan
      that does not overlap them are deleted; `s.replace('', '')` is `s`. */
  function RemoveAll(s: string, p: string): (r: string)
    ensures |r| <= |s|
    decreases |s|
  {
    if p == [] || |s| < |p| then s
    else if s[..|p|] == p then RemoveAll(s[|p|..], p)
    else [s[0]] + RemoveAll(s[1..], p)
  }

  /** Python's `s.count(p)`: non-overlapping occurrences, and `len(s) + 1` for `p == ''`. */
  function Count(s: string, p: string): (r: nat)
    ensures r <= |s| + 1
    ensures p != [] && r > 0 ==> |p| <= |s|
    decreases |s|
  {
    if p == [] then |s| + 1
    else if |s| < |p| then 0
    else if s[..|p|] == p then 1 + Count(s[|p|..], p)
    else Count(s[1..], p)
  }

  /** At most `|s| / |p|` copies of a non-empty `p` fit in `s`; an empty `p` counts
      once per gap between characters. */
  lemma CountBound(s: string, p: string)
    ensures p == [] ==> Count(s, p) == |s| + 1
    ensures p != [] ==> Count(s, p) * |p| <= |s|
  {
    if p != [] {
      RemoveAllLength(s, p);
    }
  }

  /** Removing `p` deletes exactly `Count(s, p)` copies of it. */
  lemma {:induction false} RemoveAllLength(s: string, p: string)
    requires p != []
    ensures |RemoveAll(s, p)| == |s| - |p| * Count(s, p)
    decreases |s|
  {
    if |s| < |p| {
    } else if s[..|p|] == p {
      RemoveAllLength(s[|p|..], p);
      assert |p| * (1 + Count(s[|p|..], p)) == |p| + |p| * Count(s[|p|..], p);
    } else {
      RemoveAllLength(s[1..], p);
    }
  }

  /** A non-empty pattern occurs in `s` exactly when `s.count(p)` is positive. */
  lemma {:induction false} CountPositiveIff(s: string, p: string)
    requires p != []
    ensures Count(s, p) > 0 <==> Contains(s, p)
    decreases |s|
  {
    if |s| < |p| {
      if Contains(s, p) {
        var i := ContainsWitness(s, p);
      }
    } else if s[..|p|] == p {
    } else {
      CountPositiveIff(s[1..], p);
    }
  }

  /** Removing a pattern that does not occur leaves the string as it was. */
  lemma {:induction false} RemoveAllAbsent(s: string, p: string)
    requires !Contains(s, p)
    ensures RemoveAll(s, p) == s
    decreases |s|
  {
    if p == [] || |s| < |p| {
    } else {
      RemoveAllAbsent(s[1..], p);
    }
  }

  /** Removing a non-empty pattern that does occur makes the string strictly shorter. */
  lemma RemoveAllShrinks(s: string, p: string)
    requires p != [] && Contains(s, p)
    ensures |RemoveAll(s, p)| <= |s| - |p|
  {
    CountPositiveIff(s, p);
    RemoveAllLength(s, p);
  }

  /** ASCII lower-casing (Python's `str.lower()` restricted to A-Z). */
  function LowerChar(c: char): (d: char)
    ensures 'A' <= c <= 'Z' ==> d as int == c as int + 32
    ensures !('A' <= c <= 'Z') ==> d == c
  {
    if 'A' <= c <= 'Z' then (c as int + 32) as char else c
  }

  function Lower(s: string): (r: string)
    ensures |r| == |s| && forall i :: 0 <= i < |s| ==> r[i] == LowerChar(s[i])
  {
    seq(|s|, i requires 0 <= i < |s| => LowerChar(s[i]))
  }

  /** `s.lstrip()`: the leading whitespace is gone and only whitespace was removed. */
  function TrimLeft(s: string): (r: string)
    ensures |r| <= |s| && r == s[|s| - |r|..]
    ensures r == [] || !IsSpace(r[0])
    ensures forall i :: 0 <= i < |s| - |r| ==> IsSpace(s[i])
    decreases |s|
  {
    if s != [] && IsSpace(s[0]) then TrimLeft(s[1..]) else s
  }

  /** `s.rstrip()`. */
  function TrimRight(s: string): (r: string)
    ensures |r| <= |s| && r == s[..|r|]
    ensures r == [] || !IsSpace(r[|r| - 1])
    ensures forall i :: |r| <= i < |s| ==> IsSpace(s[i])
    decreases |s|
  {
    if s != [] && IsSpace(s[|s| - 1]) then TrimRight(s[..|s| - 1]) else s
  }

  /** `r` sits at offset `a` of `s` with only whitespace around it. */
  predicate StrippedAt(s: string, r: string, a: int) {
    && 0 <= a <= |s| - |r| && r == s[a..a + |r|]
    && (forall i :: 0 <= i < a ==> IsSpace(s[i]))
    && (forall i :: a + |r| <= i < |s| ==> IsSpace(s[i]))
  }

  /** `s.strip()`: a slice of `s` with whitespace only outside it and none at its ends. */
  function Strip(s: string): (r: string)
    ensures |r| <= |s|
    ensures r == [] || (!IsSpace(r[0]) && !IsSpace(r[|r| - 1]))
    decreases |s|
  {
    if s != [] && IsSpace(s[0]) then Strip(s[1..]) else TrimRight(s)
  }

  /** `s.strip()` is a slice of `s` with only whitespace around it. */
  lemma {:induction false} StripSlice(s: string) returns (a: nat)
    ensures StrippedAt(s, Strip(s), a)
    decreases |s|
  {
    if s != [] && IsSpace(s[0]) {
      var r := Strip(s);
      var b := StripSlice(s[1..]);
      a := b + 1;
      assert s[1..][b..b + |r|] == s[a..a + |r|];
      forall i | 0 <= i < a ensures IsSpace(s[i]) {
        if i > 0 {
          assert s[i] == s[1..][i - 1];
        }
      }
      forall i | a + |r| <= i < |s| ensures IsSpace(s[i]) {
        assert s[i] == s[1..][i - 1];
      }
    } else {
      a := 0;
    }
  }

  /** `s.strip()` is empty exactly when `s` is all whitespace. */
  lemma StripEmptyIff(s: string)
    ensures Strip(s) == [] <==> forall i :: 0 <= i < |s| ==> IsSpace(s[i])
  {
    var a := StripSlice(s);
    if Strip(s) != [] {
      assert s[a] == Strip(s)[0];
    }
  }

  /** `s.lstrip(c)` for one character `c`. */
  function LStripChar(s: string, c: char): (r: string)
    ensures |r| <= |s| && r == s[|s| - |r|..]
    ensures r == [] || r[0] != c
    ensures forall i :: 0 <= i < |s| - |r| ==> s[i] == c
    decreases |s|
  {
    if s != [] && s[0] == c then LStripChar(s[1..], c) else s
  }

  /** `sep.join(parts)`. */
  function Join(parts: seq<string>, sep: string): string
    decreases |parts|
  {
    if parts == [] then []
    else if |parts| == 1 then parts[0]
    else parts[0] + sep + Join(parts[1..], sep)
  }

  predicate NoLineBreak(s: string) {
    forall i :: 0 <= i < |s| ==> !IsLineBreak(s[i])
  }

  /** `s.splitlines()`: `cur` is the part of the current line already read. */
  function SplitLinesFrom(s: string, cur: string): (r: seq<string>)
    requires NoLineBreak(cur)
    ensures forall k :: 0 <= k < |r| ==> NoLineBreak(r[k])
    ensures s != [] ==> r != []
    decreases |s|
  {
    if s == [] then (if cur == [] then [] else [cur])
    else if IsLineBreak(s[0]) then
      var rest := if s[0] == '\r' && |s| > 1 && s[1] == '\n' then s[2..] else s[1..];
      [cur] + SplitLinesFrom(rest, [])
    else SplitLinesFrom(s[1..], cur + [s[0]])
  }

  function SplitLines(s: string): (r: seq<string>)
    ensures forall k :: 0 <= k < |r| ==> NoLineBreak(r[k])
  {
    SplitLinesFrom(s, [])
  }

  /** Splitting a text whose only separator is `\n`, and that does not end with one,
      then joining with `\n` gives the text back. */
  lemma {:induction false} JoinSplitFrom(s: string, cur: string)
    requires NoLineBreak(cur)
    requires forall i :: 0 <= i < |s| && IsLineBreak(s[i]) ==> s[i] == '\n'
    requires s == [] || s[|s| - 1] != '\n'
    requires s == [] ==> cur != []
    ensures Join(SplitLinesFrom(s, cur), "\n") == cur + s
    decreases |s|
  {
    if s == [] {
    } else if IsLineBreak(s[0]) {
      var rest := s[1..];
      assert rest != [];
      JoinSplitFrom(rest, []);
      assert SplitLinesFrom(rest, []) != [];
    } else {
      JoinSplitFrom(s[1..], cur + [s[0]]);
      assert cur + [s[0]] + s[1..] == cur + s;
    }
  }

  lemma JoinSplit(s: string)
    requires forall i :: 0 <= i < |s| && IsLineBreak(s[i]) ==> s[i] == '\n'
    requires s == [] || s[|s| - 1] != '\n'
    ensures Join(SplitLines(s), "\n") == s
  {
    if s != [] {
      JoinSplitFrom(s, []);
    }
  }

  /** Every whitespace character is a single space, never followed by whitespace. */
  predicate Collapsed(s: string) {
    forall i :: 0 <= i < |s| && IsSpace(s[i]) ==> s[i] == ' ' && (i + 1 < |s| ==> !IsSpace(s[i + 1]))
  }

  /** The characters of `s` that are not whitespace, in order. */
  function NonSpace(s: string): string
    decreases |s|
  {
    if s == [] then [] else (if IsSpace(s[0]) then [] else [s[0]]) + NonSpace(s[1..])
  }

  /** Leading whitespace holds no characters that `NonSpace` keeps. */
  lemma {:induction false} NonSpaceTrimLeft(s: string)
    ensures NonSpace(TrimLeft(s)) == NonSpace(s)
    decreases |s|
  {
    if s != [] && IsSpace(s[0]) {
      NonSpaceTrimLeft(s[1..]);
    }
  }

  /** `re.sub(r'\s+', ' ', s)`: each maximal run of whitespace becomes one space,
      and the other characters are kept, in order. */
  function CollapseWhitespace(s: string): (r: string)
    ensures Collapsed(r)
    ensures |r| <= |s|
    ensures s != [] ==> r != [] && r[0] == (if IsSpace(s[0]) then ' ' else s[0])
    decreases |s|
  {
    if s == [] then []
    else if IsSpace(s[0]) then
      var r := [' '] + CollapseWhitespace(TrimLeft(s));
      assert r[1..] == CollapseWhitespace(TrimLeft(s));
      r
    else
      var r := [s[0]] + CollapseWhitespace(s[1..]);
      assert r[1..] == CollapseWhitespace(s[1..]);
      r
  }

  /** The substitution keeps every character that is not whitespace, in order. */
  lemma {:induction false} CollapseKeepsNonSpace(s: string)
    ensures NonSpace(CollapseWhitespace(s)) == NonSpace(s)
    decreases |s|
  {
    if s != [] {
      var r := CollapseWhitespace(s);
      if IsSpace(s[0]) {
        var t := TrimLeft(s);
        assert r == [' '] + CollapseWhitespace(t);
        assert r[1..] == CollapseWhitespace(t);
        CollapseKeepsNonSpace(t);
        NonSpaceTrimLeft(s);
      } else {
        assert r == [s[0]] + CollapseWhitespace(s[1..]);
        assert r[1..] == CollapseWhitespace(s[1..]);
        CollapseKeepsNonSpace(s[1..]);
      }
    }
  }

  /** A whole run of whitespace becomes one space. */
  lemma CollapseRun(s: string)
    requires s != [] && AllSpace(s)
    ensures CollapseWhitespace(s) == " "
  {
    assert TrimLeft(s) == [];
  }

  predicate AllSpace(s: string) {
    forall i :: 0 <= i < |s| ==> IsSpace(s[i])
  }

  lemma AllSpaceTail(s: string)
    requires s != [] && AllSpace(s)
    ensures AllSpace(s[1..])
  {
    forall i | 0 <= i < |s| - 1 ensures IsSpace(s[1..][i]) {
      assert s[1..][i] == s[i + 1];
    }
  }

  /** `TrimLeft` skips a first part made only of whitespace. */
  lemma {:induction false} TrimLeftAllSpace(a: string, b: string)
    requires AllSpace(a)
    ensures TrimLeft(a + b) == TrimLeft(b)
    decreases |a|
  {
    if a == [] {
      assert a + b == b;
    } else {
      assert (a + b)[0] == a[0] && (a + b)[1..] == a[1..] + b;
      AllSpaceTail(a);
      TrimLeftAllSpace(a[1..], b);
    }
  }

  /** `TrimLeft` stops inside a first part that is not all whitespace. */
  lemma {:induction false} TrimLeftSome(a: string, b: string)
    requires !AllSpace(a)
    ensures TrimLeft(a + b) == TrimLeft(a) + b
    decreases |a|
  {
    assert (a + b)[0] == a[0];
    if IsSpace(a[0]) {
      assert (a + b)[1..] == a[1..] + b;
      assert !AllSpace(a[1..]) by {
        var i :| 0 <= i < |a| && !IsSpace(a[i]);
        assert a[1..][i - 1] == a[i];
      }
      TrimLeftSome(a[1..], b);
    }
  }

  /** The substitution works on each side of a boundary between a non-whitespace
      character and anything else separately: no run of whitespace spans it. */
  lemma {:induction false} CollapseAppend(a: string, b: string)
    requires a == [] || b == [] || !IsSpace(a[|a| - 1]) || !IsSpace(b[0])
    ensures CollapseWhitespace(a + b) == CollapseWhitespace(a) + CollapseWhitespace(b)
    decreases |a|, 1
  {
    if a == [] {
      assert a + b == b;
    } else if !IsSpace(a[0]) {
      CollapseWordFirst(a, b);
    } else if AllSpace(a) {
      CollapseSpacesFirst(a, b);
    } else {
      CollapseSpacesThenWord(a, b);
    }
  }

  lemma {:induction false} CollapseWordFirst(a: string, b: string)
    requires a != [] && !IsSpace(a[0])
    requires b == [] || !IsSpace(a[|a| - 1]) || !IsSpace(b[0])
    ensures CollapseWhitespace(a + b) == CollapseWhitespace(a) + CollapseWhitespace(b)
    decreases |a|, 0
  {
    var ab := a + b;
    assert ab[0] == a[0] && ab[1..] == a[1..] + b;
    var x, y, z := CollapseWhitespace(a[1..]), CollapseWhitespace(b), CollapseWhitespace(a[1..] + b);
    assert z == x + y by {
      CollapseAppend(a[1..], b);
    }
    assert CollapseWhitespace(ab) == [a[0]] + z by {
      CollapseWord(ab);
    }
    assert CollapseWhitespace(a) == [a[0]] + x by {
      CollapseWord(a);
    }
    ConsAppend(a[0], x, y);
  }

  lemma {:induction false} CollapseSpacesThenWord(a: string, b: string)
    requires a != [] && IsSpace(a[0]) && !AllSpace(a)
    requires b == [] || !IsSpace(a[|a| - 1]) || !IsSpace(b[0])
    ensures CollapseWhitespace(a + b) == CollapseWhitespace(a) + CollapseWhitespace(b)
    decreases |a|, 0
  {
    var ab := a + b;
    var t := TrimLeft(a);
    var x, y := CollapseWhitespace(t), CollapseWhitespace(b);
    assert TrimLeft(ab) == t + b by {
      TrimLeftSome(a, b);
    }
    assert CollapseWhitespace(t + b) == x + y by {
      TrimLeftLast(a);
      CollapseAppend(t, b);
    }
    assert CollapseWhitespace(ab) == [' '] + CollapseWhitespace(t + b) by {
      assert ab[0] == a[0];
      CollapseSpace(ab);
    }
    assert CollapseWhitespace(a) == [' '] + x by {
      CollapseSpace(a);
    }
    ConsAppend(' ', x, y);
  }

  lemma ConsAppend(c: char, x: string, y: string)
    ensures [c] + (x + y) == ([c] + x) + y
  {
  }

  lemma TrimLeftLast(s: string)
    requires !AllSpace(s)
    ensures TrimLeft(s) != [] && TrimLeft(s)[|TrimLeft(s)| - 1] == s[|s| - 1]
  {
    var t := TrimLeft(s);
    assert t == s[|s| - |t|..];
  }

  /** A run of whitespace at the front becomes one space before the rest. */
  lemma CollapseSpace(s: string)
    requires s != [] && IsSpace(s[0])
    ensures CollapseWhitespace(s) == [' '] + CollapseWhitespace(TrimLeft(s))
  {
  }

  /** A word character is kept and the rest is collapsed after it. */
  lemma CollapseWord(s: string)
    requires s != [] && !IsSpace(s[0])
    ensures CollapseWhitespace(s) == [s[0]] + CollapseWhitespace(s[1..])
  {
  }

  lemma CollapseSpacesFirst(a: string, b: string)
    requires a != [] && AllSpace(a)
    requires b == [] || !IsSpace(b[0])
    ensures CollapseWhitespace(a + b) == CollapseWhitespace(a) + CollapseWhitespace(b)
  {
    TrimLeftAllSpace(a, b);
    CollapseRun(a);
    assert TrimLeft(b) == b;
    assert (a + b)[0] == a[0];
    assert CollapseWhitespace(a + b) == [' '] + CollapseWhitespace(b);
  }

  lemma CollapsedTail(s: string)
    requires s != [] && Collapsed(s)
    ensures Collapsed(s[1..])
  {
    forall i | 0 <= i < |s| - 1 && IsSpace(s[1..][i])
      ensures s[1..][i] == ' ' && (i + 1 < |s| - 1 ==> !IsSpace(s[1..][i + 1]))
    {
      assert s[1..][i] == s[i + 1];
      assert i + 1 < |s| - 1 ==> s[1..][i + 1] == s[i + 2];
    }
  }

  lemma TrimLeftOneSpace(s: string)
    requires s != [] && IsSpace(s[0]) && (|s| > 1 ==> !IsSpace(s[1]))
    ensures TrimLeft(s) == s[1..]
  {
  }

  /** A string that is already collapsed is left alone. */
  lemma {:induction false} CollapseFixes(s: string)
    requires Collapsed(s)
    ensures CollapseWhitespace(s) == s
    decreases |s|
  {
    if s != [] {
      CollapsedTail(s);
      CollapseFixes(s[1..]);
      if IsSpace(s[0]) {
        assert CollapseWhitespace(s) == [' '] + CollapseWhitespace(s[1..]) by {
          TrimLeftOneSpace(s);
          CollapseSpace(s);
        }
      } else {
        CollapseWord(s);
      }
      assert s == [s[0]] + s[1..];
    }
  }

  /** Collapsing whitespace twice is the same as collapsing it once. */
  lemma CollapseIdempotent(s: string)
    ensures CollapseWhitespace(CollapseWhitespace(s)) == CollapseWhitespace(s)
  {
    CollapseFixes(CollapseWhitespace(s));
  }

  function DigitValue(c: char): (d: nat)
    requires IsDigit(c)
    ensures d < 10
  {
    c as int - '0' as int
  }

  function DigitChar(d: nat): (c: char)
    requires d < 10
    ensures IsDigit(c) && DigitValue(c) == d
  {
    ('0' as int + d) as char
  }

  /** `str(n)` for a non-negative integer. */
  function NatToString(n: nat): (r: string)
    ensures IsDigits(r)
    decreases n
  {
    if n < 10 then [DigitChar(n)] else NatToString(n / 10) + [DigitChar(n % 10)]
  }

  /** `str(i)` for any integer. */
  function IntToString(i: int): string {
    if i < 0 then "-" + NatToString(-i) else NatToString(i)
  }

  /** `int(s)` for a string of ASCII digits (leading zeros allowed). */
  function DigitsValue(s: string): nat
    requires forall i :: 0 <= i < |s| ==> IsDigit(s[i])
    decreases |s|
  {
    if s == [] then 0 else DigitsValue(s[..|s| - 1]) * 10 + DigitValue(s[|s| - 1])
  }

  /** `int(str(n)) == n`. */
  lemma {:induction false} DigitsValueOfNatToString(n: nat)
    ensures DigitsValue(NatToString(n)) == n
    decreases n
  {
    if n >= 10 {
      var s := NatToString(n);
      assert s[..|s| - 1] == NatToString(n / 10);
      DigitsValueOfNatToString(n / 10);
    }
  }

  /** `int(s)` on a decimal string: surrounding whitespace, then an optional
      sign and ASCII digits; anything else raises `ValueError`. */
  function ParseInt(s: string): (r: Option<int>)
    ensures var t := Strip(s);
            r.Some? <==> t != [] && (IsDigits(t) || ((t[0] == '+' || t[0] == '-') && IsDigits(t[1..])))
    ensures var t := Strip(s);
            r.Some? ==> (if t[0] == '-' then r.value == -(DigitsValue(t[1..]) as int)
                         else if t[0] == '+' then r.value == DigitsValue(t[1..])
                         else r.value == DigitsValue(t))
  {
    var t := Strip(s);
    if IsDigits(t) then Some(DigitsValue(t))
    else if t != [] && t[0] == '+' && IsDigits(t[1..]) then Some(DigitsValue(t[1..]))
    else if t != [] && t[0] == '-' && IsDigits(t[1..]) then Some(-(DigitsValue(t[1..]) as int))
    else None
  }

  /** `int(str(i)) == i` for every integer, with any whitespace around it. */
  lemma ParseIntOfInt(i: int, before: string, after: string)
    requires forall k :: 0 <= k < |before| ==> IsSpace(before[k])
    requires forall k :: 0 <= k < |after| ==> IsSpace(after[k])
    ensures ParseInt(before + IntToString(i) + after) == Some(i)
  {
    var t := IntToString(i);
    assert t != [] && !IsSpace(t[0]) && !IsSpace(t[|t| - 1]) by { IntToStringEnds(i); }
    assert Strip(before + t + after) == t by { StripAround(before, t, after); }
    if i < 0 {
      var d := NatToString(-i);
      assert t[0] == '-' && t[1..] == d && IsDigits(d);
      assert !IsDigits(t);
      DigitsValueOfNatToString(-i);
    } else {
      DigitsValueOfNatToString(i);
    }
  }

  /** `str(i)` starts with a digit or `-` and ends with a digit. */
  lemma IntToStringEnds(i: int)
    ensures var t := IntToString(i);
            t != [] && (IsDigit(t[0]) || t[0] == '-') && IsDigit(t[|t| - 1])
    ensures var t := IntToString(i);
            !IsSpace(t[0]) && !IsSpace(t[|t| - 1])
  {
    var t := IntToString(i);
    if i < 0 {
      var d := NatToString(-i);
      assert t == "-" + d && t[|t| - 1] == d[|d| - 1];
    }
  }

  /** Stripping whitespace from around a word without whitespace at its ends. */
  lemma {:induction false} StripAround(before: string, t: string, after: string)
    requires forall k :: 0 <= k < |before| ==> IsSpace(before[k])
    requires forall k :: 0 <= k < |after| ==> IsSpace(after[k])
    requires t != [] && !IsSpace(t[0]) && !IsSpace(t[|t| - 1])
    ensures Strip(before + t + after) == t
    decreases |before|
  {
    var s := before + t + after;
    if before == [] {
      assert s == t + after;
      assert s[0] == t[0];
      TrimRightAround(t, after);
    } else {
      assert s[0] == before[0] && s[1..] == before[1..] + t + after;
      StripAround(before[1..], t, after);
    }
  }

  lemma {:induction false} TrimRightAround(t: string, after: string)
    requires forall k :: 0 <= k < |after| ==> IsSpace(after[k])
    requires t != [] && !IsSpace(t[|t| - 1])
    ensures TrimRight(t + after) == t
    decreases |after|
  {
    var s := t + after;
    if after == [] {
      assert s == t;
    } else {
      assert s[|s| - 1] == after[|after| - 1];
      assert s[..|s| - 1] == t + after[..|after| - 1];
      TrimRightAround(t, after[..|after| - 1]);
    }
  }

  /** `int(str(n)) == n`. */
  lemma ParseIntOfNat(n: nat)
    ensures ParseInt(NatToString(n)) == Some(n)
  {
    var s := NatToString(n);
    StripDigits(s);
    DigitsValueOfNatToString(n);
  }

  /** A digit string has no whitespace to strip. */
  lemma StripDigits(s: string)
    requires IsDigits(s)
    ensures Strip(s) == s
  {
    assert !IsSpace(s[0]) && !IsSpace(s[|s| - 1]);
  }

  /** The length of the run of ASCII digits that `s` starts with. */
  function DigitRun(s: string): (n: nat)
    ensures n <= |s|
    ensures forall i :: 0 <= i < n ==> IsDigit(s[i])
    ensures n == |s| || !IsDigit(s[n])
    decreases |s|
  {
    if s != [] && IsDigit(s[0]) then 1 + DigitRun(s[1..]) else 0
  }

  lemma {:induction false} DigitRunOf(digits: string, rest: string)
    requires IsDigits(digits) && rest != [] && !IsDigit(rest[0])
    ensures DigitRun(digits + rest) == |digits|
    decreases |digits|
  {
    var s := digits + rest;
    if |digits| > 1 {
      assert s[1..] == digits[1..] + rest;
      DigitRunOf(digits[1..], rest);
    } else {
      assert s[1..] == rest;
    }
  }
}

=== FILE: wrappers.dfy ===
/** Option and Result, the two failure-compatible wrappers the model uses for
    Python's `None` results and raised exceptions. */
module Wrappers {

  datatype Option<+T> = None | Some(value: T) {
    predicate IsFailure() { None? }

    function PropagateFailure<U>(): Option<U>
      requires None?
    {
      None
    }

    function Extract(): T
      requires Some?
    {
      value
    }
  }

  datatype Result<+R, +E> = Ok(value: R) | Err(error: E) {
    predicate IsFailure() { Err? }

    function PropagateFailure<U>(): Result<U, E>
      requires Err?
    {
      Err(error)
    }

    function Extract(): R
      requires Ok?
    {
      value
    }
  }
}
